=== FILE: README.md ===
# dappfun registry front end — a Dafny model

This project models the logic inside the dappfun front end. dappfun is a Next.js application that lists
decentralised applications ("dapps") and tokens. Curators manage the lists through a token-curated registry
(TCR): a submission first waits out a challenge period. If a stake is put against it, a voting period
follows. The listing ends up approved or rejected, and the losing side's stake is partly slashed.

Everything the pages compute before they render is modelled as pure Dafny functions over immutable
datatypes, and the properties the user interface relies on are proved about them. That covers:

- the listings table pipeline: search and category/tag filtering, the trending/top/new orderings and the
  ranks shown next to each row;
- the chips, tag labels, colours, emoji and "time left" texts of the listings table and the registry rows;
- the per-listing action controls and registry cards, with their Normal/Expanded/Minimized state machine
  and the Looks Good / Challenge / Upvote / Downvote buttons each TCR status offers;
- the registry tables that split listings by TCR status;
- the activity feed: activities derived from each listing, vote percentages, slashing messages and the
  latest-ten selection;
- the search bar's keyboard and mouse state machine;
- the avatar group with its overflow badge, initials and fallback avatar URL;
- the category select and the mock curators built from mock makers.

Modules follow the source files: `Listings` (src/lib/listings.ts), `ListingsTable`, `ListingRow`,
`ListingActions`, `RegistryCard` (ListingCard.tsx), `RegistryTable`, `ActivityFeed`, `SearchBar`,
`AvatarGroup`, `CategorySelect` and `MockUsers`. The record types live in `Models`. The shared
JavaScript behaviour sits in small helper modules:

- `Seqs`: `Array.prototype.filter`, `some`, `slice` and `flatMap`.
- `Text`: ASCII `toLowerCase`/`toUpperCase`, `includes`/`indexOf`, `replace` with a string or with a
  case-insensitive literal pattern, `split(' ')`/`join(' ')` and `trim`.
- `Numerals`: number-to-text conversion in template literals, and JavaScript's truncating `%`.
- `Sorting`: the stable `Array.prototype.sort` with a descending numeric comparator.
- `Uri`: `encodeURIComponent`.
- `Formatting`: the abbreviation test and word capitalisation shared by two components.

Modelling conventions:

- The current time enters as a parameter. It is passed as the difference `end - now` in milliseconds,
  or as timestamps in milliseconds.
- Optional fields are `Option`s. `x || 0` becomes `OrZero`.
- Absent optional arrays (`tags?`, `makers?`) are empty sequences, which every use treats the same way.
- Emoji and colours are written as Unicode escapes and as a `Color` datatype.
- Percentages use exact rational rounding: `Math.round(100 * a / t)` is the integer `p` with
  `p - 1/2 <= 100a/t < p + 1/2`.

## Model

| member | source | states |
|---|---|---|
| Listings.TermInIff | src/lib/listings.ts:16-19 | a case-insensitive `includes` of the search term in a field holds exactly when the lower-cased term occurs somewhere in the lower-cased field |
| Listings.TagsMatchIff | src/lib/listings.ts:20-22 | the tag test of the search holds exactly when some tag contains the term, ignoring case |
| Listings.MakersMatchIff | src/lib/listings.ts:23-25 | the maker test of the search holds exactly when some maker's name contains the term, ignoring case |
| Listings.SearchMatchesIff | src/lib/listings.ts:15-30 | a listing survives the search step iff the term is empty or occurs (ignoring case) in its name, description, category, a tag or a maker name |
| Listings.FiltersMatchIff | src/lib/listings.ts:33-45 | a listing survives the filter step iff no filters are given or some filter equals, ignoring case, its category or one of its tags |
| Listings.KeepsIff | src/lib/listings.ts:10-47 | the filter callback accepts a listing iff it has the requested type, matches the search and matches the filters |
| Listings.FilterListings | src/lib/listings.ts:3-49 | the result is an order-preserving subsequence of the input; it holds only listings of the requested type; a listing occurs in it iff it occurs in the input and is selected, with the same multiplicity |
| Listings.FilterListingsIdempotent | src/lib/listings.ts:3-49 | filtering an already filtered list with the same arguments changes nothing |
| Listings.FilterListingsByTypeOnly | src/lib/listings.ts:12-15 | with an empty search and no filters, the result holds exactly the input listings of the requested type |
| Listings.SortListings | src/lib/listings.ts:51-74 | the result is a permutation of the input, ordered by non-increasing score for the view (trending: 30-day upvotes plus twice 30-day comments; top: upvotes plus twice comment count; new: creation time) |
| Listings.SortListingsKeepsSorted | src/lib/listings.ts:51-74 | a list already in score order comes back unchanged |
| Listings.SortListingsStable | src/lib/listings.ts:51-74 | the sort is stable: for every input, the listings sharing a score appear in the result in their input order |
| Listings.RanksFrom | src/lib/listings.ts:76-80 | every listing is kept in place with its rank set to its position plus the starting rank |
| Listings.CalculateRanks | src/lib/listings.ts:76-80 | ranks are 1, 2, 3, … in list order and nothing except the rank changes |
| Listings.RankedListingsProperties | src/app/page.tsx:18-23 | the rows the page shows are ranked 1..n consecutively, ordered by non-increasing score, and each is a selected input listing up to its rank; the number of rows equals the number of selected listings |
| Listings.RanksKeepOrder | src/app/page.tsx:18-23 | ranking a score-ordered list keeps it score-ordered |
| Listings.RankedRowsSelected | src/app/page.tsx:18-23 | every ranked row comes from an input listing that the filter selects |
| ListingsTable.HandleFilterClick | src/components/listings/table/ListingsTable.tsx:291-297 | clicking a chip toggles it: it is in the result iff it was not selected before; removing keeps the other filters in order with their multiplicities; adding appends it at the end |
| ListingsTable.ToggleTwiceRestores | src/components/listings/table/ListingsTable.tsx:291-297 | clicking an unselected chip twice restores the original filter list |
| ListingsTable.ClearedFiltersSelectAll | src/components/listings/table/ListingsTable.tsx:356 | after "clear all" the table lists exactly what it lists with no category chosen |
| ListingsTable.FormatTimeLeft | src/components/listings/table/ListingsTable.tsx:13-24 | at least an hour left prints "<hours>h left" with the whole hours (at least 1); otherwise "<minutes>m left" with the floored minutes (at most 59), negative exactly when the time has passed |
| ListingsTable.GetEmojiProperties | src/components/listings/table/ListingsTable.tsx:39-64 | the emoji lookup ignores case, and falls back to the default emoji exactly when the lower-cased category is not in the table |
| ListingsTable.ApplyAbbreviations | src/components/listings/table/ListingsTable.tsx:97-99 | rewriting abbreviations only changes letter case: same length, same lower-case form |
| ListingsTable.FormatWord | src/components/listings/table/ListingsTable.tsx:92-103 | formatting a word only changes letter case |
| ListingsTable.FormatWords | src/components/listings/table/ListingsTable.tsx:90-104 | each word of the tag is formatted on its own, in place |
| ListingsTable.FormatTag | src/components/listings/table/ListingsTable.tsx:80-105 | a formatted tag differs from the tag only in letter case and has the same words; a whole-tag abbreviation is upper-cased; any other tag is the word-by-word formatting of its words |
| ListingsTable.FormattedWordsSplit | src/components/listings/table/ListingsTable.tsx:89-104 | splitting the joined formatted words gives back exactly those words |
| ListingsTable.FormatTagKeepsCase | src/components/listings/table/ListingsTable.tsx:80-105 | both branches of the tag formatter keep length, lower-case form and word count |
| ListingsTable.FormatTagWholeAbbreviation | src/components/listings/table/ListingsTable.tsx:85-87 | a whole-tag abbreviation in any case is upper-cased: "nft" is shown as "NFT" and "Dao" as "DAO" |
| ListingsTable.FormatTagDefi | src/components/listings/table/ListingsTable.tsx:82-102 | "defi" alone is shown as "Defi": the "DeFi" entry never equals or occurs in an upper-cased tag, so it never makes a tag or word count as an abbreviation |
| ListingsTable.FormatTagDefiInsideWord | src/components/listings/table/ListingsTable.tsx:95-99 | once another abbreviation matches, the rewrite runs over every entry, "DeFi" included: "defiai" is shown as "DeFiAI" |
| ListingsTable.FormatTagEmail | src/components/listings/table/ListingsTable.tsx:95-99 | the substring rewrite turns "email" into "emAIl", because "AI" matches inside the word |
| ListingsTable.DeFiWordIsCapitalized | src/components/listings/table/ListingsTable.tsx:95-102 | a word containing none of NFT, DEX, DAO or AI is capitalised (first letter upper, the rest lower) |
| ListingsTable.ChipLabel | src/components/listings/table/ListingsTable.tsx:300-302 | a chip that names some listing's category is shown upper-cased, any other chip as a formatted tag; either way only the case changes |
| ListingsTable.CategoryColor | src/components/listings/table/ListingsTable.tsx:139-158 | the chip colour comes from the dapp table or the token table according to the listing type, keyed by the lower-cased category, with gray for a missing entry |
| ListingsTable.CategoryColorDependsOnType | src/components/listings/table/ListingsTable.tsx:139-158 | the same category can get different colours for dapps and tokens ("DeFi" is blue for dapps and gray for tokens; "infrastructure" the other way round) |
| ListingRow.HoursPart | src/components/registry/ListingRow.tsx:18 | the hours shown are the floor of the time left in hours, positive exactly when at least an hour is left |
| ListingRow.MinutesPart | src/components/registry/ListingRow.tsx:19 | with time left, the minutes are 0..59 and, together with the hours, give the whole minutes left; once the end has passed they lie in -60..0 (JavaScript `%` keeps the sign) |
| ListingRow.MinutesPartBounds | src/components/registry/ListingRow.tsx:19 | the truncating remainder by an hour, divided into minutes, lies in 0..59 for a non-negative difference and in -60..0 otherwise |
| ListingRow.FormatTimeLeft | src/components/registry/ListingRow.tsx:13-25 | no end time gives "N/A"; otherwise the text ends in 'm', contains 'h' exactly when an hour or more is left, and its numbers read back as the hours and minutes |
| ListingRow.TimeLeftWithinHour | src/components/registry/ListingRow.tsx:18-24 | under an hour left, the row shows only the whole minutes followed by "m" |
| ListingRow.CategoryColor | src/components/registry/ListingRow.tsx:140-149 | the row's category colour is the table entry of the lower-cased category, and gray exactly when there is none |
| ListingRow.CategoryColorAgrees | src/components/registry/ListingRow.tsx:140-149 | the row colour ignores case and agrees with the listings table's dapp colours |
| ListingRow.CapitalizeWords | src/components/registry/ListingRow.tsx:157-160 | every word of the tag is capitalised, in place |
| ListingRow.FormatTag | src/components/registry/ListingRow.tsx:152-161 | the row's tag label only changes letter case; an abbreviation is upper-cased; any other tag is the capitalised words joined by spaces |
| ListingRow.FormatTagIdempotent | src/components/registry/ListingRow.tsx:152-161 | formatting a formatted tag changes nothing |
| ListingRow.FormatTagDefi | src/components/registry/ListingRow.tsx:153-160 | "defi" is shown as "Defi" |
| ListingRow.FormatTagWholeAbbreviation | src/components/registry/ListingRow.tsx:153-155 | "ai" is shown as "AI" |
| ListingRow.FormatTagAbbreviationWord | src/components/registry/ListingRow.tsx:153-160 | the row formatter only recognises whole-tag abbreviations: "NFT art" becomes "Nft Art" |
| ListingRow.Truncate | src/components/registry/ListingRow.tsx:204-211 | the shown items are a prefix of at most the limit; the "+n more" count exists exactly when items are hidden and equals their number |
| ListingRow.MoreLabel | src/components/registry/ListingRow.tsx:210 | the overflow label is "+<n> more" and its number reads back as n |
| ListingRow.ToggleTwice | src/components/registry/ListingRow.tsx:164-171 | two clicks restore the original state |
| ListingRow.Buttons | src/components/registry/ListingRow.tsx:314-345 | an expanded row in the challenge period offers Challenge, one in the voting period offers Approve and Reject, and nothing else is offered |
| ListingRow.Render | src/components/registry/ListingRow.tsx:201-305 | the row shows the upper-cased category in its colour; exactly min(3, tags) formatted tags and min(4, makers) makers, with a "+n" count exactly when some are hidden; the time left and the challenger always; all tags and the buttons only when expanded |
| ListingActions.Controls | src/components/listings/table/ListingActions.tsx:8-62 | no TCR status means no controls; the challenge period offers only Challenge with the stake; the voting period offers Approve and Reject with the counts (missing counts show as 0) and the challenger's reason; decided listings offer nothing |
| ListingActions.AgreesWithRow | src/components/listings/table/ListingActions.tsx:12-54 | the table's action controls and the expanded registry row offer the same Challenge/Approve/Reject choices for every status |
| RegistryCard.Buttons | src/components/registry/ListingCard.tsx:103-146 | Looks Good and Challenge appear exactly in the challenge period, Upvote and Downvote exactly in the voting period, and decided listings have no buttons |
| RegistryCard.StepKeepsValid | src/components/registry/ListingCard.tsx:17-56 | every gesture keeps the card invariant: an action is recorded exactly when the card is minimised |
| RegistryCard.RunKeepsValid | src/components/registry/ListingCard.tsx:17-56 | any sequence of gestures keeps the card invariant |
| RegistryCard.StepTable | src/components/registry/ListingCard.tsx:25-70 | clicks expand a Normal card, leave an Expanded one and restore a Minimized one; the Challenge button changes nothing; any other offered button minimises with that action |
| RegistryCard.ActThenUndo | src/components/registry/ListingCard.tsx:32-56 | any offered action other than Challenge minimises the card, and undo then returns it to the initial state |
| RegistryCard.DecidedCardNeverActs | src/components/registry/ListingCard.tsx:21-22 | a card for an approved or rejected listing never reaches the minimised state, whatever the user does |
| RegistryCard.MinimizedTint | src/components/registry/ListingCard.tsx:60-61 | a minimised card is tinted red exactly after a downvote |
| RegistryCard.ActionLabel | src/components/registry/ListingCard.tsx:62-66 | the minimised card reads "Looks Good", "Upvoted" or "Downvoted" for the matching action |
| RegistryCard.ActionLabelsDistinct | src/components/registry/ListingCard.tsx:62-66 | different actions show different labels |
| RegistryTable.Select | src/components/registry/RegistryTable.tsx:13 | the table's listings are an order-preserving subsequence holding exactly the listings with that status, each as often as in the input |
| RegistryTable.Render | src/components/registry/RegistryTable.tsx:15-33 | the placeholder appears exactly when no listing has the status; otherwise there is one card per selected listing, in order |
| RegistryTable.CardsCarryStatus | src/components/registry/RegistryTable.tsx:25-31 | every card shown is an input listing with the table's status and is given that status |
| RegistryTable.TablesDisjoint | src/components/registry/RegistryTable.tsx:13 | no listing appears in the tables of two different statuses |
| RegistryTable.TablesCoverAll | src/components/registry/RegistryTable.tsx:13 | the four status tables together hold exactly as many listings as the input |
| ActivityFeed.RoundedPercent | src/components/registry/ActivityFeed.tsx:24-25 | the result is `Math.round(100 * part / total)`, i.e. within half a point of the exact percentage, rounding halves up; a part of the total gives 0..100 |
| ActivityFeed.RoundedAbove | src/components/registry/ActivityFeed.tsx:34-37 | the rounded percentage exceeds k exactly when the exact percentage is at least k + 1/2 |
| ActivityFeed.VotePercentages | src/components/registry/ActivityFeed.tsx:22-27 | both percentages lie in 0..100 and each is the rounded share of its side |
| ActivityFeed.PercentagesSum | src/components/registry/ActivityFeed.tsx:22-26 | the two percentages add up to 100, or to 101 exactly when both shares end in exactly one half |
| ActivityFeed.SlashedPercent | src/components/registry/ActivityFeed.tsx:34-38 | the slashed share is 25% per threshold (60, 70, 80, 90) strictly exceeded: 0, 25, 50, 75 or 100 |
| ActivityFeed.SlashedPercentMonotone | src/components/registry/ActivityFeed.tsx:34-38 | a larger winning margin never slashes less |
| ActivityFeed.SlashingBoundaries | src/components/registry/ActivityFeed.tsx:34-38 | the thresholds are strict: 60 slashes nothing and 61 slashes 25%, and likewise at 70, 80 and 90 |
| ActivityFeed.SlashingInfo | src/components/registry/ActivityFeed.tsx:29-38 | a rejection slashes the submitter by the slashed percentage of the against-share, an approval the challenger by that of the for-share; the percentage is one of 0, 25, 50, 75, 100; with no votes nothing is slashed |
| ActivityFeed.SlashingMessage | src/components/registry/ActivityFeed.tsx:32-38 | the message names the slashed party at its end, starts with "No" exactly when nothing is slashed, and otherwise starts with the slashed percentage and '%' |
| ActivityFeed.ChallengeEntries | src/components/registry/ActivityFeed.tsx:70-79 | a challenge activity exists exactly when the listing has a challenger, attributed to the challenger |
| ActivityFeed.OutcomeEntries | src/components/registry/ActivityFeed.tsx:82-92 | an outcome activity exists exactly for approved or rejected listings, of the matching kind, with id "<id>-approved" or "<id>-rejected", attributed to the submitter, dated `updatedAt` or else `submittedAt`, and carrying the listing's votes |
| ActivityFeed.AutoEntries | src/components/registry/ActivityFeed.tsx:95-105 | an approved listing without a challenger also gets an "<id>-auto-approved" approval |
| ActivityFeed.ListingActivities | src/components/registry/ActivityFeed.tsx:58-108 | each listing yields 1 to 3 activities: its submission first, a challenge iff challenged, an outcome iff decided, and a second approval iff approved without challenge |
| ActivityFeed.ActivityCounts | src/components/registry/ActivityFeed.tsx:59-108 | counts per activity kind: one submission, one challenge iff challenged, one rejection iff rejected, one or two approvals iff approved |
| ActivityFeed.ActivityOutcomes | src/components/registry/ActivityFeed.tsx:82-92 | the activities contain an outcome exactly when the listing is approved or rejected |
| ActivityFeed.ActivityShape | src/components/registry/ActivityFeed.tsx:59-108 | the submission comes first, challenges carry the challenger and the votes, and every activity carries the listing's name, its logo (or the fallback logo) and its submission type |
| ActivityFeed.AllActivities | src/components/registry/ActivityFeed.tsx:58-109 | the flattened feed has between one and three activities per listing |
| ActivityFeed.AllActivitiesConcat | src/components/registry/ActivityFeed.tsx:58-109 | the feed of two lists of listings is the first list's feed followed by the second's |
| ActivityFeed.AllActivitiesMembers | src/components/registry/ActivityFeed.tsx:58-109 | an activity is in the feed exactly when it is one of some listing's activities |
| ActivityFeed.GenerateActivities | src/components/registry/ActivityFeed.tsx:112-114 | the feed shows the newest ten activities (or all, if fewer), newest first, drawn from all activities, and no omitted activity is newer than a shown one |
| ActivityFeed.UnchallengedApprovalTexts | src/components/registry/ActivityFeed.tsx:144-148 | an approved, unchallenged listing always produces an "approved without challenge" entry, and its outcome entry reads "approved by vote" exactly when the listing carries votes |
| SearchBar.OpenResult | src/components/layout/Navigation/SearchBar/SearchBar.tsx:80-85 | opening a result navigates to "/dapp/<id>" and clears the query and the results |
| SearchBar.KeyDown | src/components/layout/Navigation/SearchBar/SearchBar.tsx:55-78 | without results keys do nothing; ArrowDown/ArrowUp move the selection within bounds; Enter on a selection opens it; Escape closes the results |
| SearchBar.Step | src/components/layout/Navigation/SearchBar/SearchBar.tsx:22-136 | every event keeps the selection in range; submitting, or Enter with no selected result (which submits the one-field form), searches: a blank query changes nothing, a non-blank one shows the mock results with nothing selected; Enter on a selected result opens it; navigation only goes to a shown result and clears the bar |
| SearchBar.KeysWithoutResults | src/components/layout/Navigation/SearchBar/SearchBar.tsx:55-56 | with no results every key but Enter changes nothing, and Enter does what submitting the form does |
| SearchBar.EnterSearches | src/components/layout/Navigation/SearchBar/SearchBar.tsx:34-71 | Enter with nothing selected and a non-blank query shows the results with nothing selected and does not navigate |
| SearchBar.DownThenUp | src/components/layout/Navigation/SearchBar/SearchBar.tsx:58-66 | ArrowDown then ArrowUp returns to the same selection, except that from "nothing selected" it ends on the first result |
| SearchBar.UpKeepsSelection | src/components/layout/Navigation/SearchBar/SearchBar.tsx:63-66 | ArrowUp never clears an existing selection |
| SearchBar.Run | src/components/layout/Navigation/SearchBar/SearchBar.tsx:14-17 | any possible event sequence keeps the search bar state valid |
| AvatarGroup.Display | src/components/common/AvatarGroup.tsx:11-13 | the shown avatars are a prefix of at most `limit`; the "+n" badge appears exactly when avatars are hidden and counts them |
| AvatarGroup.DefaultDisplay | src/components/common/AvatarGroup.tsx:11-13 | by default at most three avatars are shown and the badge counts the rest |
| AvatarGroup.FirstChar | src/components/common/AvatarGroup.tsx:18 | a name part contributes its first character, or nothing when empty |
| AvatarGroup.WordStarts | src/components/common/AvatarGroup.tsx:15-21 | the characters that start words never include a space |
| AvatarGroup.FirstCharsOfSplit | src/components/common/AvatarGroup.tsx:15-19 | taking the first character of each space-separated part gives exactly the characters that start a word |
| AvatarGroup.InitialsAreWordStarts | src/components/common/AvatarGroup.tsx:15-21 | the initials are the upper-cased word starts of the name, contain no space and are no longer than the name |
| AvatarGroup.FallbackUrl | src/components/common/AvatarGroup.tsx:23-26 | the fallback URL is the avatar service prefix followed by the URI-encoded name, which decodes back to the name |
| AvatarGroup.FallbackUrlInjective | src/components/common/AvatarGroup.tsx:23-26 | different names get different fallback URLs |
| AvatarGroup.Source | src/components/common/AvatarGroup.tsx:37 | a non-empty avatar URL is used as is; otherwise the fallback URL |
| AvatarGroup.EscapeApostrophes | src/components/common/AvatarGroup.tsx:42 | the URL parser leaves no apostrophe in the query; a query without one is unchanged and one with one grows |
| AvatarGroup.SrcProperty | src/components/common/AvatarGroup.tsx:42 | a generated-avatar URL reads back with the same prefix and no apostrophe in the seed, unchanged exactly when the seed had none |
| AvatarGroup.OnErrorAsWritten | src/components/common/AvatarGroup.tsx:40-45 | the handler as written assigns the generated avatar exactly when the read-back source differs from the unparsed generated URL |
| AvatarGroup.ApostropheNeverSettles | src/components/common/AvatarGroup.tsx:40-45 | for a name with an apostrophe the handler as written reassigns the generated avatar on every error |
| AvatarGroup.FallbackReadsBack | src/components/common/AvatarGroup.tsx:23-26 | a generated URL for a name without an apostrophe reads back unchanged |
| AvatarGroup.AsWrittenAgreesWithoutApostrophe | src/components/common/AvatarGroup.tsx:40-45 | for names without an apostrophe the handler as written and the corrected one agree |
| AvatarGroup.OnError | src/components/common/AvatarGroup.tsx:40-45 | a failing image switches to the generated avatar exactly when it does not already show it, both sides compared as `img.src` reads them back |
| AvatarGroup.ErrorSettles | src/components/common/AvatarGroup.tsx:40-45 | after one error the image shows the generated avatar, and a second error changes nothing, for every name |
| MockUsers.CuratorId | src/data/mock-users.ts:96 | the id has the name's length; a name without a space gives its lower-cased form; otherwise the first space is replaced by '-' in the lower-cased name |
| MockUsers.TwoWordId | src/data/mock-users.ts:96 | "First Last" gets the id "first-last" |
| MockUsers.IdStart | src/data/mock-users.ts:96 | the id starts with the lower-cased first two characters of the name |
| MockUsers.RoleAction | src/data/mock-users.ts:104 | a submitter's action is submit, an editor's is edit, anyone else's is vote |
| MockUsers.FindMaker | src/data/mock-users.ts:99 | the first maker with that name, and none exactly when no maker has it |
| MockUsers.CuratorAvatar | src/data/mock-users.ts:99-100 | a maker's non-empty avatar is reused; otherwise a dicebear URL seeded with the name without its first space |
| MockUsers.SlugStart | src/data/mock-users.ts:110-124 | each mock curator's id starts with the expected two letters |
| MockUsers.LowerSeedStart | src/data/mock-users.ts:110-124 | the lower-cased start of each mock name is that two-letter slug |
| MockUsers.SlugStartsDistinct | src/data/mock-users.ts:110-124 | the mock names' two-letter starts are pairwise different |
| MockUsers.MockCuratorIdsDistinct | src/data/mock-users.ts:110-124 | no two mock curators share an id |
| CategorySelect.OfTypeIff | src/components/listings/table/CategorySelect.tsx:14 | a category is offered for a listing type exactly when its category type matches |
| CategorySelect.TypeCategories | src/components/listings/table/CategorySelect.tsx:14 | the offered categories are, in order, exactly those of the listing's type |
| CategorySelect.Options | src/components/listings/table/CategorySelect.tsx:26-31 | "All Categories" with the empty value comes first, then one option per offered category with its id and label |
| CategorySelect.ChosenValueIsCategoryOfType | src/components/listings/table/CategorySelect.tsx:14-31 | the reported value is empty for "All Categories" and otherwise the id of a category of the listing's type |
| CategorySelect.SampleOptions | src/data/mock-data.ts:4-66 | with the sample categories, dapps are offered the first five and tokens the rest |
| CategorySelect.SampleDapp | src/data/mock-data.ts:4-66 | the dapp options of the sample categories are its first five entries |
| CategorySelect.SampleToken | src/data/mock-data.ts:4-66 | the token options of the sample categories are the entries after the fifth |
| Formatting.IsAbbreviationIff | src/components/registry/ListingRow.tsx:153-155 | a tag counts as an abbreviation exactly when its upper-cased form is NFT, DEX, DAO or AI |
| Formatting.DeFiNeverMatches | src/components/listings/table/ListingsTable.tsx:82-87 | no upper-cased string equals or contains "DeFi", so that entry never makes a tag or a word count as an abbreviation (it still rewrites "defi" inside a word another abbreviation matched) |
| Formatting.Capitalize | src/components/registry/ListingRow.tsx:159 | the first letter is upper-cased and the rest lower-cased; nothing but case changes |
| Formatting.CapitalizeIdempotent | src/components/listings/table/ListingsTable.tsx:102 | capitalising twice is capitalising once |
| Seqs.Filter | src/lib/listings.ts:9-10 | `Array.prototype.filter`: an order-preserving subsequence holding exactly the elements that pass |
| Seqs.FilterCounts | src/lib/listings.ts:9-10 | each passing element keeps its multiplicity and each failing one disappears |
| Seqs.FilterIdempotent | src/lib/listings.ts:9-10 | filtering twice with the same predicate is filtering once |
| Seqs.FilterConcat | src/components/listings/table/ListingsTable.tsx:291-297 | filtering distributes over concatenation (used to show that removing an appended chip restores the list) |
| Seqs.FlatMapBounds | src/components/registry/ActivityFeed.tsx:58 | if every image has between lo and hi elements, the flattened result has between lo and hi per input element |
| Seqs.FlatMapConcat | src/components/registry/ActivityFeed.tsx:58 | `flatMap` of a concatenation is the concatenation of the two results |
| Seqs.FlatMapMembers | src/components/registry/ActivityFeed.tsx:58 | a value is in the `flatMap` result exactly when it is in the image of some element |
| Seqs.SlicePrefix | src/components/common/AvatarGroup.tsx:12 | `slice(0, end)` is a prefix, of length `end` clamped to the array for non-negative `end` |
| Text.IndexOf | src/lib/listings.ts:17 | `indexOf` returns the first position where the needle occurs, or none if it occurs nowhere |
| Text.ContainsIff | src/lib/listings.ts:17 | `includes` holds exactly when the needle occurs at some position |
| Text.ReplaceFirstIgnoringCase | src/components/listings/table/ListingsTable.tsx:97-99 | the first case-insensitive occurrence of the pattern is rewritten to the pattern's spelling; nothing else changes and the lower-case form is kept |
| Text.JoinSplit | src/components/registry/ListingRow.tsx:157-160 | joining the parts of `split(' ')` with spaces gives back the string |
| Text.SplitJoin | src/components/registry/ListingRow.tsx:157-160 | splitting a join of space-free parts gives the parts back |
| Text.TrimEmptyIff | src/components/layout/Navigation/SearchBar/SearchBar.tsx:36 | a query trims to nothing exactly when it is all whitespace |
| Numerals.ParseIntRoundTrip | src/components/listings/table/ListingsTable.tsx:21-23 | the decimal text printed for an integer reads back as that integer |
| Numerals.JsRem | src/components/registry/ListingRow.tsx:19 | JavaScript's `%`: the remainder of truncating division, with the sign of the dividend and smaller in size than the divisor |
| Sorting.SortDesc | src/components/registry/ActivityFeed.tsx:113 | the stable descending sort returns a permutation ordered by non-increasing key |
| Sorting.SortDescOfSorted | src/components/registry/ActivityFeed.tsx:113 | an already ordered list comes back unchanged |
| Sorting.SortDescStable | src/components/registry/ActivityFeed.tsx:113 | the sort is stable: for every input and key value, the elements with that key appear in the result in their input order |
| Sorting.InsertTies | src/components/registry/ActivityFeed.tsx:113 | inserting an element puts it first among the elements of its key and keeps their order |
| Sorting.TakeLargest | src/components/registry/ActivityFeed.tsx:113-114 | sort then `slice(0, n)` keeps the n largest keys in order, and nothing left out is larger than anything kept |
| Uri.Utf8RoundTrip | src/components/common/AvatarGroup.tsx:25 | UTF-8 encoding a character and decoding it gives the character back |
| Uri.Encode | src/components/common/AvatarGroup.tsx:25 | `encodeURIComponent` output has only unreserved characters and %XX escapes, and leaves an unreserved string unchanged |
| Uri.DecodeEncode | src/components/common/AvatarGroup.tsx:25 | decoding an encoded string gives the string back |
| Uri.EncodeInjective | src/components/common/AvatarGroup.tsx:25 | different strings encode differently |
| Uri.EncodeApostrophe | src/components/common/AvatarGroup.tsx:25 | `encodeURIComponent` keeps an apostrophe exactly when the input has one |

## Findings

| source | as written | input that shows it | evidently intended | confidence | as-written member | corrected member |
|---|---|---|---|---|---|---|
| src/components/common/AvatarGroup.tsx:40-45 | `onError` compares `img.src`, which reads back the parsed URL, with the unparsed `getFallbackAvatar(name)`; parsing escapes `'` in the query as `%27`, which `encodeURIComponent` leaves alone | an avatar named "O'Brien" whose generated avatar fails to load: every error assigns the same URL again, so the image reloads without end | assign the generated avatar once and stop when it fails too | medium, not executed | AvatarGroup.OnErrorAsWritten, AvatarGroup.ApostropheNeverSettles | AvatarGroup.OnError, AvatarGroup.ErrorSettles |

## Left out

- Rendering is not modelled: JSX markup, CSS classes, `next/image`, `next/link`, transitions and hover styling. Only the data each component decides to show is modelled.
- The clock is a parameter. `Date.now()`, `new Date(...)` and date-string parsing enter as millisecond timestamps or as the difference `end - now`. Invalid dates (NaN) are not modelled.
- `Math.random()` and the random dates of the mock data are parameters: `MockCurators` takes the action timestamps as input.
- Floating point is replaced by exact rationals. `Math.round(x / t * 100)` is exact round-half-up, so binary rounding of the quotient, which can move a percentage sitting exactly on .5, is not modelled.
- Case mapping is ASCII only. `toLowerCase`/`toUpperCase` of non-ASCII letters and locale rules are left out.
- The regular-expression engine is left out. Only `new RegExp(abbr, 'i')` with the fixed literal abbreviations, which contain no metacharacters, is modelled.
- The emoji lookup in ListingsTable.tsx is a plain object. Keys such as "constructor" would hit `Object.prototype`; the model treats the table as a map.
- SearchBar's `isSearching` flag is left out. The submit handler sets it and clears it within the same call, so it only affects styling.
- SearchBar.KeyDown requires the state invariant (the selection lies within the results) that every reachable state has.
- ActivityFeed.VotePercentages requires a positive vote total. With zero votes the source divides 0 by 0 and shows NaN percentages, which the model does not represent.
- ActivityFeed.SubmissionTypeLabel and ActivityFeed.ActivityText only return fixed texts. They have no contract of their own; UnchallengedApprovalTexts states what they show.
- The first-letter logo placeholder of the rows, editing mode and edited-field highlighting are left out. They only affect presentation.
- AvatarGroup.SrcProperty: only the apostrophe rewrite the URL parser applies to generated-avatar URLs is modelled. Other avatar URLs are taken as already serialised, so their normalisation (host case, default ports, path escapes) is left out.
- Strings are sequences of Unicode scalar values, while JavaScript indexes UTF-16 code units. `part[0]` in `getInitials` takes half of a surrogate pair for a name starting with an astral character, and `.length` counts code units; neither is modelled.
- Empty or placeholder handlers (the TODO vote, challenge and submit callbacks, SubmitListingButton, WalletButton) are left out: they compute nothing.
- `Uri.Decode` is the inverse used to state the round trip. It accepts only the upper-case hex that `encodeURIComponent` produces, not every percent-encoding.
- Uri: the `URIError` that `encodeURIComponent` throws for a lone surrogate cannot arise. Dafny characters are Unicode scalar values.
- The page wiring other than the ranking pipeline (view/search/filter state hooks, tabs, the context providers) is left out, because it only passes state into the modelled functions.
- The mock makers and listings are kept only as far as the modelled properties use them: makers' names and avatars, and the sample categories' types.

=== FILE: activity_feed.dfy ===
/** The registry's activity feed: vote percentages, the slashing tiers, and the entries derived
    from each registry submission. Models src/components/registry/ActivityFeed.tsx. */
module ActivityFeed {
  import opened Wrappers
  import opened Models
  import Numerals
  import Sorting
  import Seqs

  // ---------------------------------------------------------------- vote percentages

  /** `Math.round(part / total * 100)` on exact rationals: round half up of 100 * part / total. */
  function RoundedPercent(part: nat, total: nat): (p: int)
    requires total > 0
    ensures 2 * total * p <= 200 * part + total < 2 * total * (p + 1)
    ensures part <= total ==> 0 <= p <= 100
  {
    var n := 200 * part + total;
    var d := 2 * total;
    var p := n / d;
    assert n == d * p + n % d;
    assert part <= total ==> p <= 100 by {
      if part <= total {
        assert n < d * 101;
        DivBelow(n, d, 101);
      }
    }
    p
  }

  lemma DivBelow(n: nat, d: nat, m: nat)
    requires d > 0 && n < d * m
    ensures n / d < m
  {
    assert n == d * (n / d) + n % d;
  }

  lemma MulMonotone(t: int, x: int, y: int)
    requires t > 0 && x < y
    ensures t * x < t * y
  {
  }

  /** A rounded percentage exceeds `k` exactly when the exact value reaches `k + 1/2`. */
  lemma RoundedAbove(part: nat, total: nat, k: nat)
    requires total > 0
    ensures RoundedPercent(part, total) > k <==> 200 * part >= (2 * k + 1) * total
  {
    var p := RoundedPercent(part, total);
    if p > k {
      assert 2 * total * (k + 1) <= 2 * total * p;
    } else {
      assert 2 * total * p <= 2 * total * k;
    }
  }

  datatype Percentages = Percentages(forPercent: int, againstPercent: int)

  /** `getVotePercentages`; with no votes at all the source divides by zero, so at least one
      vote is required. */
  function VotePercentages(v: Votes): (r: Percentages)
    requires v.votesFor + v.votesAgainst > 0
    ensures 0 <= r.forPercent <= 100 && 0 <= r.againstPercent <= 100
    ensures var t := v.votesFor + v.votesAgainst;
      && 2 * t * r.forPercent <= 200 * v.votesFor + t < 2 * t * (r.forPercent + 1)
      && 2 * t * r.againstPercent <= 200 * v.votesAgainst + t < 2 * t * (r.againstPercent + 1)
  {
    var total := v.votesFor + v.votesAgainst;
    Percentages(RoundedPercent(v.votesFor, total), RoundedPercent(v.votesAgainst, total))
  }

  /** A multiple of `d` in [0, 2d) is 0 or d. */
  lemma SmallMultiple(d: int, k: int)
    requires d > 0 && 0 <= d * k < 2 * d
    ensures k == 0 || k == 1
  {
    if k > 2 { MulMonotone(d, 2, k); }
    if k < 0 { MulMonotone(d, k, 0); }
  }

  lemma SplitRounding(d: int, x: int, y: int, px: int, py: int)
    requires d > 0 && x + y == 101 * d
    requires d * px <= x < d * (px + 1)
    requires d * py <= y < d * (py + 1)
    ensures px + py == 100 || px + py == 101
    ensures px + py == 101 <==> x == d * px
  {
    var rx := x - d * px;
    var ry := y - d * py;
    assert d * (px + 1) == d * px + d;
    assert d * (py + 1) == d * py + d;
    var k := 101 - px - py;
    assert d * k == d * 101 - d * px - d * py;
    assert d * k == rx + ry;
    SmallMultiple(d, k);
  }

  /** The two percentages add up to 100, or to 101 exactly when both exact values end in .5. */
  lemma PercentagesSum(v: Votes)
    requires v.votesFor + v.votesAgainst > 0
    ensures var p := VotePercentages(v);
      var t := v.votesFor + v.votesAgainst;
      && (p.forPercent + p.againstPercent == 100 || p.forPercent + p.againstPercent == 101)
      && (p.forPercent + p.againstPercent == 101 <==> (200 * v.votesFor + t) % (2 * t) == 0)
  {
    var t := v.votesFor + v.votesAgainst;
    var d := 2 * t;
    var x := 200 * v.votesFor + t;
    var p := VotePercentages(v);
    SplitRounding(d, x, 200 * v.votesAgainst + t, p.forPercent, p.againstPercent);
    DivUnique(x, d, p.forPercent);
  }

  /** The quotient and remainder of `x` by `d` are fixed by bounds on `d * q`. */
  lemma DivUnique(x: int, d: int, q: int)
    requires d > 0 && d * q <= x < d * (q + 1)
    ensures x / d == q && x % d == x - d * q
  {
    var q', r' := x / d, x % d;
    assert x == d * q' + r';
    assert d * (q + 1) == d * q + d;
    var k := q' - q;
    assert d * k == d * q' - d * q;
    SmallNegMultiple(d, k);
  }

  /** A multiple of `d` strictly between `-d` and `d` is zero. */
  lemma SmallNegMultiple(d: int, k: int)
    requires d > 0 && -d < d * k < d
    ensures k == 0
  {
  }

  // ---------------------------------------------------------------- slashing

  datatype Party = Submitter | Challenger {
    function Name(): string {
      match this
      case Submitter => "submitter"
      case Challenger => "challenger"
    }
  }

  datatype Slashing = Slashing(percent: nat, target: Party)

  /** Thresholds 60, 70, 80 and 90 that `margin` strictly exceeds. */
  function ThresholdsPassed(margin: int): nat {
    (if margin > 60 then 1 else 0) + (if margin > 70 then 1 else 0)
    + (if margin > 80 then 1 else 0) + (if margin > 90 then 1 else 0)
  }

  /** The tier table of `getSlashingInfo`: > 90 -> 100, > 80 -> 75, > 70 -> 50, > 60 -> 25, else 0. */
  function SlashedPercent(margin: int): (p: nat)
    ensures p == 25 * ThresholdsPassed(margin)
    ensures p == 0 || p == 25 || p == 50 || p == 75 || p == 100
  {
    if margin > 90 then 100
    else if margin > 80 then 75
    else if margin > 70 then 50
    else if margin > 60 then 25
    else 0
  }

  /** A larger margin never slashes less. */
  lemma SlashedPercentMonotone(a: int, b: int)
    requires a <= b
    ensures SlashedPercent(a) <= SlashedPercent(b)
  {
  }

  /** The comparisons are strict: a margin of exactly 60, 70, 80 or 90 falls into the lower tier. */
  lemma SlashingBoundaries()
    ensures SlashedPercent(60) == 0 && SlashedPercent(61) == 25
    ensures SlashedPercent(70) == 25 && SlashedPercent(71) == 50
    ensures SlashedPercent(80) == 50 && SlashedPercent(81) == 75
    ensures SlashedPercent(90) == 75 && SlashedPercent(91) == 100
  {
  }

  /** `getSlashingInfo`: a rejected submission slashes the submitter by the against-share, an
      approved one the challenger by the for-share. In raw votes, with w the winning side's
      votes and t the total, each tier starts where 200 w reaches 121 t, 141 t, 161 t, 181 t.
      With no votes at all the source's percentages are NaN, every comparison fails and nothing
      is slashed. */
  function SlashingInfo(v: Votes, isRejected: bool): (s: Slashing)
    ensures s.target == if isRejected then Submitter else Challenger
    ensures s.percent == 0 || s.percent == 25 || s.percent == 50 || s.percent == 75 || s.percent == 100
    ensures v.votesFor + v.votesAgainst == 0 ==> s.percent == 0
    ensures v.votesFor + v.votesAgainst > 0 ==>
      s.percent == SlashedPercent(if isRejected then VotePercentages(v).againstPercent else VotePercentages(v).forPercent)
    ensures var w := if isRejected then v.votesAgainst else v.votesFor;
      var t := v.votesFor + v.votesAgainst;
      t > 0 ==>
      && (s.percent >= 25 <==> 200 * w >= 121 * t)
      && (s.percent >= 50 <==> 200 * w >= 141 * t)
      && (s.percent >= 75 <==> 200 * w >= 161 * t)
      && (s.percent == 100 <==> 200 * w >= 181 * t)
  {
    var target := if isRejected then Submitter else Challenger;
    var w := if isRejected then v.votesAgainst else v.votesFor;
    var t := v.votesFor + v.votesAgainst;
    if t == 0 then Slashing(0, target)
    else
      var p := VotePercentages(v);
      var margin := if isRejected then p.againstPercent else p.forPercent;
      assert margin == RoundedPercent(w, t);
      RoundedAbove(w, t, 60);
      RoundedAbove(w, t, 70);
      RoundedAbove(w, t, 80);
      RoundedAbove(w, t, 90);
      Slashing(SlashedPercent(margin), target)
  }

  /** The sentence `getSlashingInfo` returns. */
  function SlashingMessage(s: Slashing): (m: string)
    ensures |m| > |s.target.Name()|
    ensures m[|m| - |s.target.Name()|..] == s.target.Name()
    ensures m[0] == 'N' <==> s.percent == 0
    ensures s.percent > 0 ==>
      var d := Numerals.NatToString(s.percent); |d| < |m| && m[..|d|] == d && m[|d|] == '%'
  {
    if s.percent == 0 then "No tokens were slashed from the " + s.target.Name()
    else Numerals.NatToString(s.percent) + "% of staked tokens were slashed from the " + s.target.Name()
  }

  // ---------------------------------------------------------------- activities

  datatype ActivityKind = Submission | Challenge | ApprovedOutcome | RejectedOutcome

  datatype Activity = Activity(
    id: string,
    kind: ActivityKind,
    listingName: string,
    listingLogo: string,
    user: Option<User>,
    timestamp: int,
    submissionType: SubmissionType,
    votes: Option<Votes>)

  const FallbackLogo: string := "https://api.dicebear.com/7.x/shapes/svg?seed=fallback"

  /** How many entries the feed shows. */
  const FeedLength: nat := 10

  /** `listing.logo || fallback`. */
  function LogoOf(l: TcrListing): string {
    if l.logo != "" then l.logo else FallbackLogo
  }

  function CountKind(acts: seq<Activity>, k: ActivityKind): nat {
    if |acts| == 0 then 0 else (if acts[0].kind == k then 1 else 0) + CountKind(acts[1..], k)
  }

  lemma {:induction false} CountKindConcat(a: seq<Activity>, b: seq<Activity>, k: ActivityKind)
    ensures CountKind(a + b, k) == CountKind(a, k) + CountKind(b, k)
  {
    if |a| > 0 {
      assert (a + b)[1..] == a[1..] + b;
      CountKindConcat(a[1..], b, k);
    } else {
      assert a + b == b;
    }
  }

  predicate IsOutcome(s: TcrStatus) {
    s == Approved || s == Rejected
  }

  /** The entry every submission produces. */
  function SubmissionEntry(l: TcrListing): Activity {
    Activity(l.id + "-submit", Submission, l.name, LogoOf(l), Some(l.submitter),
      l.submittedAt, l.submissionType, None)
  }

  /** The challenge entry, dated by the challenge or else by the submission. */
  function ChallengeEntries(l: TcrListing): (r: seq<Activity>)
    ensures forall k :: CountKind(r, k) == if k == Challenge && l.tcrChallenger.Some? then 1 else 0
    ensures forall a :: a in r ==>
      a.kind == Challenge && a.user == l.tcrChallenger && a.timestamp == l.challengedAt.GetOr(l.submittedAt) && a.votes == l.votes
  {
    if l.tcrChallenger.Some? then
      [Activity(l.id + "-challenge", Challenge, l.name, LogoOf(l), l.tcrChallenger,
        l.challengedAt.GetOr(l.submittedAt), l.submissionType, l.votes)]
    else []
  }

  /** The outcome entry of a decided listing. */
  function OutcomeEntries(l: TcrListing): (r: seq<Activity>)
    ensures forall k ::
      CountKind(r, k) == if (k == ApprovedOutcome && l.tcrStatus == Approved) || (k == RejectedOutcome && l.tcrStatus == Rejected) then 1 else 0
    ensures l.tcrStatus == Approved ==> |r| == 1 && r[0].id == l.id + "-approved"
    ensures l.tcrStatus == Rejected ==> |r| == 1 && r[0].id == l.id + "-rejected"
    ensures forall a :: a in r ==>
      a.user == Some(l.submitter) && a.timestamp == l.updatedAt.GetOr(l.submittedAt) && a.votes == l.votes
  {
    if IsOutcome(l.tcrStatus) then
      [Activity(l.id + (if l.tcrStatus == Approved then "-approved" else "-rejected"),
        if l.tcrStatus == Approved then ApprovedOutcome else RejectedOutcome,
        l.name, LogoOf(l), Some(l.submitter), l.updatedAt.GetOr(l.submittedAt), l.submissionType, l.votes)]
    else []
  }

  /** The extra approval entry of a listing approved without a challenge. */
  function AutoEntries(l: TcrListing): (r: seq<Activity>)
    ensures forall k ::
      CountKind(r, k) == if k == ApprovedOutcome && l.tcrStatus == Approved && l.tcrChallenger.None? then 1 else 0
    ensures l.tcrStatus == Approved && l.tcrChallenger.None? ==> |r| == 1 && r[0].id == l.id + "-auto-approved"
  {
    if l.tcrChallenger.None? && l.tcrStatus == Approved then
      [Activity(l.id + "-auto-approved", ApprovedOutcome, l.name, LogoOf(l), Some(l.submitter),
        l.updatedAt.GetOr(l.submittedAt), l.submissionType, None)]
    else []
  }

  /** The submission entry, the challenge entry if challenged, the outcome entry once decided,
      and the auto-approval entry for an unchallenged approved listing. */
  function ListingActivities(l: TcrListing): (r: seq<Activity>)
    ensures 1 <= |r| <= 3
    ensures r[0].kind == Submission && r[0].user == Some(l.submitter) && r[0].timestamp == l.submittedAt
    ensures CountKind(r, Submission) == 1
    ensures CountKind(r, Challenge) == if l.tcrChallenger.Some? then 1 else 0
    ensures forall a :: a in r && a.kind == Challenge ==>
      a.user == l.tcrChallenger && a.timestamp == l.challengedAt.GetOr(l.submittedAt) && a.votes == l.votes
    ensures (exists a :: a in r && (a.kind == ApprovedOutcome || a.kind == RejectedOutcome)) <==> IsOutcome(l.tcrStatus)
    ensures CountKind(r, RejectedOutcome) == if l.tcrStatus == Rejected then 1 else 0
    ensures CountKind(r, ApprovedOutcome) ==
      if l.tcrStatus != Approved then 0 else if l.tcrChallenger.Some? then 1 else 2
    ensures l.tcrStatus == Approved && l.tcrChallenger.None? ==>
      exists i, j :: 0 <= i < |r| && 0 <= j < |r| && r[i].id == l.id + "-approved" && r[j].id == l.id + "-auto-approved"
    ensures forall a :: a in r ==>
      a.listingName == l.name && a.listingLogo == LogoOf(l) && a.submissionType == l.submissionType
  {
    var r := [SubmissionEntry(l)] + ChallengeEntries(l) + OutcomeEntries(l) + AutoEntries(l);
    ActivityCounts(l, r);
    ActivityOutcomes(l, r);
    ActivityShape(l, r);
    r
  }

  /** An outcome entry is present exactly for a decided listing. */
  lemma ActivityOutcomes(l: TcrListing, r: seq<Activity>)
    requires r == [SubmissionEntry(l)] + ChallengeEntries(l) + OutcomeEntries(l) + AutoEntries(l)
    ensures (exists a :: a in r && (a.kind == ApprovedOutcome || a.kind == RejectedOutcome)) <==> IsOutcome(l.tcrStatus)
  {
    ActivityCounts(l, r);
    CountedMember(r, ApprovedOutcome);
    CountedMember(r, RejectedOutcome);
  }

  /** Entry order and the fields every entry shares. */
  lemma ActivityShape(l: TcrListing, r: seq<Activity>)
    requires r == [SubmissionEntry(l)] + ChallengeEntries(l) + OutcomeEntries(l) + AutoEntries(l)
    ensures 1 <= |r| <= 3
    ensures r[0] == SubmissionEntry(l)
    ensures forall a :: a in r && a.kind == Challenge ==>
      a.user == l.tcrChallenger && a.timestamp == l.challengedAt.GetOr(l.submittedAt) && a.votes == l.votes
    ensures l.tcrStatus == Approved && l.tcrChallenger.None? ==>
      exists i, j :: 0 <= i < |r| && 0 <= j < |r| && r[i].id == l.id + "-approved" && r[j].id == l.id + "-auto-approved"
    ensures forall a :: a in r ==>
      a.listingName == l.name && a.listingLogo == LogoOf(l) && a.submissionType == l.submissionType
  {
    var challenge, outcome, auto := ChallengeEntries(l), OutcomeEntries(l), AutoEntries(l);
    assert forall a :: a in r ==> a == r[0] || a in challenge || a in outcome || a in auto;
    if l.tcrStatus == Approved && l.tcrChallenger.None? {
      assert r[1] == outcome[0] && r[2] == auto[0];
    }
  }

  lemma ActivityCounts(l: TcrListing, r: seq<Activity>)
    requires r == [SubmissionEntry(l)] + ChallengeEntries(l) + OutcomeEntries(l) + AutoEntries(l)
    ensures CountKind(r, Submission) == 1
    ensures CountKind(r, Challenge) == if l.tcrChallenger.Some? then 1 else 0
    ensures CountKind(r, RejectedOutcome) == if l.tcrStatus == Rejected then 1 else 0
    ensures CountKind(r, ApprovedOutcome) ==
      if l.tcrStatus != Approved then 0 else if l.tcrChallenger.Some? then 1 else 2
  {
    var e := SubmissionEntry(l);
    CountKindSplit([e], ChallengeEntries(l), OutcomeEntries(l), AutoEntries(l));
    assert [e][1..] == [];
    assert CountKind([e], Submission) == 1;
    assert CountKind([e], Challenge) == 0;
    assert CountKind([e], ApprovedOutcome) == 0;
    assert CountKind([e], RejectedOutcome) == 0;
  }

  /** Some entry has kind `k` exactly when the count of `k` is positive. */
  lemma {:induction false} CountedMember(acts: seq<Activity>, k: ActivityKind)
    ensures (exists a :: a in acts && a.kind == k) <==> CountKind(acts, k) > 0
  {
    if |acts| > 0 {
      CountedMember(acts[1..], k);
      if acts[0].kind != k && exists a :: a in acts && a.kind == k {
        var a :| a in acts && a.kind == k;
        assert a in acts[1..];
      }
    }
  }

  /** Counting over four consecutive pieces. */
  lemma CountKindSplit(a: seq<Activity>, b: seq<Activity>, c: seq<Activity>, d: seq<Activity>)
    ensures forall k :: CountKind(a + b + c + d, k) == CountKind(a, k) + CountKind(b, k) + CountKind(c, k) + CountKind(d, k)
  {
    forall k: ActivityKind
      ensures CountKind(a + b + c + d, k) == CountKind(a, k) + CountKind(b, k) + CountKind(c, k) + CountKind(d, k)
    {
      CountKindConcat(a + b + c, d, k);
      CountKindConcat(a + b, c, k);
      CountKindConcat(a, b, k);
    }
  }

  /** `mockTCRListings.flatMap(...)`. */
  function AllActivities(ls: seq<TcrListing>): (r: seq<Activity>)
    ensures |ls| <= |r| <= 3 * |ls|
  {
    Seqs.FlatMapBounds(ls, ListingActivities, 1, 3);
    Seqs.FlatMap(ls, ListingActivities)
  }

  /** `flatMap` keeps listing order: the feed of a concatenation is the concatenation of the feeds. */
  lemma AllActivitiesConcat(a: seq<TcrListing>, b: seq<TcrListing>)
    ensures AllActivities(a + b) == AllActivities(a) + AllActivities(b)
  {
    Seqs.FlatMapConcat(a, b, ListingActivities);
  }

  /** An activity is in the feed exactly when it is one of some listing's activities. */
  lemma AllActivitiesMembers(ls: seq<TcrListing>)
    ensures forall a :: a in AllActivities(ls) <==> exists l :: l in ls && a in ListingActivities(l)
  {
    Seqs.FlatMapMembers(ls, ListingActivities);
  }

  function Timestamp(a: Activity): int { a.timestamp }

  /** `generateActivities`: the latest ten entries, newest first. Nothing left out is newer than
      anything shown. */
  function GenerateActivities(ls: seq<TcrListing>): (r: seq<Activity>)
    ensures var all := AllActivities(ls);
      |r| == if |all| < FeedLength then |all| else FeedLength
    ensures forall i, j :: 0 <= i < j < |r| ==> r[i].timestamp >= r[j].timestamp
    ensures multiset(r) <= multiset(AllActivities(ls))
    ensures forall x, y :: x in multiset(AllActivities(ls)) - multiset(r) && y in r ==> x.timestamp <= y.timestamp
  {
    Sorting.TakeLargest(AllActivities(ls), FeedLength, Timestamp)
  }

  // ---------------------------------------------------------------- item text

  /** The sentence `ActivityItem` shows after the listing name. An approval that carries votes
      reads "by vote", one without votes "without challenge". */
  function ActivityText(a: Activity): string {
    match a.kind
    case Submission => "was submitted by " + (match a.user case Some(u) => u.name case None => "") + " \U{1F4DD}"
    case Challenge => "was challenged by " + (match a.user case Some(u) => u.name case None => "") + " \U{2694}\U{FE0F}"
    case ApprovedOutcome =>
      if a.votes.Some? then "was approved by vote \U{2705}" else "was approved without challenge \U{2705}"
    case RejectedOutcome => "was rejected by vote \U{274C}"
  }

  /** The auto-approval entry always reads "without challenge"; the outcome entry of the same
      listing reads "by vote" exactly when the listing carries vote counts. */
  lemma UnchallengedApprovalTexts(l: TcrListing)
    requires l.tcrStatus == Approved && l.tcrChallenger.None?
    ensures var r := ListingActivities(l);
      && |r| == 3
      && r[2].id == l.id + "-auto-approved" && ActivityText(r[2]) == "was approved without challenge \U{2705}"
      && r[1].id == l.id + "-approved"
      && (ActivityText(r[1]) == "was approved by vote \U{2705}" <==> l.votes.Some?)
  {
  }

  /** The label of `SubmissionTypeChip`. */
  function SubmissionTypeLabel(t: SubmissionType): string {
    match t
    case NewListing => "New Listing"
    case EditListing => "Edit Listing"
    case DeleteListing => "Delete Listing"
  }
}

=== FILE: avatar_group.dfy ===
/** A row of overlapping avatars with a "+n" badge. Models src/components/common/AvatarGroup.tsx. */
module AvatarGroup {
  import opened Wrappers
  import opened Text
  import Seqs
  import Uri

  datatype Avatar = Avatar(name: string, avatarUrl: Option<string>)

  /** The `limit` prop when it is not given. */
  const DefaultLimit: int := 3

  /** What the group renders: the avatars shown and the badge count, if any. */
  datatype Group = Group(shown: seq<Avatar>, badge: Option<int>)

  /** `displayAvatars` is `avatars.slice(0, limit)`; the badge shows `avatars.length - limit`
      when that is positive. */
  function Display(avatars: seq<Avatar>, limit: int): (g: Group)
    ensures g.shown <= avatars
    ensures 0 <= limit ==> |g.shown| == if |avatars| <= limit then |avatars| else limit
    ensures g.badge.Some? <==> |avatars| > limit
    ensures g.badge.Some? ==> g.badge.value == |avatars| - limit
    ensures 0 <= limit ==> |g.shown| + g.badge.GetOr(0) == |avatars|
  {
    var remaining := |avatars| - limit;
    Group(Seqs.SlicePrefix(avatars, limit), if remaining > 0 then Some(remaining) else None)
  }

  /** With the default limit at most three avatars are shown, and any more are counted. */
  lemma DefaultDisplay(avatars: seq<Avatar>)
    ensures |Display(avatars, DefaultLimit).shown| <= 3
    ensures |avatars| > 3 ==> Display(avatars, DefaultLimit).badge == Some(|avatars| - 3)
    ensures |avatars| <= 3 ==> Display(avatars, DefaultLimit) == Group(avatars, None)
  {
  }

  // ---------------------------------------------------------------- initials

  /** `part[0]` joined with '': an empty part contributes nothing. */
  function FirstChar(part: string): (r: string)
    ensures |r| <= 1 && (|part| > 0 ==> r == [part[0]])
  {
    if |part| == 0 then "" else [part[0]]
  }

  function FirstChars(parts: seq<string>): (r: string)
    ensures |r| <= |parts|
  {
    if |parts| == 0 then "" else FirstChar(parts[0]) + FirstChars(parts[1..])
  }

  /** `getInitials`. */
  function Initials(name: string): string {
    Upper(FirstChars(Split(name)))
  }

  /** The characters that begin a word: not a space, and at the start or after a space.
      `atStart` says whether the previous character was a space (or there was none). */
  function WordStarts(s: string, atStart: bool): (r: string)
    ensures |r| <= |s|
    ensures ' ' !in r
  {
    if |s| == 0 then ""
    else if s[0] == ' ' then WordStarts(s[1..], true)
    else (if atStart then [s[0]] else "") + WordStarts(s[1..], false)
  }

  lemma {:induction false} FirstCharsOfSplit(t: string)
    ensures FirstChars(Split(t)) == WordStarts(t, true)
    ensures FirstChars(Split(t)[1..]) == WordStarts(t, false)
  {
    if |t| > 0 {
      FirstCharsOfSplit(t[1..]);
      var rest := Split(t[1..]);
      if t[0] == ' ' {
        assert Split(t) == [""] + rest;
        assert Split(t)[1..] == rest;
      } else {
        var parts := [[t[0]] + rest[0]] + rest[1..];
        assert Split(t) == parts;
        assert parts[1..] == rest[1..];
        assert FirstChar(parts[0]) == [t[0]];
      }
    }
  }

  /** The initials are the first letters of the space-separated words, upper-cased; words
      are never more than the name's length, and the initials hold no space. */
  lemma InitialsAreWordStarts(name: string)
    ensures Initials(name) == Upper(WordStarts(name, true))
    ensures |Initials(name)| <= |name|
    ensures ' ' !in Initials(name)
  {
    FirstCharsOfSplit(name);
    var w := WordStarts(name, true);
    forall i | 0 <= i < |w| ensures Upper(w)[i] != ' ' {
      CaseKeepsSpaces(w[i]);
    }
  }

  // ---------------------------------------------------------------- image source

  const FallbackPrefix: string := "https://api.dicebear.com/7.x/avataaars/svg?seed="

  /** `getFallbackAvatar`: the generated avatar seeded with the encoded name. */
  function FallbackUrl(name: string): (r: string)
    ensures |FallbackPrefix| <= |r| && r[..|FallbackPrefix|] == FallbackPrefix
    ensures Uri.Decode(r[|FallbackPrefix|..]) == Some(name)
  {
    Uri.DecodeEncode(name);
    var r := FallbackPrefix + Uri.Encode(name);
    assert r[|FallbackPrefix|..] == Uri.Encode(name);
    r
  }

  /** Different names get different generated avatars. */
  lemma FallbackUrlInjective(a: string, b: string)
    requires FallbackUrl(a) == FallbackUrl(b)
    ensures a == b
  {
    var n := |FallbackPrefix|;
    assert FallbackUrl(a)[n..] == FallbackUrl(b)[n..];
  }

  /** `avatar.avatarUrl || getFallbackAvatar(avatar.name)`. */
  function Source(a: Avatar): (r: string)
    ensures a.avatarUrl.Some? && a.avatarUrl.value != "" ==> r == a.avatarUrl.value
    ensures a.avatarUrl.None? || a.avatarUrl.value == "" ==> r == FallbackUrl(a.name)
  {
    match a.avatarUrl
    case Some(url) => if url != "" then url else FallbackUrl(a.name)
    case None => FallbackUrl(a.name)
  }

  /** The query of a URL with a special scheme is percent-encoded by the URL parser with the
      special-query percent-encode set (section 4.4 of the WHATWG URL Standard). Of the characters
      `encodeURIComponent` leaves alone only the apostrophe is in that set, so parsing turns each
      `'` of an encoded seed into `%27`. */
  function EscapeApostrophes(q: string): (r: string)
    ensures '\'' !in r
    ensures '\'' !in q ==> r == q
    ensures '\'' in q ==> |r| > |q|
    ensures |r| >= |q|
  {
    if |q| == 0 then ""
    else
      var rest := EscapeApostrophes(q[1..]);
      assert q == [q[0]] + q[1..];
      if q[0] == '\'' then "%27" + rest else [q[0]] + rest
  }

  /** What reading `img.src` gives back for an assigned generated-avatar URL: the URL as
      serialised after parsing. Other sources are taken as already in serialised form. */
  function SrcProperty(attr: string): (r: string)
    ensures |FallbackPrefix| <= |attr| && attr[..|FallbackPrefix|] == FallbackPrefix ==>
      |FallbackPrefix| <= |r| && r[..|FallbackPrefix|] == FallbackPrefix &&
      '\'' !in r[|FallbackPrefix|..] &&
      ('\'' !in attr[|FallbackPrefix|..] <==> r == attr)
    ensures !(|FallbackPrefix| <= |attr| && attr[..|FallbackPrefix|] == FallbackPrefix) ==> r == attr
  {
    var n := |FallbackPrefix|;
    if n <= |attr| && attr[..n] == FallbackPrefix then
      var q := EscapeApostrophes(attr[n..]);
      var r := FallbackPrefix + q;
      assert r[n..] == q;
      assert '\'' in attr[n..] ==> |r| > |attr|;
      r
    else attr
  }

  /** `onError` as written: it compares the parsed `img.src` with the unparsed generated URL. */
  function OnErrorAsWritten(attr: string, a: Avatar): (r: Option<string>)
    ensures r.Some? <==> SrcProperty(attr) != FallbackUrl(a.name)
    ensures r.Some? ==> r.value == FallbackUrl(a.name)
  {
    if SrcProperty(attr) != FallbackUrl(a.name) then Some(FallbackUrl(a.name)) else None
  }

  /** For a name with an apostrophe the generated URL never reads back as itself, so when the
      generated avatar fails to load the handler as written assigns it again, and again. */
  lemma ApostropheNeverSettles(a: Avatar)
    requires '\'' in a.name
    ensures OnErrorAsWritten(FallbackUrl(a.name), a) == Some(FallbackUrl(a.name))
  {
    var n := |FallbackPrefix|;
    var f := FallbackUrl(a.name);
    assert f[n..] == Uri.Encode(a.name);
    Uri.EncodeApostrophe(a.name);
    assert |SrcProperty(f)| > |f|;
  }

  /** Without an apostrophe the generated URL reads back unchanged. */
  lemma FallbackReadsBack(name: string)
    requires '\'' !in name
    ensures SrcProperty(FallbackUrl(name)) == FallbackUrl(name)
  {
    var f := FallbackUrl(name);
    assert f[|FallbackPrefix|..] == Uri.Encode(name);
    Uri.EncodeApostrophe(name);
  }

  /** `onError` as intended: the generated avatar is assigned only when the image does not
      already show it, comparing both sides in the form `img.src` reads back. */
  function OnError(attr: string, a: Avatar): (r: Option<string>)
    ensures r.Some? <==> SrcProperty(attr) != SrcProperty(FallbackUrl(a.name))
    ensures r.Some? ==> r.value == FallbackUrl(a.name)
  {
    if SrcProperty(attr) != SrcProperty(FallbackUrl(a.name)) then Some(FallbackUrl(a.name)) else None
  }

  /** For names without an apostrophe the handler as written already behaves as intended. */
  lemma AsWrittenAgreesWithoutApostrophe(attr: string, a: Avatar)
    requires '\'' !in a.name
    ensures OnErrorAsWritten(attr, a) == OnError(attr, a)
  {
    FallbackReadsBack(a.name);
  }

  /** The assigned source after an error event. */
  function AfterError(attr: string, a: Avatar): string {
    OnError(attr, a).GetOr(attr)
  }

  /** One error leaves the generated avatar showing, and a second error changes nothing,
      whatever the name. */
  lemma ErrorSettles(attr: string, a: Avatar)
    ensures SrcProperty(AfterError(attr, a)) == SrcProperty(FallbackUrl(a.name))
    ensures OnError(AfterError(attr, a), a) == None
    ensures OnError(attr, a).Some? ==> AfterError(attr, a) == FallbackUrl(a.name)
  {
  }
}

=== FILE: category_select.dfy ===
/** The category drop-down of the directory table.
    Models src/components/listings/table/CategorySelect.tsx and its data in src/data/mock-data.ts. */
module CategorySelect {
  import opened Models
  import opened Text
  import Seqs

  /** `categories`, the five dapp categories then the four token categories. */
  const Categories: seq<Category> := [
    Category("defi", DappCategory, "DeFi", "Decentralized finance applications and protocols"),
    Category("nft", DappCategory, "NFT", "NFT marketplaces and tools"),
    Category("gaming", DappCategory, "Gaming", "Web3 games and gaming infrastructure"),
    Category("social", DappCategory, "Social", "Social networks, messaging, and content platforms"),
    Category("dao", DappCategory, "DAOs", "Decentralized autonomous organizations and governance tools"),
    Category("meme", TokenCategory, "Meme", "Community-driven meme tokens"),
    Category("defi-token", TokenCategory, "DeFi", "Tokens powering DeFi protocols"),
    Category("gaming-tokens", TokenCategory, "Gaming Tokens", "In-game currencies and gaming platform tokens"),
    Category("infrastructure", TokenCategory, "Infrastructure", "Tokens powering blockchain infrastructure and core protocols")]

  /** An `<option>`: the value sent on change and the text shown. */
  datatype SelectOption = SelectOption(value: string, text: string)

  /** `cat.type === type.toLowerCase()`. */
  predicate OfType(c: Category, t: ListingType) {
    c.categoryType.Name() == Lower(t.Name())
  }

  /** The lower-cased listing type names exactly the matching category type. */
  lemma OfTypeIff(c: Category, t: ListingType)
    ensures OfType(c, t) <==> (c.categoryType == DappCategory <==> t == Dapp)
  {
    assert Lower("DAPP") == "dapp" && Lower("TOKEN") == "token";
  }

  function OfTypeFn(t: ListingType): Category -> bool {
    (c: Category) => OfType(c, t)
  }

  function TypeCategories(categories: seq<Category>, t: ListingType): (r: seq<Category>)
    ensures Seqs.Subsequence(r, categories)
    ensures forall c :: c in r <==> c in categories && OfType(c, t)
  {
    Seqs.Filter(categories, OfTypeFn(t))
  }

  /** The options: "All Categories" with the empty value first, then one per category of the
      type, in order, valued by id and labelled by label. */
  function Options(categories: seq<Category>, t: ListingType): (r: seq<SelectOption>)
    ensures |r| == 1 + |TypeCategories(categories, t)|
    ensures r[0] == SelectOption("", "All Categories")
    ensures forall k :: 1 <= k < |r| ==>
      r[k] == SelectOption(TypeCategories(categories, t)[k - 1].id, TypeCategories(categories, t)[k - 1].displayLabel)
  {
    var cs := TypeCategories(categories, t);
    [SelectOption("", "All Categories")] + seq(|cs|, k requires 0 <= k < |cs| => SelectOption(cs[k].id, cs[k].displayLabel))
  }

  /** `handleChange`: the chosen option's value is passed on unchanged. */
  function OnChange(options: seq<SelectOption>, chosen: nat): (value: string)
    requires chosen < |options|
    ensures value == options[chosen].value
  {
    options[chosen].value
  }

  /** Every option but the first names a category of the listing's type, so choosing one
      always forwards the id of such a category, and choosing the first forwards "". */
  lemma ChosenValueIsCategoryOfType(categories: seq<Category>, t: ListingType, chosen: nat)
    requires chosen < |Options(categories, t)|
    ensures chosen == 0 ==> OnChange(Options(categories, t), chosen) == ""
    ensures chosen > 0 ==> exists c :: c in categories && OfType(c, t) && c.id == OnChange(Options(categories, t), chosen)
  {
    if chosen > 0 {
      var c := TypeCategories(categories, t)[chosen - 1];
      assert c in TypeCategories(categories, t);
    }
  }

  /** With the sample data, dapps get the five dapp categories and tokens the four others. */
  lemma SampleOptions()
    ensures TypeCategories(Categories, Dapp) == Categories[..5]
    ensures TypeCategories(Categories, Token) == Categories[5..]
  {
    SampleDapp();
    SampleToken();
  }

  lemma SampleDapp()
    ensures TypeCategories(Categories, Dapp) == Categories[..5]
  {
    var types := [DappCategory, DappCategory, DappCategory, DappCategory, DappCategory,
      TokenCategory, TokenCategory, TokenCategory, TokenCategory];
    assert forall i :: 0 <= i < |Categories| ==> Categories[i].categoryType == types[i];
    forall i | 0 <= i < |Categories| ensures OfTypeFn(Dapp)(Categories[i]) <==> i < 5 {
      OfTypeIff(Categories[i], Dapp);
    }
    Seqs.FilterPrefix(Categories, 5, OfTypeFn(Dapp));
  }

  lemma SampleToken()
    ensures TypeCategories(Categories, Token) == Categories[5..]
  {
    var types := [DappCategory, DappCategory, DappCategory, DappCategory, DappCategory,
      TokenCategory, TokenCategory, TokenCategory, TokenCategory];
    assert forall i :: 0 <= i < |Categories| ==> Categories[i].categoryType == types[i];
    forall i | 0 <= i < |Categories| ensures OfTypeFn(Token)(Categories[i]) <==> i >= 5 {
      OfTypeIff(Categories[i], Token);
    }
    Seqs.FilterSuffix(Categories, 5, OfTypeFn(Token));
  }
}

=== FILE: formatting.dfy ===
/** Text formatting shared by the listing table and the registry rows. */
module Formatting {
  import opened Text

  /** The abbreviation list both `formatTag` versions declare. */
  const Abbreviations: seq<string> := ["NFT", "DEX", "DAO", "AI", "DeFi"]

  /** `abbreviations.includes(tag.toUpperCase())`. */
  predicate IsAbbreviation(tag: string) {
    Upper(tag) in Abbreviations
  }

  /** "DeFi" has lower-case letters, so no upper-cased string equals or contains it: the list's
      last entry never makes a tag or word count as an abbreviation. */
  lemma DeFiNeverMatches(s: string)
    ensures Upper(s) != "DeFi"
    ensures !Contains("DeFi", Upper(s))
  {
    UpperHasNoLower(s);
    assert IsLowerAscii("DeFi"[1]);
    ContainsIff("DeFi", Upper(s));
  }

  /** `IsAbbreviation` holds exactly for tags that upper-case to NFT, DEX, DAO or AI. */
  lemma IsAbbreviationIff(tag: string)
    ensures IsAbbreviation(tag) <==> Upper(tag) in ["NFT", "DEX", "DAO", "AI"]
  {
    DeFiNeverMatches(tag);
  }

  /** `word.charAt(0).toUpperCase() + word.slice(1).toLowerCase()`. */
  function Capitalize(w: string): (r: string)
    ensures |r| == |w|
    ensures Lower(r) == Lower(w)
    ensures |w| > 0 ==> r[0] == UpperChar(w[0]) && forall i :: 1 <= i < |w| ==> r[i] == LowerChar(w[i])
  {
    if |w| == 0 then ""
    else
      var r := Upper(w[..1]) + Lower(w[1..]);
      LowerConcat(Upper(w[..1]), Lower(w[1..]));
      CaseRoundTrips(w[..1]);
      CaseRoundTrips(w[1..]);
      LowerConcat(w[..1], w[1..]);
      assert w == w[..1] + w[1..];
      r
  }

  /** Capitalizing twice is capitalizing once. */
  lemma CapitalizeIdempotent(w: string)
    ensures Capitalize(Capitalize(w)) == Capitalize(w)
  {
  }

  /** The colour families of the category badges. */
  datatype Color = Blue | Purple | Green | Yellow | Orange | Pink | Indigo | Gray
}

=== FILE: listing_actions.dfy ===
/** The controls next to a listing in the directory table, gated by its registry status.
    Models src/components/listings/table/ListingActions.tsx. */
module ListingActions {
  import opened Wrappers
  import opened Models
  import ListingRow

  /** One rendered control; the challenge button carries the stake it shows, the vote count
      the two numbers it shows, the reason box the challenger's reason. */
  datatype Control =
    | ChallengeControl(stake: Option<int>)
    | VoteCount(approve: int, reject: int)
    | ApproveControl
    | RejectControl
    | ChallengeReason(reason: Option<string>)

  /** The counts shown as "approve / reject", a missing count (or a missing tally) shown as 0. */
  function ShownVotes(votes: Option<TcrVotes>): (r: (int, int))
    ensures votes.None? ==> r == (0, 0)
    ensures votes.Some? ==> r.0 == votes.value.approve.GetOr(0) && r.1 == votes.value.reject.GetOr(0)
  {
    match votes
    case None => (0, 0)
    case Some(v) => (OrZero(v.approve), OrZero(v.reject))
  }

  /** The component: nothing at all without a status, otherwise the controls of that status. */
  function Controls(l: Listing): (r: Option<seq<Control>>)
    ensures r.None? <==> l.tcrStatus.None?
    ensures l.tcrStatus == Some(ChallengePeriod) ==> r == Some([ChallengeControl(l.tcrStake)])
    ensures l.tcrStatus == Some(VotingPeriod) ==>
      var (a, j) := ShownVotes(l.tcrVotes);
      r == Some([VoteCount(a, j), ApproveControl, RejectControl] +
        (if l.tcrChallenger.Some? then [ChallengeReason(l.tcrChallenger.value.reason)] else []))
    ensures l.tcrStatus == Some(Approved) || l.tcrStatus == Some(Rejected) ==> r == Some([])
    ensures r.Some? ==> forall c :: c in r.value && c.ChallengeReason? ==>
      l.tcrStatus == Some(VotingPeriod) && l.tcrChallenger.Some? && c.reason == l.tcrChallenger.value.reason
    ensures r.Some? && l.tcrStatus == Some(VotingPeriod) && l.tcrChallenger.Some? ==>
      ChallengeReason(l.tcrChallenger.value.reason) in r.value
    ensures r.Some? ==> forall c :: c in r.value ==>
      (c.ChallengeControl? ==> l.tcrStatus == Some(ChallengePeriod)) &&
      (c.VoteCount? || c == ApproveControl || c == RejectControl ==> l.tcrStatus == Some(VotingPeriod))
  {
    match l.tcrStatus
    case None => None
    case Some(status) =>
      var challenge := if status == ChallengePeriod then [ChallengeControl(l.tcrStake)] else [];
      var (a, j) := ShownVotes(l.tcrVotes);
      var voting := if status == VotingPeriod then [VoteCount(a, j), ApproveControl, RejectControl] else [];
      var reason :=
        if status == VotingPeriod && l.tcrChallenger.Some? then [ChallengeReason(l.tcrChallenger.value.reason)]
        else [];
      assert status != VotingPeriod ==> challenge + voting + reason == challenge;
      assert status == VotingPeriod ==> challenge + voting + reason == voting + reason;
      Some(challenge + voting + reason)
  }

  /** The directory table and an expanded registry row offer the same kind of action for
      every status: a challenge in the challenge period, approve and reject while voting. */
  lemma AgreesWithRow(l: Listing)
    requires l.tcrStatus.Some?
    ensures (exists c :: c in Controls(l).value && c.ChallengeControl?) <==>
      ListingRow.ChallengeButton in ListingRow.Buttons(true, l.tcrStatus)
    ensures ApproveControl in Controls(l).value <==> ListingRow.ApproveButton in ListingRow.Buttons(true, l.tcrStatus)
    ensures RejectControl in Controls(l).value <==> ListingRow.RejectButton in ListingRow.Buttons(true, l.tcrStatus)
  {
    if l.tcrStatus == Some(ChallengePeriod) {
      assert ChallengeControl(l.tcrStake) in Controls(l).value;
    }
  }
}

=== FILE: listing_row.dfy ===
/** One row of the registry list: time-left text, category colour, tag formatting, overflow
    counters, the expand toggle and the status-gated buttons.
    Models src/components/registry/ListingRow.tsx. */
module ListingRow {
  import opened Wrappers
  import opened Models
  import opened Text
  import opened Numerals
  import opened Formatting
  import ListingsTable

  // ---------------------------------------------------------------- time left

  /** `!endTime` is false: an end time is present and not the empty string. */
  predicate HasEndTime(endTime: Option<string>) {
    endTime.Some? && endTime.value != ""
  }

  /** `hoursLeft`: `Math.floor` of the difference in hours. */
  function HoursPart(diff: int): (h: int)
    ensures h > 0 <==> diff >= HourMs
    ensures HourMs * h <= diff < HourMs * (h + 1)
  {
    diff / HourMs
  }

  /** `minutesLeft`: whole minutes (rounded down) of the JavaScript remainder of the
      difference by one hour. Below zero the remainder is negative, so are the minutes. */
  function MinutesPart(diff: int): (m: int)
    ensures diff >= 0 ==> 0 <= m <= 59 && 60 * HoursPart(diff) + m == diff / MinuteMs
    ensures diff < 0 ==> -60 <= m <= 0
  {
    var rem := JsRem(diff, HourMs);
    var m := rem / MinuteMs;
    MinutesPartBounds(diff, rem, m);
    m
  }

  lemma MinutesPartBounds(diff: int, rem: int, m: int)
    requires rem == JsRem(diff, HourMs) && m == rem / MinuteMs
    ensures diff >= 0 ==> 0 <= m <= 59 && 60 * (diff / HourMs) + m == diff / MinuteMs
    ensures diff < 0 ==> -60 <= m <= 0
  {
    var q :| diff == q * HourMs + rem;
    if diff >= 0 {
      assert 0 <= rem < HourMs;
      assert diff / HourMs == q;
      assert rem == MinuteMs * m + rem % MinuteMs;
      assert diff == MinuteMs * (60 * q + m) + rem % MinuteMs;
    }
  }

  /** `formatTimeLeft` of the row, with `diff` = end - now in ms. */
  function FormatTimeLeft(endTime: Option<string>, diff: int): (r: string)
    ensures !HasEndTime(endTime) ==> r == "N/A"
    ensures 'h' in r <==> HasEndTime(endTime) && diff >= HourMs
    ensures HasEndTime(endTime) ==> |r| >= 2 && r[|r| - 1] == 'm'
    ensures HasEndTime(endTime) && diff < HourMs ==> ParseInt(r[..|r| - 1]) == Some(MinutesPart(diff))
    ensures HasEndTime(endTime) && diff >= HourMs ==>
      var k := |IntToString(HoursPart(diff))|;
      k + 2 < |r| && r[k..k + 2] == "h " &&
      ParseInt(r[..k]) == Some(HoursPart(diff)) && ParseInt(r[k + 2..|r| - 1]) == Some(MinutesPart(diff))
  {
    if !HasEndTime(endTime) then "N/A"
    else
      var h := HoursPart(diff);
      var m := MinutesPart(diff);
      var hs := IntToString(h);
      var ms := IntToString(m);
      NoLetters(hs);
      NoLetters(ms);
      ParseIntRoundTrip(h);
      ParseIntRoundTrip(m);
      if h > 0 then
        var r := hs + "h " + ms + "m";
        assert r[..|hs|] == hs && r[|hs|..|hs| + 2] == "h " && r[|hs| + 2..|r| - 1] == ms;
        assert 'h' in r by { assert r[|hs|] == 'h'; }
        r
      else
        var r := ms + "m";
        assert r[..|r| - 1] == ms;
        assert 'h' !in r;
        r
  }

  /** Decimal numerals hold no letter 'h'. */
  lemma NoLetters(s: string)
    requires forall k :: 0 <= k < |s| ==> IsDigit(s[k]) || (k == 0 && s[k] == '-')
    ensures 'h' !in s
  {
  }

  /** Within the first hour the minutes are the whole minutes left. */
  lemma TimeLeftWithinHour(diff: int)
    requires 0 <= diff < HourMs
    ensures MinutesPart(diff) == diff / MinuteMs
    ensures FormatTimeLeft(Some("t"), diff) == IntToString(diff / MinuteMs) + "m"
  {
  }

  // ---------------------------------------------------------------- category colour

  const RowColors: map<string, Color> :=
    map["defi" := Blue, "nft" := Purple, "gaming" := Green, "social" := Yellow, "dao" := Orange]

  /** `getCategoryColor` of the row: one table for every listing type, gray otherwise. */
  function CategoryColor(category: string): (c: Color)
    ensures c != Gray <==> Lower(category) in RowColors
    ensures c != Gray ==> c == RowColors[Lower(category)]
  {
    assert forall k :: k in RowColors ==> RowColors[k] != Gray;
    if Lower(category) in RowColors then RowColors[Lower(category)] else Gray
  }

  /** The row's colours ignore case and coincide with the table's colours for dapps. */
  lemma CategoryColorAgrees(category: string)
    ensures CategoryColor(category) == CategoryColor(Upper(category))
    ensures CategoryColor(category) == ListingsTable.CategoryColor(Dapp, category)
  {
    CaseRoundTrips(category);
  }

  // ---------------------------------------------------------------- tag formatting

  function CapitalizeWords(ws: seq<string>): (r: seq<string>)
    ensures |r| == |ws|
    ensures forall k :: 0 <= k < |ws| ==> r[k] == Capitalize(ws[k])
  {
    if |ws| == 0 then [] else [Capitalize(ws[0])] + CapitalizeWords(ws[1..])
  }

  /** Capitalizing keeps a word free of spaces. */
  lemma CapitalizeSpaceFree(w: string)
    requires ' ' !in w
    ensures ' ' !in Capitalize(w)
  {
    var r := Capitalize(w);
    forall i | 0 <= i < |r| ensures r[i] != ' ' {
      assert Lower(r)[i] == Lower(w)[i];
      CaseKeepsSpaces(r[i]);
      CaseKeepsSpaces(w[i]);
    }
  }

  /** `formatTag` of the row: whole-tag abbreviations upper-cased, otherwise every word
      capitalized; no abbreviation inside a word is touched, and "defi" never counts. */
  function FormatTag(tag: string): (r: string)
    ensures |r| == |tag| && Lower(r) == Lower(tag)
    ensures IsAbbreviation(tag) ==> r == Upper(tag)
    ensures !IsAbbreviation(tag) ==>
      |Split(r)| == |Split(tag)| && forall k :: 0 <= k < |Split(r)| ==> Split(r)[k] == Capitalize(Split(tag)[k])
  {
    if IsAbbreviation(tag) then
      CaseRoundTrips(tag);
      Upper(tag)
    else
      var ws := CapitalizeWords(Split(tag));
      CapitalizedSplit(tag);
      JoinCaseEquivalent(ws, Split(tag));
      JoinSplit(tag);
      Join(ws)
  }

  lemma CapitalizedSplit(tag: string)
    ensures Split(Join(CapitalizeWords(Split(tag)))) == CapitalizeWords(Split(tag))
    ensures forall k :: 0 <= k < |Split(tag)| ==> Lower(CapitalizeWords(Split(tag))[k]) == Lower(Split(tag)[k])
  {
    var ws := CapitalizeWords(Split(tag));
    forall k | 0 <= k < |ws| ensures ' ' !in ws[k] {
      CapitalizeSpaceFree(Split(tag)[k]);
    }
    SplitJoin(ws);
  }

  /** Formatting an already formatted tag changes nothing. */
  lemma FormatTagIdempotent(tag: string)
    ensures FormatTag(FormatTag(tag)) == FormatTag(tag)
  {
    var r := FormatTag(tag);
    CaseRoundTrips(tag);
    CaseRoundTrips(r);
    assert Upper(r) == Upper(tag);
    if !IsAbbreviation(tag) {
      var ws := CapitalizeWords(Split(tag));
      CapitalizedSplit(tag);
      assert Split(r) == ws;
      var vs := CapitalizeWords(ws);
      forall k | 0 <= k < |ws| ensures vs[k] == ws[k] {
        CapitalizeIdempotent(Split(tag)[k]);
      }
      assert vs == ws;
    }
  }

  /** Unlike the table's version, "defi" inside the row is only capitalized. */
  lemma FormatTagDefi()
    ensures FormatTag("defi") == "Defi"
  {
    assert Upper("defi") == "DEFI";
    assert !IsAbbreviation("defi");
    SplitSpaceFree("defi");
    assert Capitalize("defi") == "Defi";
    assert Join(["Defi"]) == "Defi";
  }

  lemma FormatTagWholeAbbreviation()
    ensures FormatTag("ai") == "AI"
  {
    assert Upper("ai") == "AI";
  }

  /** An abbreviation that is only one word of a tag is capitalized like any other word. */
  lemma FormatTagAbbreviationWord()
    ensures FormatTag("NFT art") == "Nft Art"
  {
    NftArtIsNotAbbreviation();
    NftArtSplits();
    NftArtCapitalized();
    assert Join(["Nft", "Art"]) == "Nft Art";
  }

  lemma NftArtIsNotAbbreviation()
    ensures !IsAbbreviation("NFT art")
  {
    assert |Upper("NFT art")| == 7;
  }

  lemma NftArtSplits()
    ensures Split("NFT art") == ["NFT", "art"]
  {
    assert "NFT art" == "NFT" + " " + "art";
    SplitWordThenSpace("NFT", "art");
    SplitSpaceFree("art");
  }

  lemma NftArtCapitalized()
    ensures CapitalizeWords(["NFT", "art"]) == ["Nft", "Art"]
  {
    assert Capitalize("NFT") == "Nft";
    assert Capitalize("art") == "Art";
  }

  // ---------------------------------------------------------------- overflow

  /** The first `limit` items and, when some are hidden, how many ("+n more"). */
  datatype Overflow<T> = Overflow(shown: seq<T>, more: Option<nat>)

  function Truncate<T>(items: seq<T>, limit: nat): (r: Overflow<T>)
    ensures r.shown <= items
    ensures |r.shown| == if |items| <= limit then |items| else limit
    ensures r.more.Some? <==> |items| > limit
    ensures r.more.Some? ==> r.more.value == |items| - limit
    ensures |r.shown| + r.more.GetOr(0) == |items|
  {
    if |items| > limit then Overflow(items[..limit], Some(|items| - limit)) else Overflow(items, None)
  }

  const TagLimit: nat := 3
  const MakerLimit: nat := 4

  /** The "+n more" text. */
  function MoreLabel(n: nat): (r: string)
    ensures |r| > 6 && r[0] == '+' && EndsWith(r, " more")
    ensures ParseNat(r[1..|r| - 5]) == Some(n)
  {
    var r := "+" + NatToString(n) + " more";
    ParseNatRoundTrip(n);
    assert r[1..|r| - 5] == NatToString(n);
    r
  }

  // ---------------------------------------------------------------- the row

  /** `isExpanded`; a click on the row flips it. */
  function ToggleExpanded(expanded: bool): (r: bool)
    ensures r != expanded
  {
    !expanded
  }

  lemma ToggleTwice(expanded: bool)
    ensures ToggleExpanded(ToggleExpanded(expanded)) == expanded
  {
  }

  datatype RowButton = ChallengeButton | ApproveButton | RejectButton

  /** What a row shows, given whether it is expanded and the time left until its end. */
  datatype RowView = RowView(
    categoryColor: Color,
    categoryText: string,
    tags: Overflow<string>,
    makers: Overflow<Maker>,
    timeLeft: string,
    contestedBy: Option<User>,
    allTags: seq<string>,
    buttons: seq<RowButton>)

  function Buttons(expanded: bool, status: Option<TcrStatus>): (r: seq<RowButton>)
    ensures ChallengeButton in r <==> expanded && status == Some(ChallengePeriod)
    ensures ApproveButton in r <==> expanded && status == Some(VotingPeriod)
    ensures RejectButton in r <==> expanded && status == Some(VotingPeriod)
    ensures |r| <= 2
  {
    if !expanded then []
    else if status == Some(ChallengePeriod) then [ChallengeButton]
    else if status == Some(VotingPeriod) then [ApproveButton, RejectButton]
    else []
  }

  function Render(l: Listing, expanded: bool, diff: int): (v: RowView)
    ensures v.categoryColor == CategoryColor(l.category) && v.categoryText == Upper(l.category)
    ensures |v.tags.shown| == if |l.tags| <= TagLimit then |l.tags| else TagLimit
    ensures v.tags.more == Truncate(l.tags, TagLimit).more
    ensures v.tags.more.Some? <==> |l.tags| > TagLimit
    ensures |v.tags.shown| + v.tags.more.GetOr(0) == |l.tags|
    ensures forall k :: 0 <= k < |v.tags.shown| ==> v.tags.shown[k] == FormatTag(l.tags[k])
    ensures v.makers == Truncate(l.makers, MakerLimit)
    ensures |v.makers.shown| == if |l.makers| <= MakerLimit then |l.makers| else MakerLimit
    ensures v.makers.shown <= l.makers && (v.makers.more.Some? <==> |l.makers| > MakerLimit)
    ensures |v.makers.shown| + v.makers.more.GetOr(0) == |l.makers|
    ensures v.timeLeft == FormatTimeLeft(l.tcrEndTime, diff)
    ensures v.contestedBy == l.tcrChallenger
    ensures expanded ==> v.allTags == l.tags
    ensures !expanded ==> v.allTags == [] && v.buttons == []
    ensures v.buttons == Buttons(expanded, l.tcrStatus)
  {
    var tags := Truncate(l.tags, TagLimit);
    RowView(
      CategoryColor(l.category),
      Upper(l.category),
      Overflow(seq(|tags.shown|, k requires 0 <= k < |tags.shown| => FormatTag(tags.shown[k])), tags.more),
      Truncate(l.makers, MakerLimit),
      FormatTimeLeft(l.tcrEndTime, diff),
      l.tcrChallenger,
      if expanded then l.tags else [],
      Buttons(expanded, l.tcrStatus))
  }
}

=== FILE: listings.dfy ===
/** The listing pipeline of the directory pages: filter by type, search term and chips, sort by
    one of three scores, then number the rows. Models src/lib/listings.ts. */
module Listings {
  import opened Wrappers
  import opened Models
  import opened Text
  import Seqs
  import Sorting

  // ---------------------------------------------------------------- filterListings, as computed

  /** The search branch: the lower-cased term is `includes`-d in a lower-cased field. */
  predicate SearchMatches(l: Listing, search: string) {
    var q := Lower(search);
    Contains(q, Lower(l.name))
    || Contains(q, Lower(l.description))
    || Contains(q, Lower(l.category))
    || Seqs.Any(l.tags, (tag: string) => Contains(q, Lower(tag)))
    || Seqs.Any(l.makers, (m: Maker) => Contains(q, Lower(m.name)))
  }

  /** The chip branch: some filter equals the category or one tag, ignoring case. */
  predicate FiltersMatch(l: Listing, filters: seq<string>) {
    Seqs.Any(filters, (f: string) =>
      Lower(l.category) == Lower(f) || Seqs.Any(l.tags, (tag: string) => Lower(tag) == Lower(f)))
  }

  /** The callback handed to `Array.prototype.filter`. */
  predicate Keeps(l: Listing, t: ListingType, search: string, filters: Option<seq<string>>) {
    && l.listingType == t
    && (search == "" || SearchMatches(l, search))
    && (filters.None? || |filters.value| == 0 || FiltersMatch(l, filters.value))
  }

  // ---------------------------------------------------------------- filterListings, as specified

  /** `term` occurs in `field` when both are lower-cased. */
  ghost predicate TermIn(term: string, field: string) {
    exists i :: 0 <= i && OccursAt(Lower(term), Lower(field), i)
  }

  ghost predicate SearchHit(l: Listing, search: string) {
    || TermIn(search, l.name)
    || TermIn(search, l.description)
    || TermIn(search, l.category)
    || (exists tag :: tag in l.tags && TermIn(search, tag))
    || (exists m :: m in l.makers && TermIn(search, m.name))
  }

  /** Exact case-insensitive equality with the category or a tag, OR across the filters. */
  ghost predicate FilterHit(l: Listing, filters: seq<string>) {
    exists f :: f in filters && (Lower(l.category) == Lower(f) || exists tag :: tag in l.tags && Lower(tag) == Lower(f))
  }

  /** What a kept listing satisfies: the requested type; an empty search or a hit; no filters or a hit. */
  ghost predicate Selected(l: Listing, t: ListingType, search: string, filters: Option<seq<string>>) {
    && l.listingType == t
    && (search == "" || SearchHit(l, search))
    && (filters.None? || |filters.value| == 0 || FilterHit(l, filters.value))
  }

  lemma TermInIff(search: string, field: string)
    ensures Contains(Lower(search), Lower(field)) <==> TermIn(search, field)
  {
    ContainsIff(Lower(search), Lower(field));
  }

  lemma TagsMatchIff(tags: seq<string>, search: string)
    ensures Seqs.Any(tags, (tag: string) => Contains(Lower(search), Lower(tag))) <==> exists tag :: tag in tags && TermIn(search, tag)
  {
    forall tag | tag in tags ensures Contains(Lower(search), Lower(tag)) <==> TermIn(search, tag) {
      TermInIff(search, tag);
    }
  }

  lemma MakersMatchIff(makers: seq<Maker>, search: string)
    ensures Seqs.Any(makers, (m: Maker) => Contains(Lower(search), Lower(m.name))) <==> exists m :: m in makers && TermIn(search, m.name)
  {
    forall m | m in makers ensures Contains(Lower(search), Lower(m.name)) <==> TermIn(search, m.name) {
      TermInIff(search, m.name);
    }
  }

  lemma SearchMatchesIff(l: Listing, search: string)
    ensures SearchMatches(l, search) <==> SearchHit(l, search)
  {
    TermInIff(search, l.name);
    TermInIff(search, l.description);
    TermInIff(search, l.category);
    TagsMatchIff(l.tags, search);
    MakersMatchIff(l.makers, search);
  }

  lemma FiltersMatchIff(l: Listing, filters: seq<string>)
    ensures FiltersMatch(l, filters) <==> FilterHit(l, filters)
  {
  }

  lemma KeepsIff(l: Listing, t: ListingType, search: string, filters: Option<seq<string>>)
    ensures Keeps(l, t, search, filters) <==> Selected(l, t, search, filters)
  {
    SearchMatchesIff(l, search);
    if filters.Some? {
      FiltersMatchIff(l, filters.value);
    }
  }

  /** `filterListings`: drops listings, never reorders or alters them, and keeps exactly the
      selected ones, with their multiplicities. */
  function FilterListings(ls: seq<Listing>, t: ListingType, search: string, filters: Option<seq<string>>): (r: seq<Listing>)
    ensures Seqs.Subsequence(r, ls)
    ensures forall l :: l in r ==> l.listingType == t
    ensures forall l :: l in r <==> l in ls && Selected(l, t, search, filters)
    ensures forall l :: multiset(r)[l] == if Selected(l, t, search, filters) then multiset(ls)[l] else 0
  {
    var r := Seqs.Filter(ls, (l: Listing) => Keeps(l, t, search, filters));
    Seqs.FilterCounts(ls, (l: Listing) => Keeps(l, t, search, filters));
    assert forall l :: Keeps(l, t, search, filters) <==> Selected(l, t, search, filters) by {
      forall l ensures Keeps(l, t, search, filters) <==> Selected(l, t, search, filters) {
        KeepsIff(l, t, search, filters);
      }
    }
    r
  }

  /** Filtering the output again with the same arguments returns it unchanged. */
  lemma FilterListingsIdempotent(ls: seq<Listing>, t: ListingType, search: string, filters: Option<seq<string>>)
    ensures FilterListings(FilterListings(ls, t, search, filters), t, search, filters) == FilterListings(ls, t, search, filters)
  {
    Seqs.FilterIdempotent(ls, (l: Listing) => Keeps(l, t, search, filters));
  }

  /** An empty search and no filters select by type alone. */
  lemma FilterListingsByTypeOnly(ls: seq<Listing>, t: ListingType, filters: Option<seq<string>>)
    requires filters.None? || |filters.value| == 0
    ensures forall l :: l in FilterListings(ls, t, "", filters) <==> l in ls && l.listingType == t
  {
  }

  // ---------------------------------------------------------------- sortListings

  /** All-time score: upvotes plus twice the comment count, missing values as 0. */
  function TopScore(l: Listing): int {
    OrZero(l.upvotes) + 2 * (match l.comments case Some(c) => c.count case None => 0)
  }

  /** 30-day score: upvotes plus twice the comments of the last 30 days, missing values as 0. */
  function TrendingScore(l: Listing): int {
    match l.activity
    case Some(a) => OrZero(a.upvotes30d) + 2 * OrZero(a.comments30d)
    case None => 0
  }

  function SortKey(view: TableView, l: Listing): int {
    match view
    case Trending => TrendingScore(l)
    case Top => TopScore(l)
    case New => l.createdAt
  }

  /** `sortListings`: a fresh permutation of the input in non-increasing order of the view's score. */
  function SortListings(ls: seq<Listing>, view: TableView): (r: seq<Listing>)
    ensures |r| == |ls|
    ensures multiset(r) == multiset(ls)
    ensures forall i, j :: 0 <= i < j < |r| ==> SortKey(view, r[i]) >= SortKey(view, r[j])
  {
    Sorting.SortDesc(ls, (l: Listing) => SortKey(view, l))
  }

  /** A sequence already in score order, in particular one whose scores are all equal, is
      returned as it is. */
  lemma SortListingsKeepsSorted(ls: seq<Listing>, view: TableView)
    requires forall i, j :: 0 <= i < j < |ls| ==> SortKey(view, ls[i]) >= SortKey(view, ls[j])
    ensures SortListings(ls, view) == ls
  {
    Sorting.SortDescOfSorted(ls, (l: Listing) => SortKey(view, l));
  }

  /** The sort is stable: listings that tie on the view's score keep their relative order, so
      among equal scores the earlier listing gets the lower rank. */
  lemma SortListingsStable(ls: seq<Listing>, view: TableView, score: int)
    ensures Seqs.Filter(SortListings(ls, view), l => SortKey(view, l) == score) ==
      Seqs.Filter(ls, l => SortKey(view, l) == score)
  {
    Sorting.SortDescKeepsTies(ls, (l: Listing) => SortKey(view, l), l => SortKey(view, l) == score, score);
  }

  // ---------------------------------------------------------------- calculateRanks

  function RanksFrom(ls: seq<Listing>, first: nat): (r: seq<Listing>)
    ensures |r| == |ls|
    ensures forall i :: 0 <= i < |r| ==> r[i] == ls[i].(rank := Some(first + i))
  {
    if |ls| == 0 then [] else [ls[0].(rank := Some(first))] + RanksFrom(ls[1..], first + 1)
  }

  /** `calculateRanks`: same length, row i has rank i + 1, and every other field is untouched. */
  function CalculateRanks(ls: seq<Listing>): (r: seq<Listing>)
    ensures |r| == |ls|
    ensures forall i :: 0 <= i < |r| ==> r[i].rank == Some(i + 1)
    ensures forall i :: 0 <= i < |r| ==> r[i].(rank := ls[i].rank) == ls[i]
  {
    RanksFrom(ls, 1)
  }

  // ---------------------------------------------------------------- the pages' composition

  /** What a directory page shows: filter, then sort, then rank. */
  function RankedListings(ls: seq<Listing>, t: ListingType, search: string, filters: Option<seq<string>>, view: TableView): seq<Listing> {
    CalculateRanks(SortListings(FilterListings(ls, t, search, filters), view))
  }

  /** Every row of the page is a selected input listing with only its rank changed; rows are
      numbered 1..n in order of non-increasing score; and there is one row per selected listing. */
  lemma RankedListingsProperties(ls: seq<Listing>, t: ListingType, search: string, filters: Option<seq<string>>, view: TableView)
    ensures var r := RankedListings(ls, t, search, filters, view);
      && |r| == |FilterListings(ls, t, search, filters)|
      && (forall i :: 0 <= i < |r| ==> r[i].rank == Some(i + 1))
      && (forall i :: 0 <= i < |r| ==> exists l :: l in ls && Selected(l, t, search, filters) && r[i].(rank := l.rank) == l)
      && (forall i, j :: 0 <= i < j < |r| ==> SortKey(view, r[i]) >= SortKey(view, r[j]))
  {
    var f := FilterListings(ls, t, search, filters);
    var s := SortListings(f, view);
    RanksKeepOrder(s, view);
    RankedRowsSelected(ls, t, search, filters, s);
  }

  /** Ranking changes no score, so the order of a sorted sequence survives it. */
  lemma RanksKeepOrder(s: seq<Listing>, view: TableView)
    requires forall i, j :: 0 <= i < j < |s| ==> SortKey(view, s[i]) >= SortKey(view, s[j])
    ensures var r := CalculateRanks(s);
      forall i, j :: 0 <= i < j < |r| ==> SortKey(view, r[i]) >= SortKey(view, r[j])
  {
    var r := CalculateRanks(s);
    forall i | 0 <= i < |r| ensures SortKey(view, r[i]) == SortKey(view, s[i]) {
      assert r[i].(rank := s[i].rank) == s[i];
    }
  }

  /** Each ranked row is, up to its rank, a selected input listing. */
  lemma RankedRowsSelected(ls: seq<Listing>, t: ListingType, search: string, filters: Option<seq<string>>, s: seq<Listing>)
    requires multiset(s) == multiset(FilterListings(ls, t, search, filters))
    ensures var r := CalculateRanks(s);
      forall i :: 0 <= i < |r| ==> exists l :: l in ls && Selected(l, t, search, filters) && r[i].(rank := l.rank) == l
  {
    var r := CalculateRanks(s);
    forall i | 0 <= i < |r|
      ensures exists l :: l in ls && Selected(l, t, search, filters) && r[i].(rank := l.rank) == l
    {
      assert s[i] in multiset(s);
      assert s[i] in FilterListings(ls, t, search, filters);
      assert r[i].(rank := s[i].rank) == s[i];
    }
  }
}

=== FILE: listings_table.dfy ===
/** Decision logic of the directory table: filter chips, time-left text, category emoji and
    colours, and tag formatting. Models src/components/listings/table/ListingsTable.tsx. */
module ListingsTable {
  import opened Wrappers
  import opened Models
  import opened Text
  import opened Numerals
  import opened Formatting
  import Seqs
  import Listings

  // ---------------------------------------------------------------- filter chips

  /** `handleFilterClick`: a selected filter is removed, every occurrence of it; an unselected
      one is appended at the end. */
  function HandleFilterClick(selected: seq<string>, f: string): (r: seq<string>)
    ensures f in r <==> f !in selected
    ensures f in selected ==> Seqs.Subsequence(r, selected)
    ensures f in selected ==> forall x :: x != f ==> multiset(r)[x] == multiset(selected)[x]
    ensures f !in selected ==> |r| == |selected| + 1 && r[..|selected|] == selected && r[|selected|] == f
  {
    if f in selected then
      Seqs.FilterCounts(selected, (x: string) => x != f);
      Seqs.Filter(selected, (x: string) => x != f)
    else selected + [f]
  }

  /** Toggling a filter that was not selected, twice, restores the selection. */
  lemma ToggleTwiceRestores(selected: seq<string>, f: string)
    requires f !in selected
    ensures HandleFilterClick(HandleFilterClick(selected, f), f) == selected
  {
    var p := (x: string) => x != f;
    Seqs.FilterConcat(selected, [f], p);
    Seqs.FilterAllPass(selected, p);
    assert Seqs.Filter([f], p) == [];
  }

  /** "Clear all". */
  function ClearFilters(selected: seq<string>): (r: seq<string>)
    ensures |r| == 0
  {
    []
  }

  /** After "clear all" the table lists exactly what it lists when no chip was ever selected. */
  lemma ClearedFiltersSelectAll(ls: seq<Listing>, t: ListingType, search: string, selected: seq<string>)
    ensures Listings.FilterListings(ls, t, search, Some(ClearFilters(selected))) == Listings.FilterListings(ls, t, search, None)
  {
    var cleared := Some(ClearFilters(selected));
    Seqs.FilterCongruent(ls, (l: Listing) => Listings.Keeps(l, t, search, cleared),
      (l: Listing) => Listings.Keeps(l, t, search, None));
  }

  // ---------------------------------------------------------------- time left

  /** `formatTimeLeft` with `diff` = end - now in ms: whole hours when at least one hour is
      left, otherwise whole minutes (negative once the end has passed). */
  function FormatTimeLeft(diff: int): (r: string)
    ensures EndsWith(r, "h left") <==> diff >= HourMs
    ensures EndsWith(r, "m left") <==> diff < HourMs
    ensures |r| > 6
    ensures diff >= HourMs ==> ParseInt(r[..|r| - 6]) == Some(diff / HourMs) && diff / HourMs >= 1
    ensures diff < HourMs ==> ParseInt(r[..|r| - 6]) == Some(diff / MinuteMs) && diff / MinuteMs <= 59
    ensures diff < HourMs ==> (r[0] == '-' <==> diff < 0)
  {
    var hours := diff / HourMs;
    assert hours < 1 <==> diff < HourMs;
    if hours < 1 then
      var minutes := diff / MinuteMs;
      var r := IntToString(minutes) + "m left";
      ParseIntRoundTrip(minutes);
      assert r[..|r| - 6] == IntToString(minutes);
      r
    else
      var r := NatToString(hours) + "h left";
      ParseIntRoundTrip(hours);
      assert r[..|r| - 6] == NatToString(hours) == IntToString(hours);
      r
  }

  // ---------------------------------------------------------------- category emoji

  /** `categoryEmojis`, keyed by lower-case category. */
  const CategoryEmojis: map<string, string> := map[
    "defi" := "\U{1F4B0}",
    "nft" := "\U{1F3A8}",
    "gaming" := "\U{1F3AE}",
    "social" := "\U{1F465}",
    "dao" := "\U{1F3DB}\U{FE0F}",
    "infrastructure" := "\U{1F3D7}\U{FE0F}",
    "ai" := "\U{1F916}",
    "productivity" := "\U{26A1}\U{FE0F}",
    "travel" := "\U{2708}\U{FE0F}",
    "maps" := "\U{1F5FA}\U{FE0F}",
    "no-code" := "\U{1F6E0}\U{FE0F}",
    "data visualization" := "\U{1F4CA}",
    "audio" := "\U{1F3B5}",
    "task management" := "\U{1F4DD}",
    "notion" := "\U{1F4D3}",
    "sales" := "\U{1F4BC}",
    "marketing" := "\U{1F4E2}",
    "growth hacking" := "\U{1F4C8}",
    "hotels" := "\U{1F3E8}",
    "artificial intelligence" := "\U{1F9E0}"]

  /** The mobile-phone emoji shown for unknown categories. */
  const FallbackEmoji: string := "\U{1F4F1}"

  /** `getEmoji`: the table entry of the lower-cased category, the phone for anything else. */
  function GetEmoji(category: string): string {
    if Lower(category) in CategoryEmojis then CategoryEmojis[Lower(category)] else FallbackEmoji
  }

  /** The lookup ignores case, and the fallback appears exactly for categories not in the table. */
  lemma GetEmojiProperties(category: string)
    ensures GetEmoji(category) == GetEmoji(Lower(category)) == GetEmoji(Upper(category))
    ensures GetEmoji(category) == FallbackEmoji <==> Lower(category) !in CategoryEmojis
  {
    CaseRoundTrips(category);
    assert forall k :: k in CategoryEmojis ==> CategoryEmojis[k] != FallbackEmoji;
  }

  // ---------------------------------------------------------------- tag formatting

  /** `upperWord.includes(abbr)` for some abbreviation. */
  predicate HasAbbreviation(w: string) {
    Seqs.Any(Abbreviations, (abbr: string) => Contains(abbr, Upper(w)))
  }

  /** The `reduce` over the abbreviations: each one's first case-insensitive occurrence is
      rewritten to its canonical spelling, in list order. */
  function ApplyAbbreviations(w: string, abbrs: seq<string>): (r: string)
    ensures |r| == |w|
    ensures Lower(r) == Lower(w)
    decreases |abbrs|
  {
    if |abbrs| == 0 then w else ApplyAbbreviations(ReplaceFirstIgnoringCase(w, abbrs[0]), abbrs[1..])
  }

  /** One word of `formatTag`: canonical abbreviations inside it, otherwise capitalized. */
  function FormatWord(w: string): (r: string)
    ensures |r| == |w|
    ensures Lower(r) == Lower(w)
  {
    if HasAbbreviation(w) then ApplyAbbreviations(w, Abbreviations) else Capitalize(w)
  }

  function FormatWords(ws: seq<string>): (r: seq<string>)
    ensures |r| == |ws|
    ensures forall k :: 0 <= k < |ws| ==> r[k] == FormatWord(ws[k])
  {
    if |ws| == 0 then [] else [FormatWord(ws[0])] + FormatWords(ws[1..])
  }

  /** `formatTag` of the table: only the case of letters changes, so length and the number of
      space-separated words are kept. */
  function FormatTag(tag: string): (r: string)
    ensures |r| == |tag|
    ensures Lower(r) == Lower(tag)
    ensures |Split(r)| == |Split(tag)|
    ensures IsAbbreviation(tag) ==> r == Upper(tag)
    ensures !IsAbbreviation(tag) ==> Split(r) == FormatWords(Split(tag))
  {
    var r := if IsAbbreviation(tag) then Upper(tag) else Join(FormatWords(Split(tag)));
    FormatTagKeepsCase(tag, r);
    FormattedWordsSplit(tag);
    r
  }

  /** The formatted words contain no space, so splitting their join gives them back one by one. */
  lemma FormattedWordsSplit(tag: string)
    ensures Split(Join(FormatWords(Split(tag)))) == FormatWords(Split(tag))
  {
    var ws := Split(tag);
    var fs := FormatWords(ws);
    forall k | 0 <= k < |fs| ensures ' ' !in fs[k] {
      CaseEquivalentSpaces(fs[k], ws[k]);
    }
    SplitJoin(fs);
  }

  /** The case-only nature of both branches of `FormatTag`. */
  lemma FormatTagKeepsCase(tag: string, r: string)
    requires r == if IsAbbreviation(tag) then Upper(tag) else Join(FormatWords(Split(tag)))
    ensures |r| == |tag| && Lower(r) == Lower(tag) && |Split(r)| == |Split(tag)|
  {
    if IsAbbreviation(tag) {
      CaseRoundTrips(tag);
    } else {
      JoinCaseEquivalent(FormatWords(Split(tag)), Split(tag));
      JoinSplit(tag);
    }
    CaseEquivalentSplit(r, tag);
  }

  /** A whole-tag abbreviation is upper-cased. */
  lemma FormatTagWholeAbbreviation()
    ensures FormatTag("nft") == "NFT"
    ensures FormatTag("Dao") == "DAO"
  {
    assert Upper("nft") == "NFT";
    assert Upper("Dao") == "DAO";
  }

  /** "defi" is only capitalized: the list spells it "DeFi", which never occurs in an
      upper-cased word. */
  lemma FormatTagDefi()
    ensures FormatTag("defi") == "Defi"
  {
    DefiIsNotAbbreviation();
    SingleWordTag("defi");
    DefiHasNoAbbreviation();
    CapitalizeDefi();
  }

  lemma DefiIsNotAbbreviation()
    ensures !IsAbbreviation("defi")
  {
    assert Upper("defi") == "DEFI";
  }

  lemma CapitalizeDefi()
    ensures Capitalize("defi") == "Defi"
  {
    var r := Capitalize("defi");
    assert r[0] == 'D' && r[1] == 'e' && r[2] == 'f' && r[3] == 'i';
  }

  /** A one-word tag that is not itself an abbreviation is formatted as a word. */
  lemma SingleWordTag(w: string)
    requires ' ' !in w && !IsAbbreviation(w)
    ensures FormatTag(w) == FormatWord(w)
  {
    SplitSpaceFree(w);
    assert FormatWords([w]) == [FormatWord(w)];
  }

  lemma DefiHasNoAbbreviation()
    ensures !HasAbbreviation("defi")
  {
    assert Upper("defi") == "DEFI";
    FirstCharAbsent("NFT", "DEFI");
    FirstCharAbsent("AI", "DEFI");
    NotInDefi("DEX");
    NotInDefi("DAO");
    DeFiNeverMatches("defi");
  }

  lemma NotInDefi(abbr: string)
    requires abbr == "DEX" || abbr == "DAO"
    ensures !Contains(abbr, "DEFI")
  {
    forall j | 0 <= j ensures !OccursAt(abbr, "DEFI", j) {
      if j == 0 {
        assert "DEFI"[..3][2] == 'F' != abbr[2];
      } else if j == 1 {
        assert "DEFI"[1..4][0] == 'E' != abbr[0];
      }
    }
    ContainsIff(abbr, "DEFI");
  }

  /** A pattern whose first character is absent from the text occurs nowhere in it. */
  lemma FirstCharAbsent(pat: string, hay: string)
    requires |pat| > 0 && pat[0] !in hay
    ensures !Contains(pat, hay)
  {
    forall j | 0 <= j ensures !OccursAt(pat, hay, j) {
      if j + |pat| <= |hay| {
        assert hay[j..j + |pat|][0] == hay[j];
      }
    }
    ContainsIff(pat, hay);
  }

  /** An abbreviation inside a word is rewritten in place. */
  lemma FormatTagEmail()
    ensures FormatTag("email") == "emAIl"
  {
    assert Upper("email") == "EMAIL";
    SingleWordTag("email");
    EmailContainsAI();
    assert HasAbbreviation("email");
    EmailAbbreviations();
  }

  lemma EmailContainsAI()
    ensures Contains("AI", "EMAIL")
  {
    assert "EMAIL"[2..4] == "AI";
    assert OccursAt("AI", "EMAIL", 2);
    ContainsIff("AI", "EMAIL");
  }

  /** Skipping an abbreviation that does not occur. */
  lemma ApplySkip(w: string, abbrs: seq<string>)
    requires |abbrs| > 0 && !Contains(Lower(abbrs[0]), Lower(w))
    ensures ApplyAbbreviations(w, abbrs) == ApplyAbbreviations(w, abbrs[1..])
  {
  }

  lemma EmailAbbreviations()
    ensures ApplyAbbreviations("email", Abbreviations) == "emAIl"
  {
    EmailSkipsFirstThree();
    EmailLastTwo();
  }

  lemma EmailSkipsFirstThree()
    ensures ApplyAbbreviations("email", Abbreviations) == ApplyAbbreviations("email", Abbreviations[3..])
  {
    var a := Abbreviations;
    assert Lower("email") == "email";
    assert Lower(a[0]) == "nft" && Lower(a[1]) == "dex" && Lower(a[2]) == "dao";
    FirstCharAbsent("nft", "email");
    FirstCharAbsent("dex", "email");
    FirstCharAbsent("dao", "email");
    ApplySkip("email", a);
    ApplySkip("email", a[1..]);
    ApplySkip("email", a[2..]);
    assert a[2..][1..] == a[3..] && a[1..][1..] == a[2..];
  }

  lemma EmailLastTwo()
    ensures ApplyAbbreviations("email", Abbreviations[3..]) == "emAIl"
  {
    var a := Abbreviations[3..];
    assert a == ["AI", "DeFi"];
    ReplaceAIInEmail();
    assert ApplyAbbreviations("email", a) == ApplyAbbreviations("emAIl", ["DeFi"]);
    DeFiSkippedInEmail();
  }

  lemma ReplaceAIInEmail()
    ensures ReplaceFirstIgnoringCase("email", "AI") == "emAIl"
  {
    EmailMatchesAI();
    assert Lower("email") == "email" && Lower("AI") == "ai";
    var r := ReplaceFirstIgnoringCase("email", "AI");
    assert r[..2] == "em" && r[2..4] == "AI" && r[4..] == "l";
    assert r == r[..2] + r[2..4] + r[4..];
  }

  lemma DeFiSkippedInEmail()
    ensures ApplyAbbreviations("emAIl", ["DeFi"]) == "emAIl"
  {
    assert Lower("emAIl") == "email" && Lower("DeFi") == "defi";
    FirstCharAbsent("defi", "email");
    ApplySkip("emAIl", ["DeFi"]);
  }

  lemma EmailMatchesAI()
    ensures IndexOf("ai", "email") == Some(2)
  {
    assert OccursAt("ai", "email", 2) by { assert "email"[2..4] == "ai"; }
    assert !OccursAt("ai", "email", 0) by { assert "email"[0..2][0] == 'e'; }
    assert !OccursAt("ai", "email", 1) by { assert "email"[1..3][0] == 'm'; }
  }

  /** Once another abbreviation makes a word qualify, the rewrite runs over the whole list, "DeFi"
      included: "defiai" becomes "DeFiAI". */
  lemma FormatTagDefiInsideWord()
    ensures FormatTag("defiai") == "DeFiAI"
  {
    assert Upper("defiai") == "DEFIAI";
    SingleWordTag("defiai");
    DefiaiContainsAI();
    assert HasAbbreviation("defiai");
    DefiaiSkipsFirstThree();
    DefiaiLastTwo();
  }

  lemma DefiaiContainsAI()
    ensures Contains("AI", "DEFIAI")
  {
    assert "DEFIAI"[4..6] == "AI";
    assert OccursAt("AI", "DEFIAI", 4);
    ContainsIff("AI", "DEFIAI");
  }

  lemma DefiaiSkipsFirstThree()
    ensures ApplyAbbreviations("defiai", Abbreviations) == ApplyAbbreviations("defiai", Abbreviations[3..])
  {
    var a := Abbreviations;
    assert Lower("defiai") == "defiai";
    assert Lower(a[0]) == "nft" && Lower(a[1]) == "dex" && Lower(a[2]) == "dao";
    FirstCharAbsent("nft", "defiai");
    NotInDefiai("dex");
    NotInDefiai("dao");
    ApplySkip("defiai", a);
    ApplySkip("defiai", a[1..]);
    ApplySkip("defiai", a[2..]);
    assert a[2..][1..] == a[3..] && a[1..][1..] == a[2..];
  }

  lemma NotInDefiai(abbr: string)
    requires abbr == "dex" || abbr == "dao"
    ensures !Contains(abbr, "defiai")
  {
    forall j | 0 <= j ensures !OccursAt(abbr, "defiai", j) {
      if j == 0 {
        assert "defiai"[..3][2] == 'f' != abbr[2];
      } else if j <= 3 {
        assert "defiai"[j..j + 3][0] == "defiai"[j] != 'd';
      }
    }
    ContainsIff(abbr, "defiai");
  }

  lemma DefiaiLastTwo()
    ensures ApplyAbbreviations("defiai", Abbreviations[3..]) == "DeFiAI"
  {
    var a := Abbreviations[3..];
    assert a == ["AI", "DeFi"];
    ReplaceAIInDefiai();
    assert ApplyAbbreviations("defiai", a) == ApplyAbbreviations("defiAI", ["DeFi"]);
    ReplaceDefiInDefiAI();
    assert ApplyAbbreviations("defiAI", ["DeFi"]) == ApplyAbbreviations("DeFiAI", []);
  }

  lemma ReplaceAIInDefiai()
    ensures ReplaceFirstIgnoringCase("defiai", "AI") == "defiAI"
  {
    LowerDefiai();
    DefiaiMatchesAI();
    var r := ReplaceFirstIgnoringCase("defiai", "AI");
    assert r[..4] == "defiai"[..4] == "defi";
    assert r[4..6] == "AI" && |r| == 6;
    assert r == r[..4] + r[4..6];
  }

  lemma LowerDefiai()
    ensures Lower("defiai") == "defiai" && Lower("AI") == "ai"
  {
  }

  lemma DefiaiMatchesAI()
    ensures IndexOf("ai", "defiai") == Some(4)
  {
    assert OccursAt("ai", "defiai", 4) by { assert "defiai"[4..6] == "ai"; }
    forall j | 0 <= j < 4 ensures !OccursAt("ai", "defiai", j) {
      assert "defiai"[j..j + 2][0] == "defiai"[j] != 'a';
    }
  }

  lemma ReplaceDefiInDefiAI()
    ensures ReplaceFirstIgnoringCase("defiAI", "DeFi") == "DeFiAI"
  {
    assert Lower("defiAI") == "defiai" && Lower("DeFi") == "defi";
    assert OccursAt("defi", "defiai", 0) by { assert "defiai"[0..4] == "defi"; }
    var r := ReplaceFirstIgnoringCase("defiAI", "DeFi");
    assert r[..0] == "" && r[0..4] == "DeFi" && r[4..] == "AI";
    assert r == r[..0] + r[0..4] + r[4..];
  }

  /** A word whose only abbreviation would be "DeFi" is capitalized. */
  lemma DeFiWordIsCapitalized(w: string)
    requires forall abbr :: abbr in ["NFT", "DEX", "DAO", "AI"] ==> !Contains(abbr, Upper(w))
    ensures FormatWord(w) == Capitalize(w)
  {
    DeFiNeverMatches(w);
  }

  // ---------------------------------------------------------------- chips and colours

  /** `isCategory`: some listing's category equals the filter, ignoring case. */
  predicate IsCategory(listings: seq<Listing>, filter: string) {
    Seqs.Any(listings, (l: Listing) => Lower(l.category) == Lower(filter))
  }

  /** The text of a `FilterChip`: categories upper-cased, everything else through `formatTag`. */
  function ChipLabel(listings: seq<Listing>, filter: string): (r: string)
    ensures Lower(r) == Lower(filter)
    ensures (exists l :: l in listings && Lower(l.category) == Lower(filter)) ==> r == Upper(filter)
    ensures !(exists l :: l in listings && Lower(l.category) == Lower(filter)) ==> r == FormatTag(filter)
  {
    CaseRoundTrips(filter);
    if IsCategory(listings, filter) then Upper(filter) else FormatTag(filter)
  }

  const DappColors: map<string, Color> :=
    map["defi" := Blue, "nft" := Purple, "gaming" := Green, "social" := Yellow, "dao" := Orange]

  const TokenColors: map<string, Color> :=
    map["meme" := Pink, "defi-token" := Blue, "gaming-tokens" := Green, "infrastructure" := Indigo]

  /** `getCategoryColor` of the table: one table for dapps, another for tokens, gray otherwise. */
  function CategoryColor(t: ListingType, category: string): (c: Color)
    ensures var table := if t == Dapp then DappColors else TokenColors;
      (c != Gray <==> Lower(category) in table) && (c != Gray ==> c == table[Lower(category)])
  {
    var table := if t == Dapp then DappColors else TokenColors;
    assert forall k :: k in table ==> table[k] != Gray;
    if Lower(category) in table then table[Lower(category)] else Gray
  }

  /** The two tables disagree: "defi" is blue for a dapp but gray for a token, and
      "infrastructure" the other way round. */
  lemma CategoryColorDependsOnType()
    ensures CategoryColor(Dapp, "DeFi") == Blue && CategoryColor(Token, "DeFi") == Gray
    ensures CategoryColor(Token, "infrastructure") == Indigo && CategoryColor(Dapp, "infrastructure") == Gray
  {
    assert Lower("DeFi") == "defi";
    assert Lower("infrastructure") == "infrastructure";
  }
}

=== FILE: mock_users.dfy ===
/** The sample curators and how each is derived from a name and a role.
    Models src/data/mock-users.ts. */
module MockUsers {
  import opened Wrappers
  import opened Models
  import opened Text

  datatype CuratorActionKind = Submit | Edit | Vote

  /** One entry of a curator's `actions`; the time is a parameter (the source draws it at
      random within the last 30 days). */
  datatype CuratorAction = CuratorAction(userId: string, userName: string, action: CuratorActionKind, timestamp: int)

  datatype Curator = Curator(id: string, name: string, role: string, avatarUrl: string, actions: seq<CuratorAction>)

  const DicebearPrefix: string := "https://api.dicebear.com/7.x/avataaars/svg?seed="

  /** `name.toLowerCase().replace(' ', '-')`: only the first space becomes a hyphen. */
  function CuratorId(name: string): (id: string)
    ensures |id| == |name|
    ensures ' ' !in name ==> id == Lower(name)
    ensures ' ' in name ==>
      exists i :: 0 <= i < |name| && name[i] == ' ' && ' ' !in name[..i] &&
        id == Lower(name)[..i] + "-" + Lower(name)[i + 1..]
  {
    var low := Lower(name);
    assert forall i :: 0 <= i < |name| ==> (low[i] == ' ' <==> name[i] == ' ') by {
      forall i | 0 <= i < |name| ensures low[i] == ' ' <==> name[i] == ' ' { CaseKeepsSpaces(name[i]); }
    }
    assert forall i :: 0 <= i <= |name| ==> (' ' in low[..i] <==> ' ' in name[..i]) by {
      forall i | 0 <= i <= |name| ensures ' ' in low[..i] <==> ' ' in name[..i] {
        if ' ' in name[..i] {
          var j :| 0 <= j < i && name[..i][j] == ' ';
          assert low[..i][j] == ' ';
        }
        if ' ' in low[..i] {
          var j :| 0 <= j < i && low[..i][j] == ' ';
          assert name[..i][j] == ' ';
        }
      }
    }
    ReplaceFirstChar(low, ' ', "-")
  }

  /** The action a role performs: 'submitter' submits, 'editor' edits, anyone else votes. */
  function RoleAction(role: string): (a: CuratorActionKind)
    ensures a == Submit <==> role == "submitter"
    ensures a == Edit <==> role == "editor"
  {
    if role == "submitter" then Submit else if role == "editor" then Edit else Vote
  }

  /** `mockMakers.find(m => m.name === name)`: the first maker with exactly this name. */
  function FindMaker(makers: seq<Maker>, name: string): (r: Option<Maker>)
    ensures r.Some? ==> r.value in makers && r.value.name == name
    ensures r.Some? ==> exists i :: 0 <= i < |makers| && makers[i] == r.value && forall j :: 0 <= j < i ==> makers[j].name != name
    ensures r.None? <==> forall m :: m in makers ==> m.name != name
  {
    if |makers| == 0 then None
    else if makers[0].name == name then Some(makers[0])
    else
      var r := FindMaker(makers[1..], name);
      assert r.Some? ==> exists i :: 0 <= i < |makers| && makers[i] == r.value && forall j :: 0 <= j < i ==> makers[j].name != name by {
        if r.Some? {
          var i :| 0 <= i < |makers[1..]| && makers[1..][i] == r.value && forall j :: 0 <= j < i ==> makers[1..][j].name != name;
          assert makers[i + 1] == r.value;
          assert forall j :: 1 <= j < i + 1 ==> makers[j].name == makers[1..][j - 1].name;
        }
      }
      r
  }

  /** The curator's picture: the first same-named maker's non-empty avatar, otherwise a generated
      one seeded with the name with its first space removed (not URI-encoded). */
  function CuratorAvatar(makers: seq<Maker>, name: string): (url: string)
    ensures var m := FindMaker(makers, name);
      if m.Some? && m.value.avatarUrl.Some? && m.value.avatarUrl.value != "" then url == m.value.avatarUrl.value
      else url == DicebearPrefix + ReplaceFirstChar(name, ' ', "")
  {
    match FindMaker(makers, name)
    case Some(Maker(_, _, Some(url))) => if url != "" then url else DicebearPrefix + ReplaceFirstChar(name, ' ', "")
    case _ => DicebearPrefix + ReplaceFirstChar(name, ' ', "")
  }

  /** `createCurator`, with the action's time given. */
  function CreateCurator(makers: seq<Maker>, name: string, role: string, timestamp: int): (c: Curator)
    ensures c.id == CuratorId(name) && c.name == name && c.role == role
    ensures |c.actions| == 1
    ensures c.actions[0].userId == c.id && c.actions[0].userName == c.name
    ensures c.actions[0].action == RoleAction(role) && c.actions[0].timestamp == timestamp
    ensures c.avatarUrl == CuratorAvatar(makers, name)
  {
    Curator(CuratorId(name), name, role, CuratorAvatar(makers, name),
      [CuratorAction(CuratorId(name), name, RoleAction(role), timestamp)])
  }

  // ---------------------------------------------------------------- the sample data

  function Dicebear(seed: string): string { DicebearPrefix + seed }

  const MockMakers: seq<Maker> := [
    Maker("Alex Chen", "Founder & CEO", Some("/profiles/alex.jpg")),
    Maker("Sarah Wilson", "Lead Developer", Some("/profiles/sarah.jpg")),
    Maker("Mike Rodriguez", "Product Manager", Some("/profiles/mike.jpg")),
    Maker("David Park", "Technical Lead", Some(Dicebear("david"))),
    Maker("Emma Liu", "Frontend Developer", Some(Dicebear("emma"))),
    Maker("James Smith", "Blockchain Engineer", Some(Dicebear("james"))),
    Maker("Lisa Wang", "UX Designer", Some(Dicebear("lisa"))),
    Maker("Tom Brown", "Backend Developer", Some(Dicebear("tom"))),
    Maker("Nina Patel", "Marketing Lead", Some(Dicebear("nina"))),
    Maker("Kevin Zhang", "DevOps Engineer", Some(Dicebear("kevin"))),
    Maker("Rachel Kim", "Community Manager", Some(Dicebear("rachel"))),
    Maker("Chris Lee", "Smart Contract Developer", Some(Dicebear("chris"))),
    Maker("Maya Singh", "Product Designer", Some(Dicebear("maya")))]

  /** The names and roles `mockCurators` is built from, in order. */
  const CuratorSeeds: seq<(string, string)> := [
    ("Alex Chen", "submitter"), ("Sarah Wilson", "editor"), ("Mike Rodriguez", "voter"),
    ("David Park", "submitter"), ("Emma Liu", "editor"), ("James Smith", "voter"),
    ("Lisa Wang", "submitter"), ("Tom Brown", "editor"), ("Nina Patel", "voter"),
    ("Kevin Zhang", "submitter"), ("Rachel Kim", "editor"), ("Chris Lee", "voter"),
    ("Maya Singh", "submitter")]

  /** `mockCurators`, each action dated by `times`. */
  function MockCurators(times: seq<int>): (cs: seq<Curator>)
    requires |times| == |CuratorSeeds|
    ensures |cs| == |CuratorSeeds|
    ensures forall k :: 0 <= k < |cs| ==> cs[k] == CreateCurator(MockMakers, CuratorSeeds[k].0, CuratorSeeds[k].1, times[k])
  {
    seq(|CuratorSeeds|, k requires 0 <= k < |CuratorSeeds| =>
      CreateCurator(MockMakers, CuratorSeeds[k].0, CuratorSeeds[k].1, times[k]))
  }

  /** A two-word name "First Last" gets the slug "first-last". */
  lemma TwoWordId(first: string, last: string)
    requires ' ' !in first && ' ' !in last
    ensures CuratorId(first + " " + last) == Lower(first) + "-" + Lower(last)
  {
    var name := first + " " + last;
    var low := Lower(name);
    LowerConcat(first + " ", last);
    LowerConcat(first, " ");
    assert Lower(" ") == " ";
    assert low == Lower(first) + " " + Lower(last);
    forall k | 0 <= k < |first| ensures Lower(first)[k] != ' ' {
      CaseKeepsSpaces(first[k]);
    }
    ReplaceFirstAt(low, ' ', "-", |first|);
    assert low[..|first|] == Lower(first);
    assert low[|first| + 1..] == Lower(last);
  }

  /** A slug starts with the lower-cased first two characters of a name that does not start
      with a space or a one-letter word. */
  lemma IdStart(name: string)
    requires |name| >= 2 && name[0] != ' ' && name[1] != ' '
    ensures |CuratorId(name)| >= 2
    ensures CuratorId(name)[..2] == Lower(name[..2])
  {
    var id := CuratorId(name);
    if ' ' in name {
      var i :| 0 <= i < |name| && name[i] == ' ' && ' ' !in name[..i] && id == Lower(name)[..i] + "-" + Lower(name)[i + 1..];
      assert i >= 2;
      assert id[..i] == Lower(name)[..i];
      assert id[0] == id[..i][0] && id[1] == id[..i][1];
    }
  }

  /** The lower-cased first two letters of the sample names, in order. */
  const SlugStarts: seq<string> := ["al", "sa", "mi", "da", "em", "ja", "li", "to", "ni", "ke", "ra", "ch", "ma"]

  lemma SlugStartsDistinct()
    ensures forall i, j :: 0 <= i < j < |SlugStarts| ==> SlugStarts[i] != SlugStarts[j]
  {
  }

  lemma SlugStart(k: nat)
    requires k < |CuratorSeeds|
    ensures |CuratorId(CuratorSeeds[k].0)| >= 2 && CuratorId(CuratorSeeds[k].0)[..2] == SlugStarts[k]
  {
    var name := CuratorSeeds[k].0;
    assert |name| >= 2 && name[0] != ' ' && name[1] != ' ' by {
      assert name[..2] == SeedStarts[k];
    }
    IdStart(name);
    assert name[..2] == SeedStarts[k];
    LowerSeedStart(k);
  }

  lemma LowerSeedStart(k: nat)
    requires k < |SeedStarts|
    ensures Lower(SeedStarts[k]) == SlugStarts[k]
  {
  }

  /** The first two characters of the sample names. */
  const SeedStarts: seq<string> := ["Al", "Sa", "Mi", "Da", "Em", "Ja", "Li", "To", "Ni", "Ke", "Ra", "Ch", "Ma"]

  /** The thirteen sample curators have pairwise different ids: already their first two
      letters differ. */
  lemma MockCuratorIdsDistinct(times: seq<int>)
    requires |times| == |CuratorSeeds|
    ensures forall i, j :: 0 <= i < j < |MockCurators(times)| ==> MockCurators(times)[i].id != MockCurators(times)[j].id
  {
    var cs := MockCurators(times);
    SlugStartsDistinct();
    forall i, j | 0 <= i < j < |cs| ensures cs[i].id != cs[j].id {
      SlugStart(i);
      SlugStart(j);
      assert cs[i].id[..2] != cs[j].id[..2];
    }
  }
}

=== FILE: models.dfy ===
/** The records the directory and the registry work on. Fields the components read but the
    listing model file does not declare (tags, recent activity, rank, the registry fields)
    are declared here from how the components use them. */
module Models {
  import opened Wrappers

  datatype ListingType = Dapp | Token {
    /** The enum's string value. */
    function Name(): string {
      match this
      case Dapp => "DAPP"
      case Token => "TOKEN"
    }
  }

  /** The three orderings of the listings table. */
  datatype TableView = Trending | Top | New

  /** Where a registry submission stands. */
  datatype TcrStatus = ChallengePeriod | VotingPeriod | Approved | Rejected

  datatype Maker = Maker(name: string, role: string, avatarUrl: Option<string>)

  datatype Comments = Comments(count: int)

  /** Activity over the last 30 days, which drives the trending order. */
  datatype RecentActivity = RecentActivity(upvotes30d: Option<int>, comments30d: Option<int>)

  /** A registry participant; a challenger also carries the reason for the challenge. */
  datatype User = User(name: string, avatar: string, reason: Option<string>)

  datatype TcrVotes = TcrVotes(approve: Option<int>, reject: Option<int>)

  /** A directory listing. Optional arrays that are absent behave as empty ones everywhere they
      are read, so they are plain sequences here; `createdAt` is the parsed time in ms. */
  datatype Listing = Listing(
    id: string,
    listingType: ListingType,
    category: string,
    name: string,
    description: string,
    tags: seq<string>,
    makers: seq<Maker>,
    upvotes: Option<int>,
    comments: Option<Comments>,
    activity: Option<RecentActivity>,
    createdAt: int,
    rank: Option<nat>,
    tcrStatus: Option<TcrStatus>,
    tcrStake: Option<int>,
    tcrVotes: Option<TcrVotes>,
    tcrChallenger: Option<User>,
    tcrEndTime: Option<string>)

  datatype SubmissionType = NewListing | EditListing | DeleteListing

  /** Vote counts of a contested submission. */
  datatype Votes = Votes(votesFor: nat, votesAgainst: nat)

  /** A registry submission; timestamps are parsed times in ms, absent when missing or empty. */
  datatype TcrListing = TcrListing(
    id: string,
    name: string,
    logo: string,
    submitter: User,
    submittedAt: int,
    tcrChallenger: Option<User>,
    challengedAt: Option<int>,
    tcrStatus: TcrStatus,
    updatedAt: Option<int>,
    submissionType: SubmissionType,
    votes: Option<Votes>)

  datatype CategoryType = DappCategory | TokenCategory {
    function Name(): string {
      match this
      case DappCategory => "dapp"
      case TokenCategory => "token"
    }
  }

  datatype Category = Category(id: string, categoryType: CategoryType, displayLabel: string, description: string)
}

=== FILE: numerals.dfy ===
/** Decimal text of integers as JavaScript template literals print them, and JavaScript's `%`. */
module Numerals {
  import opened Wrappers

  /** Milliseconds in a minute and in an hour (`1000 * 60`, `1000 * 60 * 60`). */
  const MinuteMs: int := 60000
  const HourMs: int := 3600000

  predicate IsDigit(c: char) { '0' <= c <= '9' }

  function DigitChar(d: nat): (c: char)
    requires d < 10
    ensures IsDigit(c)
  {
    ('0' as int + d) as char
  }

  function DigitValue(c: char): nat
    requires IsDigit(c)
  {
    c as int - '0' as int
  }

  predicate AllDigits(s: string) {
    forall i :: 0 <= i < |s| ==> IsDigit(s[i])
  }

  /** Decimal digits of `n`, most significant first, without leading zeros. */
  function NatToString(n: nat): (r: string)
    ensures |r| >= 1 && AllDigits(r)
    ensures |r| > 1 ==> r[0] != '0'
  {
    if n < 10 then [DigitChar(n)] else NatToString(n / 10) + [DigitChar(n % 10)]
  }

  /** `${i}` for an integer `i`. */
  function IntToString(i: int): (r: string)
    ensures |r| >= 1
    ensures r[0] == '-' <==> i < 0
    ensures forall k :: 0 <= k < |r| ==> IsDigit(r[k]) || (k == 0 && r[k] == '-')
  {
    if i < 0 then "-" + NatToString(-i) else NatToString(i)
  }

  /** The number a string of digits denotes. */
  function DigitsValue(s: string): nat
    requires AllDigits(s)
  {
    if |s| == 0 then 0 else DigitsValue(s[..|s| - 1]) * 10 + DigitValue(s[|s| - 1])
  }

  /** Reads a non-empty digit string. */
  function ParseNat(s: string): Option<nat> {
    if |s| > 0 && AllDigits(s) then Some(DigitsValue(s)) else None
  }

  /** Reads an optionally negative decimal integer. */
  function ParseInt(s: string): Option<int> {
    if |s| > 0 && s[0] == '-' then
      match ParseNat(s[1..])
      case Some(n) => var v: int := 0 - (n as int); Some(v)
      case None => None
    else
      match ParseNat(s)
      case Some(n) => var v: int := n; Some(v)
      case None => None
  }

  lemma {:induction false} NatToStringValue(n: nat)
    ensures DigitsValue(NatToString(n)) == n
  {
    if n >= 10 {
      NatToStringValue(n / 10);
      var s := NatToString(n);
      assert s[..|s| - 1] == NatToString(n / 10);
    }
  }

  /** Printing a natural number and reading it back gives the number. */
  lemma ParseNatRoundTrip(n: nat)
    ensures ParseNat(NatToString(n)) == Some(n)
  {
    NatToStringValue(n);
  }

  /** Printing an integer and reading it back gives the integer. */
  lemma ParseIntRoundTrip(i: int)
    ensures ParseInt(IntToString(i)) == Some(i)
  {
    if i < 0 {
      ParseNatRoundTrip(-i);
      assert IntToString(i)[1..] == NatToString(-i);
    } else {
      ParseNatRoundTrip(i);
    }
  }

  /** JavaScript's `a % b` for `b > 0`: the remainder of division truncated toward zero,
      which takes the sign of `a` (Dafny's own `%` never goes negative). */
  function JsRem(a: int, b: int): (r: int)
    requires b > 0
    ensures -b < r < b
    ensures a >= 0 ==> r >= 0
    ensures a < 0 ==> r <= 0
    ensures exists q :: a == q * b + r
  {
    if a >= 0 then
      assert a == (a / b) * b + a % b;
      a % b
    else
      assert -a == ((-a) / b) * b + (-a) % b;
      assert a == (-((-a) / b)) * b + -((-a) % b);
      -((-a) % b)
  }
}

=== FILE: registry_card.dfy ===
/** The registry card's view state: normal, expanded or minimized, and the action the user took.
    Models src/components/registry/ListingCard.tsx. */
module RegistryCard {
  import opened Wrappers
  import opened Models

  datatype CardState = Normal | Expanded | Minimized

  datatype UserAction = LooksGood | Upvote | Downvote

  datatype Card = Card(state: CardState, action: Option<UserAction>)

  /** The buttons a card can show. */
  datatype Button = LooksGoodButton | ChallengeButton | UpvoteButton | DownvoteButton

  /** What the user can do to a rendered card: click its body, or one of its buttons. */
  datatype Gesture = ClickCard | Press(button: Button)

  /** The action is recorded exactly while the card is minimized. */
  predicate Valid(c: Card) {
    c.action.Some? <==> c.state == Minimized
  }

  /** `useState('normal')` and `useState(null)`. */
  function Init(): (c: Card)
    ensures c.state == Normal && c.action.None?
    ensures Valid(c)
  {
    Card(Normal, None)
  }

  // ---------------------------------------------------------------- handlers

  /** `handleCardClick`: only a normal card expands. */
  function HandleCardClick(c: Card): (r: Card)
    ensures c.state == Normal ==> r == Card(Expanded, c.action)
    ensures c.state != Normal ==> r == c
  {
    if c.state == Normal then c.(state := Expanded) else c
  }

  /** `handleLooksGood`, `handleUpvote`, `handleDownvote`: record the action and minimize. */
  function Act(c: Card, a: UserAction): (r: Card)
    ensures r.state == Minimized && r.action == Some(a)
    ensures Valid(r)
  {
    Card(Minimized, Some(a))
  }

  /** `handleUndo`: back to a normal card with no action. */
  function HandleUndo(c: Card): (r: Card)
    ensures r == Init()
  {
    Card(Normal, None)
  }

  // ---------------------------------------------------------------- status-gated buttons

  /** Looks Good and Challenge during the challenge period, Upvote and Downvote during voting,
      nothing otherwise. */
  function Buttons(status: TcrStatus): (bs: set<Button>)
    ensures LooksGoodButton in bs <==> status == ChallengePeriod
    ensures ChallengeButton in bs <==> status == ChallengePeriod
    ensures UpvoteButton in bs <==> status == VotingPeriod
    ensures DownvoteButton in bs <==> status == VotingPeriod
    ensures bs == {} <==> status == Approved || status == Rejected
  {
    match status
    case ChallengePeriod => {LooksGoodButton, ChallengeButton}
    case VotingPeriod => {UpvoteButton, DownvoteButton}
    case Approved => {}
    case Rejected => {}
  }

  /** The view the card renders: the minimized card only listens for the undo click; the normal
      card expands on a body click; the expanded card has no body handler; both of the latter
      show the status's buttons. A gesture on something not rendered changes nothing. */
  function Step(c: Card, status: TcrStatus, g: Gesture): (r: Card)
  {
    match g
    case ClickCard =>
      if c.state == Minimized then HandleUndo(c) else HandleCardClick(c)
    case Press(b) =>
      if c.state == Minimized || b !in Buttons(status) then c
      else
        match b
        case LooksGoodButton => Act(c, LooksGood)
        case UpvoteButton => Act(c, Upvote)
        case DownvoteButton => Act(c, Downvote)
        case ChallengeButton => c
  }

  /** Every gesture keeps the action-iff-minimized invariant. */
  lemma StepKeepsValid(c: Card, status: TcrStatus, g: Gesture)
    requires Valid(c)
    ensures Valid(Step(c, status, g))
  {
  }

  /** The transition table: body clicks expand a normal card and undo a minimized one; an
      offered Looks Good, Upvote or Downvote minimizes with that action from normal or expanded;
      Challenge changes nothing. */
  lemma StepTable(c: Card, status: TcrStatus, g: Gesture)
    requires Valid(c)
    ensures g == ClickCard && c.state == Normal ==> Step(c, status, g) == Card(Expanded, None)
    ensures g == ClickCard && c.state == Expanded ==> Step(c, status, g) == c
    ensures g == ClickCard && c.state == Minimized ==> Step(c, status, g) == Card(Normal, None)
    ensures g == Press(ChallengeButton) ==> Step(c, status, g) == c
    ensures c.state != Minimized && g.Press? && g.button in Buttons(status) && g.button != ChallengeButton ==>
      Step(c, status, g) == Card(Minimized, Some(match g.button
        case LooksGoodButton => LooksGood case UpvoteButton => Upvote case _ => Downvote))
  {
  }

  /** Undo takes back any action: pressing an offered Looks Good, Upvote or Downvote and then
      clicking the minimized card gives a fresh card, whatever the card was before. */
  lemma ActThenUndo(c: Card, status: TcrStatus, b: Button)
    requires Valid(c) && c.state != Minimized && b in Buttons(status) && b != ChallengeButton
    ensures Step(c, status, Press(b)).state == Minimized
    ensures Step(Step(c, status, Press(b)), status, ClickCard) == Init()
  {
  }

  function Run(c: Card, status: TcrStatus, gs: seq<Gesture>): Card
    decreases |gs|
  {
    if |gs| == 0 then c else Run(Step(c, status, gs[0]), status, gs[1..])
  }

  /** Every card reachable from the initial one satisfies the invariant. */
  lemma {:induction false} RunKeepsValid(c: Card, status: TcrStatus, gs: seq<Gesture>)
    requires Valid(c)
    ensures Valid(Run(c, status, gs))
    decreases |gs|
  {
    if |gs| > 0 {
      StepKeepsValid(c, status, gs[0]);
      RunKeepsValid(Step(c, status, gs[0]), status, gs[1..]);
    }
  }

  /** A card for an approved or rejected submission has no buttons, so it is never minimized
      and never records an action. */
  lemma {:induction false} DecidedCardNeverActs(c: Card, status: TcrStatus, gs: seq<Gesture>)
    requires status == Approved || status == Rejected
    requires c.state != Minimized && c.action.None?
    ensures Run(c, status, gs).state != Minimized && Run(c, status, gs).action.None?
    decreases |gs|
  {
    if |gs| > 0 {
      DecidedCardNeverActs(Step(c, status, gs[0]), status, gs[1..]);
    }
  }

  // ---------------------------------------------------------------- minimized view

  datatype Tint = Red | Green

  /** Red exactly for a downvote. */
  function MinimizedTint(a: UserAction): (t: Tint)
    ensures t == Red <==> a == Downvote
  {
    if a == Downvote then Red else Green
  }

  function ActionLabel(a: UserAction): (s: string)
    ensures a == LooksGood ==> s == "Looks Good"
    ensures a == Upvote ==> s == "Upvoted"
    ensures a == Downvote ==> s == "Downvoted"
  {
    match a
    case LooksGood => "Looks Good"
    case Upvote => "Upvoted"
    case Downvote => "Downvoted"
  }

  /** The three actions are labelled differently. */
  lemma ActionLabelsDistinct(a: UserAction, b: UserAction)
    requires a != b
    ensures ActionLabel(a) != ActionLabel(b)
  {
  }
}

=== FILE: registry_table.dfy ===
/** One status tab of the registry page. Models src/components/registry/RegistryTable.tsx. */
module RegistryTable {
  import opened Models
  import Seqs

  /** A card of the table, told which status tab it sits in. */
  datatype CardProps = CardProps(listing: TcrListing, status: TcrStatus)

  /** The tab: the "No submissions at this time." placeholder, or one card per listing. */
  datatype TableView = Placeholder | Cards(cards: seq<CardProps>)

  function HasStatus(status: TcrStatus): TcrListing -> bool {
    (l: TcrListing) => l.tcrStatus == status
  }

  /** The listings of one status, in source order. */
  function Select(listings: seq<TcrListing>, status: TcrStatus): (r: seq<TcrListing>)
    ensures Seqs.Subsequence(r, listings)
    ensures forall l :: l in r <==> l in listings && l.tcrStatus == status
    ensures forall l: TcrListing :: l.tcrStatus == status ==> multiset(r)[l] == multiset(listings)[l]
  {
    Seqs.FilterCounts(listings, HasStatus(status));
    Seqs.Filter(listings, HasStatus(status))
  }

  function Render(listings: seq<TcrListing>, status: TcrStatus): (v: TableView)
    ensures v == Placeholder <==> forall l :: l in listings ==> l.tcrStatus != status
    ensures v.Cards? ==> |v.cards| == |Select(listings, status)|
    ensures v.Cards? ==> forall k :: 0 <= k < |v.cards| ==> v.cards[k] == CardProps(Select(listings, status)[k], status)
  {
    var selected := Select(listings, status);
    if |selected| == 0 then Placeholder
    else
      assert selected[0] in listings && selected[0].tcrStatus == status;
      Cards(seq(|selected|, k requires 0 <= k < |selected| => CardProps(selected[k], status)))
  }

  /** Every card carries its table's status, and that is the status of its listing. */
  lemma CardsCarryStatus(listings: seq<TcrListing>, status: TcrStatus)
    ensures Render(listings, status).Cards? ==>
      forall c :: c in Render(listings, status).cards ==>
        c.status == status && c.listing.tcrStatus == status && c.listing in listings
  {
    var v := Render(listings, status);
    if v.Cards? {
      forall c | c in v.cards ensures c.status == status && c.listing.tcrStatus == status && c.listing in listings {
        var k :| 0 <= k < |v.cards| && v.cards[k] == c;
        assert Select(listings, status)[k] in Select(listings, status);
      }
    }
  }

  /** Tabs of different statuses never show the same listing. */
  lemma TablesDisjoint(listings: seq<TcrListing>, s1: TcrStatus, s2: TcrStatus)
    requires s1 != s2
    ensures forall l :: l in Select(listings, s1) ==> l !in Select(listings, s2)
  {
  }

  /** Together the four tabs show every listing exactly as often as it occurs. */
  lemma {:induction false} TablesCoverAll(listings: seq<TcrListing>)
    ensures |Select(listings, ChallengePeriod)| + |Select(listings, VotingPeriod)| +
      |Select(listings, Approved)| + |Select(listings, Rejected)| == |listings|
  {
    if |listings| > 0 {
      TablesCoverAll(listings[1..]);
    }
  }
}

=== FILE: search_bar.dfy ===
/** The navigation search box as a state machine over (query, results, selected index).
    Models src/components/layout/Navigation/SearchBar/SearchBar.tsx. */
module SearchBar {
  import opened Wrappers
  import opened Text

  datatype SearchResult = SearchResult(id: string, title: string, description: string)

  /** The two fixed results every accepted search currently produces. */
  const MockResults: seq<SearchResult> := [
    SearchResult("1", "DeFi Protocol", "Decentralized Finance Protocol"),
    SearchResult("2", "NFT Marketplace", "Trade Digital Assets")]

  /** `searchQuery`, `results` and `selectedIndex`; -1 means nothing is selected. */
  datatype State = State(query: string, results: seq<SearchResult>, selected: int)

  const Init: State := State("", [], -1)

  /** While results are listed the selection is -1 or one of them; it is never below -1. */
  ghost predicate Valid(s: State) {
    s.selected >= -1 && (|s.results| > 0 ==> s.selected < |s.results|)
  }

  datatype Key = ArrowDown | ArrowUp | Enter | Escape | OtherKey

  datatype Event =
    | Type(text: string)      // the input's onChange
    | Submit                  // the form's onSubmit
    | Press(key: Key)         // onKeyDown
    | ClickResult(index: nat) // a result's onClick
    | Hover(index: nat)       // a result's onMouseEnter
    | ClickOutside            // mousedown outside the component
    | ClearButton             // the clear button, rendered only for a non-empty query

  /** Events the rendered component can deliver: result buttons exist only for listed results,
      the clear button only for a non-empty query. */
  predicate Possible(s: State, e: Event) {
    match e
    case ClickResult(i) => i < |s.results|
    case Hover(i) => i < |s.results|
    case ClearButton => s.query != ""
    case _ => true
  }

  /** A step's new state and the path it navigates to, if any. */
  datatype Outcome = Outcome(state: State, navigate: Option<string>)

  /** `handleResultClick`: navigate to the result's page, close the list and empty the box;
      the selected index is left as it was. */
  function OpenResult(s: State, id: string): (o: Outcome)
    ensures o.navigate == Some("/dapp/" + id)
    ensures o.state == State("", [], s.selected)
  {
    Outcome(State("", [], s.selected), Some("/dapp/" + id))
  }

  /** `handleKeyDown`. */
  function KeyDown(s: State, k: Key): (o: Outcome)
    requires Valid(s)
    ensures |s.results| == 0 ==> o == Outcome(s, None)
    ensures |s.results| > 0 && k == ArrowDown ==>
      o.navigate.None? && o.state.results == s.results && o.state.query == s.query &&
      o.state.selected == if s.selected < |s.results| - 1 then s.selected + 1 else s.selected
    ensures |s.results| > 0 && k == ArrowUp ==>
      o.navigate.None? && o.state.results == s.results && o.state.query == s.query &&
      o.state.selected == if s.selected > 0 then s.selected - 1 else s.selected
    ensures |s.results| > 0 && k == Enter && s.selected >= 0 ==>
      o == OpenResult(s, s.results[s.selected].id)
    ensures k == Enter && s.selected < 0 ==> o == Outcome(s, None)
    ensures |s.results| > 0 && k == Escape ==> o == Outcome(s.(results := [], selected := -1), None)
    ensures k == OtherKey ==> o == Outcome(s, None)
  {
    if |s.results| == 0 then Outcome(s, None)
    else
      match k
      case ArrowDown =>
        Outcome(s.(selected := if s.selected < |s.results| - 1 then s.selected + 1 else s.selected), None)
      case ArrowUp =>
        Outcome(s.(selected := if s.selected > 0 then s.selected - 1 else s.selected), None)
      case Enter =>
        if s.selected >= 0 then OpenResult(s, s.results[s.selected].id) else Outcome(s, None)
      case Escape => Outcome(s.(results := [], selected := -1), None)
      case OtherKey => Outcome(s, None)
  }

  /** `handleSearch`: a blank query changes nothing; any other query lists the mock results with
      nothing selected. */
  function Search(s: State): (o: Outcome)
    ensures o.navigate.None?
    ensures Trim(s.query) == "" ==> o.state == s
    ensures Trim(s.query) != "" ==> o.state == s.(results := MockResults, selected := -1)
  {
    if Trim(s.query) == "" then Outcome(s, None)
    else Outcome(s.(results := MockResults, selected := -1), None)
  }

  /** `handleKeyDown` calls `preventDefault` on Enter only when a listed result is selected. */
  predicate EnterPrevented(s: State) {
    |s.results| > 0 && s.selected >= 0
  }

  /** One event. The search input is the form's only field and the form has no submit button, so
      an Enter whose default action is not prevented submits the form (implicit submission,
      section 4.10.21.2 of the HTML Living Standard) after `handleKeyDown` ran; in that case the
      key handler changed nothing, and the outcome is the search's. */
  function Step(s: State, e: Event): (o: Outcome)
    requires Valid(s) && Possible(s, e)
    ensures Valid(o.state)
    ensures (e == Submit || (e == Press(Enter) && !EnterPrevented(s))) && Trim(s.query) == "" ==>
      o == Outcome(s, None)
    ensures (e == Submit || (e == Press(Enter) && !EnterPrevented(s))) && Trim(s.query) != "" ==>
      o == Outcome(s.(results := MockResults, selected := -1), None)
    ensures e == Press(Enter) && EnterPrevented(s) ==> o == OpenResult(s, s.results[s.selected].id)
    ensures e.Hover? ==> o == Outcome(s.(selected := e.index), None)
    ensures e == ClickOutside ==> o == Outcome(s.(results := [], selected := -1), None)
    ensures e == ClearButton ==> o == Outcome(s.(query := "", results := []), None)
    ensures o.navigate.Some? ==> exists r :: r in s.results && o.navigate == Some("/dapp/" + r.id)
    ensures o.navigate.Some? ==> o.state.results == [] && o.state.query == ""
  {
    match e
    case Type(text) => Outcome(s.(query := text), None)
    case Submit => Search(s)
    case Press(k) =>
      var handled := KeyDown(s, k);
      if k == Enter && !EnterPrevented(s) then Search(handled.state) else handled
    case ClickResult(i) => OpenResult(s, s.results[i].id)
    case Hover(i) => Outcome(s.(selected := i), None)
    case ClickOutside => Outcome(s.(results := [], selected := -1), None)
    case ClearButton => Outcome(s.(query := "", results := []), None)
  }

  /** While no results are listed the key handler returns early: every key but Enter changes
      nothing, and Enter, not prevented, submits the form like the form's own submit. */
  lemma KeysWithoutResults(s: State, k: Key)
    requires Valid(s) && |s.results| == 0
    ensures k != Enter ==> Step(s, Press(k)) == Outcome(s, None)
    ensures Step(s, Press(Enter)) == Step(s, Submit)
  {
  }

  /** Enter with no result selected searches: a non-blank query lists the results, nothing selected. */
  lemma EnterSearches(s: State)
    requires Valid(s) && !EnterPrevented(s) && Trim(s.query) != ""
    ensures Step(s, Press(Enter)).state.results == MockResults
    ensures Step(s, Press(Enter)).state.selected == -1
    ensures Step(s, Press(Enter)).navigate.None?
  {
  }

  /** Moving down and back up returns to the same result unless the last one, where ArrowDown
      stops, is selected; from "nothing selected" it ends on the first result instead, because
      ArrowUp stops at 0. */
  lemma DownThenUp(s: State)
    requires Valid(s) && |s.results| > 0 && s.selected < |s.results| - 1
    ensures s.selected >= 0 ==> Step(Step(s, Press(ArrowDown)).state, Press(ArrowUp)).state == s
    ensures s.selected == -1 ==> Step(Step(s, Press(ArrowDown)).state, Press(ArrowUp)).state == s.(selected := 0)
  {
  }

  /** ArrowUp never goes back to "nothing selected" once a result is selected. */
  lemma UpKeepsSelection(s: State)
    requires Valid(s) && |s.results| > 0 && s.selected >= 0
    ensures Step(s, Press(ArrowUp)).state.selected >= 0
  {
  }

  /** Event sequences the component can deliver, one after the other. */
  ghost predicate PossibleRun(s: State, es: seq<Event>)
    requires Valid(s)
    decreases |es|
  {
    |es| == 0 || (Possible(s, es[0]) && PossibleRun(Step(s, es[0]).state, es[1..]))
  }

  /** The state after a run; the selection invariant holds throughout. */
  function Run(s: State, es: seq<Event>): (t: State)
    requires Valid(s) && PossibleRun(s, es)
    ensures Valid(t)
    decreases |es|
  {
    if |es| == 0 then s else Run(Step(s, es[0]).state, es[1..])
  }
}

=== FILE: seqs.dfy ===
/** Generic sequence operations mirroring the JavaScript array methods the source uses. */
module Seqs {

  /** `a` can be obtained from `b` by deleting elements: order and values are kept. */
  ghost predicate Subsequence<T>(a: seq<T>, b: seq<T>)
    decreases |b|
  {
    if |a| == 0 then true
    else if |b| == 0 then false
    else (a[0] == b[0] && Subsequence(a[1..], b[1..])) || Subsequence(a, b[1..])
  }

  /** `Array.prototype.filter`: the elements satisfying `p`, in their original order. */
  function Filter<T(!new)>(s: seq<T>, p: T -> bool): (r: seq<T>)
    ensures Subsequence(r, s)
    ensures forall x :: x in r <==> x in s && p(x)
    ensures |r| <= |s|
  {
    if |s| == 0 then []
    else
      var rest := Filter(s[1..], p);
      assert s == [s[0]] + s[1..];
      if p(s[0]) then [s[0]] + rest else rest
  }

  /** Filtering keeps every occurrence of a passing value and none of a failing one. */
  lemma {:induction false} FilterCounts<T(!new)>(s: seq<T>, p: T -> bool)
    ensures forall x :: multiset(Filter(s, p))[x] == if p(x) then multiset(s)[x] else 0
  {
    if |s| > 0 {
      FilterCounts(s[1..], p);
      assert s == [s[0]] + s[1..];
    }
  }

  /** Filtering twice with the same predicate changes nothing the second time. */
  lemma {:induction false} FilterIdempotent<T(!new)>(s: seq<T>, p: T -> bool)
    ensures Filter(Filter(s, p), p) == Filter(s, p)
  {
    if |s| > 0 {
      FilterIdempotent(s[1..], p);
    }
  }

  /** Filtering a sequence whose every element passes returns it unchanged. */
  lemma {:induction false} FilterAllPass<T(!new)>(s: seq<T>, p: T -> bool)
    requires forall x :: x in s ==> p(x)
    ensures Filter(s, p) == s
  {
    if |s| > 0 {
      forall x | x in s[1..] ensures p(x) {
        assert x in s;
      }
      FilterAllPass(s[1..], p);
      assert p(s[0]);
    }
  }

  /** When no element passes, filtering keeps nothing. */
  lemma {:induction false} FilterNone<T(!new)>(s: seq<T>, p: T -> bool)
    requires forall i :: 0 <= i < |s| ==> !p(s[i])
    ensures Filter(s, p) == []
  {
    if |s| > 0 {
      forall i | 0 <= i < |s| - 1 ensures !p(s[1..][i]) {
        assert s[1..][i] == s[i + 1];
      }
      FilterNone(s[1..], p);
    }
  }

  /** When exactly the first `n` elements pass, filtering keeps the first `n`. */
  lemma {:induction false} FilterPrefix<T(!new)>(s: seq<T>, n: nat, p: T -> bool)
    requires n <= |s|
    requires forall i :: 0 <= i < |s| ==> (p(s[i]) <==> i < n)
    ensures Filter(s, p) == s[..n]
  {
    if n == 0 {
      FilterNone(s, p);
    } else {
      forall i | 0 <= i < |s| - 1 ensures p(s[1..][i]) <==> i < n - 1 {
        assert s[1..][i] == s[i + 1];
      }
      var t := s[1..];
      FilterPrefix(t, n - 1, p);
      assert p(s[0]);
      assert Filter(s, p) == [s[0]] + Filter(t, p);
      assert [s[0]] + t[..n - 1] == s[..n];
    }
  }

  /** When exactly the elements from index `n` on pass, filtering keeps those. */
  lemma {:induction false} FilterSuffix<T(!new)>(s: seq<T>, n: nat, p: T -> bool)
    requires n <= |s|
    requires forall i :: 0 <= i < |s| ==> (p(s[i]) <==> i >= n)
    ensures Filter(s, p) == s[n..]
  {
    if |s| > 0 {
      var m := if n > 0 then n - 1 else 0;
      var t := s[1..];
      forall i | 0 <= i < |t| ensures p(t[i]) <==> i >= m {
        assert t[i] == s[i + 1];
      }
      FilterSuffix(t, m, p);
      if n == 0 {
        assert p(s[0]);
        assert Filter(s, p) == [s[0]] + Filter(t, p);
        assert [s[0]] + t == s;
      } else {
        assert !p(s[0]);
        assert Filter(s, p) == Filter(t, p);
        assert t[m..] == s[n..];
      }
    }
  }

  /** Filtering only looks at the predicate's values on the sequence's elements. */
  lemma {:induction false} FilterCongruent<T(!new)>(s: seq<T>, p: T -> bool, q: T -> bool)
    requires forall i :: 0 <= i < |s| ==> p(s[i]) == q(s[i])
    ensures Filter(s, p) == Filter(s, q)
  {
    if |s| > 0 {
      var t := s[1..];
      forall i | 0 <= i < |t| ensures p(t[i]) == q(t[i]) {
        assert t[i] == s[i + 1];
      }
      FilterCongruent(t, p, q);
      assert p(s[0]) == q(s[0]);
    }
  }

  /** Filtering distributes over concatenation. */
  lemma {:induction false} FilterConcat<T(!new)>(a: seq<T>, b: seq<T>, p: T -> bool)
    ensures Filter(a + b, p) == Filter(a, p) + Filter(b, p)
  {
    if |a| == 0 {
      assert a + b == b;
    } else {
      assert (a + b)[1..] == a[1..] + b;
      FilterConcat(a[1..], b, p);
    }
  }

  /** `Array.prototype.some`. */
  function Any<T(!new)>(s: seq<T>, p: T -> bool): (r: bool)
    ensures r <==> exists x :: x in s && p(x)
  {
    if |s| == 0 then false
    else
      assert forall x :: x in s <==> x == s[0] || x in s[1..];
      p(s[0]) || Any(s[1..], p)
  }

  /** The end index `Array.prototype.slice(0, end)` actually uses on a sequence of length `len`. */
  function SliceEnd(len: nat, end: int): (k: nat)
    ensures k <= len
    ensures 0 <= end ==> k == if end <= len then end else len
    ensures end < 0 ==> k == if len + end >= 0 then len + end else 0
  {
    if end < 0 then (if len + end >= 0 then len + end else 0)
    else if end <= len then end else len
  }

  /** `s.slice(0, end)` with JavaScript's treatment of negative and too-large ends. */
  function SlicePrefix<T>(s: seq<T>, end: int): (r: seq<T>)
    ensures r <= s
    ensures 0 <= end ==> |r| == if end <= |s| then end else |s|
  {
    s[..SliceEnd(|s|, end)]
  }

  /** `Array.prototype.flatMap`: the images of the elements, concatenated in order. */
  function FlatMap<S, T>(s: seq<S>, f: S -> seq<T>): (r: seq<T>)
    ensures |s| == 0 ==> r == []
  {
    if |s| == 0 then [] else f(s[0]) + FlatMap(s[1..], f)
  }

  /** When every image has between `lo` and `hi` elements, the result has between `lo` and
      `hi` elements per input element. */
  lemma {:induction false} FlatMapBounds<S, T>(s: seq<S>, f: S -> seq<T>, lo: nat, hi: nat)
    requires forall k :: 0 <= k < |s| ==> lo <= |f(s[k])| <= hi
    ensures lo * |s| <= |FlatMap(s, f)| <= hi * |s|
  {
    if |s| > 0 {
      assert lo <= |f(s[0])| <= hi;
      forall k | 0 <= k < |s[1..]| ensures lo <= |f(s[1..][k])| <= hi {
        assert s[1..][k] == s[k + 1];
      }
      FlatMapBounds(s[1..], f, lo, hi);
      assert lo * |s| == lo + lo * |s[1..]| && hi * |s| == hi + hi * |s[1..]|;
    }
  }

  /** The images of a concatenation are the images of each part, in order. */
  lemma {:induction false} FlatMapConcat<S, T>(a: seq<S>, b: seq<S>, f: S -> seq<T>)
    ensures FlatMap(a + b, f) == FlatMap(a, f) + FlatMap(b, f)
  {
    if |a| == 0 {
      assert a + b == b;
    } else {
      assert (a + b)[0] == a[0] && (a + b)[1..] == a[1..] + b;
      FlatMapConcat(a[1..], b, f);
    }
  }

  /** A value is in the result exactly when it is in the image of some element. */
  lemma {:induction false} FlatMapMembers<S, T>(s: seq<S>, f: S -> seq<T>)
    ensures forall y :: y in FlatMap(s, f) <==> exists x :: x in s && y in f(x)
  {
    if |s| > 0 {
      FlatMapMembers(s[1..], f);
      forall y ensures y in FlatMap(s, f) <==> exists x :: x in s && y in f(x) {
        if exists x :: x in s && y in f(x) {
          var x :| x in s && y in f(x);
          if x != s[0] {
            assert x in s[1..];
          }
        }
      }
    }
  }
}

=== FILE: sorting.dfy ===
/** `[...xs].sort((a, b) => key(b) - key(a))`: a stable sort into non-increasing key order.
    ECMAScript requires `Array.prototype.sort` to be stable; insertion sort that places an
    element before the first one whose key is not greater than its own is stable. */
module Sorting {
  import Seqs

  ghost predicate SortedDesc<T>(s: seq<T>, key: T -> int) {
    forall i, j :: 0 <= i < j < |s| ==> key(s[i]) >= key(s[j])
  }

  /** Inserts `x` into a non-increasing sequence ahead of every element whose key does not exceed its own. */
  function Insert<T>(x: T, s: seq<T>, key: T -> int): (r: seq<T>)
    requires SortedDesc(s, key)
    ensures SortedDesc(r, key)
    ensures multiset(r) == multiset(s) + multiset{x}
    ensures |r| == |s| + 1
    ensures r[0] == x || (|s| > 0 && r[0] == s[0])
  {
    if |s| == 0 then [x]
    else if key(x) >= key(s[0]) then [x] + s
    else
      var tail := Insert(x, s[1..], key);
      assert s == [s[0]] + s[1..];
      InsertBelowHead(x, s, key, tail);
      [s[0]] + tail
  }

  /** Nothing inserted into the tail of `s` has a key above that of `s[0]`. */
  lemma InsertBelowHead<T>(x: T, s: seq<T>, key: T -> int, tail: seq<T>)
    requires |s| > 0 && SortedDesc(s, key) && key(x) < key(s[0])
    requires multiset(tail) == multiset(s[1..]) + multiset{x}
    ensures forall k :: 0 <= k < |tail| ==> key(tail[k]) <= key(s[0])
  {
    forall k | 0 <= k < |tail| ensures key(tail[k]) <= key(s[0]) {
      assert tail[k] in multiset(tail);
      if tail[k] != x {
        assert tail[k] in multiset(s[1..]);
        var m :| 0 <= m < |s[1..]| && s[1..][m] == tail[k];
        assert s[m + 1] == tail[k];
      }
    }
  }

  /** Sorts by non-increasing key; the result is a permutation of the input. */
  function SortDesc<T>(s: seq<T>, key: T -> int): (r: seq<T>)
    ensures SortedDesc(r, key)
    ensures multiset(r) == multiset(s)
    ensures |r| == |s|
  {
    if |s| == 0 then []
    else
      assert s == [s[0]] + s[1..];
      Insert(s[0], SortDesc(s[1..], key), key)
  }

  /** An already non-increasing sequence comes back unchanged: ties keep their input order,
      and sorting a sorted result again changes nothing. */
  lemma {:induction false} SortDescOfSorted<T>(s: seq<T>, key: T -> int)
    requires SortedDesc(s, key)
    ensures SortDesc(s, key) == s
  {
    if |s| > 0 {
      SortDescOfSorted(s[1..], key);
      assert s == [s[0]] + s[1..];
    }
  }

  lemma SortDescIdempotent<T>(s: seq<T>, key: T -> int)
    ensures SortDesc(SortDesc(s, key), key) == SortDesc(s, key)
  {
    SortDescOfSorted(SortDesc(s, key), key);
  }

  /** Inserting `x` adds it to the elements of its own key, after none of them: among equal keys
      `x` comes first, the rest keep their order. `p` picks the elements whose key is `k`. */
  lemma {:induction false} InsertTies<T(!new)>(x: T, t: seq<T>, key: T -> int, p: T -> bool, k: int)
    requires SortedDesc(t, key)
    requires forall y :: p(y) <==> key(y) == k
    ensures Seqs.Filter(Insert(x, t, key), p) ==
      if p(x) then [x] + Seqs.Filter(t, p) else Seqs.Filter(t, p)
  {
    var r := Insert(x, t, key);
    if |t| == 0 {
      assert r == [x];
      assert r[1..] == [];
    } else if key(x) >= key(t[0]) {
      assert r == [x] + t;
      assert r[1..] == t;
    } else {
      var tail := Insert(x, t[1..], key);
      assert r == [t[0]] + tail;
      assert r[1..] == tail;
      InsertTies(x, t[1..], key, p, k);
      assert p(x) ==> !p(t[0]);
    }
  }

  /** The sort is stable: the elements of any one key appear in the result in their input order.
      `p` picks the elements whose key is `k`. */
  lemma {:induction false} SortDescKeepsTies<T(!new)>(s: seq<T>, key: T -> int, p: T -> bool, k: int)
    requires forall y :: p(y) <==> key(y) == k
    ensures Seqs.Filter(SortDesc(s, key), p) == Seqs.Filter(s, p)
  {
    if |s| > 0 {
      var t := SortDesc(s[1..], key);
      assert SortDesc(s, key) == Insert(s[0], t, key);
      SortDescKeepsTies(s[1..], key, p, k);
      InsertTies(s[0], t, key, p, k);
      assert Seqs.Filter(s, p) == if p(s[0]) then [s[0]] + Seqs.Filter(s[1..], p) else Seqs.Filter(s[1..], p);
    }
  }

  lemma SortDescStable<T(!new)>(s: seq<T>, key: T -> int, k: int)
    ensures Seqs.Filter(SortDesc(s, key), x => key(x) == k) == Seqs.Filter(s, x => key(x) == k)
  {
    SortDescKeepsTies(s, key, x => key(x) == k, k);
  }

  /** Taking a prefix of a non-increasing sequence keeps the largest keys: nothing left behind
      has a larger key than anything taken. */
  lemma PrefixKeepsLargest<T>(s: seq<T>, n: nat, key: T -> int)
    requires SortedDesc(s, key)
    requires n <= |s|
    ensures forall x, y :: x in multiset(s) - multiset(s[..n]) && y in s[..n] ==> key(x) <= key(y)
  {
    assert s == s[..n] + s[n..];
    assert multiset(s) - multiset(s[..n]) == multiset(s[n..]);
    forall x, y | x in multiset(s) - multiset(s[..n]) && y in s[..n]
      ensures key(x) <= key(y)
    {
      assert x in s[n..];
      var i :| 0 <= i < |s[n..]| && s[n..][i] == x;
      var j :| 0 <= j < n && s[..n][j] == y;
      assert s[n + i] == x && s[j] == y;
    }
  }

  /** `SortDesc(s, key).slice(0, n)`: the n elements with the largest keys, largest first. */
  function TakeLargest<T>(s: seq<T>, n: nat, key: T -> int): (r: seq<T>)
    ensures |r| == if |s| < n then |s| else n
    ensures SortedDesc(r, key)
    ensures multiset(r) <= multiset(s)
    ensures forall x, y :: x in multiset(s) - multiset(r) && y in r ==> key(x) <= key(y)
  {
    var sorted := SortDesc(s, key);
    var k := if |sorted| < n then |sorted| else n;
    PrefixKeepsLargest(sorted, k, key);
    assert sorted == sorted[..k] + sorted[k..];
    assert multiset(sorted) == multiset(sorted[..k]) + multiset(sorted[k..]);
    sorted[..k]
  }
}

=== FILE: text.dfy ===
/** String operations the source gets from `String.prototype`, with case mapping restricted to ASCII. */
module Text {
  import opened Wrappers

  // ---------------------------------------------------------------- case mapping

  predicate IsUpperAscii(c: char) { 'A' <= c <= 'Z' }
  predicate IsLowerAscii(c: char) { 'a' <= c <= 'z' }

  function LowerChar(c: char): char {
    if IsUpperAscii(c) then (c as int + 32) as char else c
  }

  function UpperChar(c: char): char {
    if IsLowerAscii(c) then (c as int - 32) as char else c
  }

  /** `toLowerCase`, ASCII letters only. */
  function Lower(s: string): string {
    seq(|s|, i requires 0 <= i < |s| => LowerChar(s[i]))
  }

  /** `toUpperCase`, ASCII letters only. */
  function Upper(s: string): string {
    seq(|s|, i requires 0 <= i < |s| => UpperChar(s[i]))
  }

  lemma LowerConcat(a: string, b: string)
    ensures Lower(a + b) == Lower(a) + Lower(b)
  {
    assert forall i :: 0 <= i < |a + b| ==> Lower(a + b)[i] == (Lower(a) + Lower(b))[i];
  }

  lemma UpperConcat(a: string, b: string)
    ensures Upper(a + b) == Upper(a) + Upper(b)
  {
    assert forall i :: 0 <= i < |a + b| ==> Upper(a + b)[i] == (Upper(a) + Upper(b))[i];
  }

  lemma LowerSlice(s: string, i: nat, j: nat)
    requires i <= j <= |s|
    ensures Lower(s[i..j]) == Lower(s)[i..j]
  {
  }

  /** Upper- and lower-casing forget which case a letter had. */
  lemma CaseRoundTrips(s: string)
    ensures Lower(Upper(s)) == Lower(s)
    ensures Upper(Lower(s)) == Upper(s)
    ensures Lower(Lower(s)) == Lower(s)
    ensures Upper(Upper(s)) == Upper(s)
  {
  }

  /** Case mapping never creates or removes a space. */
  lemma CaseKeepsSpaces(c: char)
    ensures LowerChar(c) == ' ' <==> c == ' '
    ensures UpperChar(c) == ' ' <==> c == ' '
  {
  }

  /** An upper-cased string has no lower-case ASCII letter. */
  lemma UpperHasNoLower(s: string)
    ensures forall i :: 0 <= i < |Upper(s)| ==> !IsLowerAscii(Upper(s)[i])
  {
  }

  // ---------------------------------------------------------------- substring search

  /** `needle` occurs in `hay` starting at index `i`. */
  ghost predicate OccursAt(needle: string, hay: string, i: nat) {
    i + |needle| <= |hay| && hay[i..i + |needle|] == needle
  }

  /** `indexOf`: the first index where `needle` occurs, if any. */
  function IndexOf(needle: string, hay: string): (r: Option<nat>)
    ensures r.Some? ==> OccursAt(needle, hay, r.value)
    ensures r.Some? ==> forall j :: 0 <= j < r.value ==> !OccursAt(needle, hay, j)
    ensures r.None? ==> forall j :: 0 <= j ==> !OccursAt(needle, hay, j)
    decreases |hay|
  {
    if |needle| > |hay| then None
    else if needle <= hay then Some(0)
    else
      match IndexOf(needle, hay[1..])
      case None =>
        assert forall j :: 0 <= j ==> (OccursAt(needle, hay, j + 1) <==> OccursAt(needle, hay[1..], j));
        assert !OccursAt(needle, hay, 0);
        assert forall j :: 0 <= j ==> !OccursAt(needle, hay, j) by {
          forall j | 0 <= j ensures !OccursAt(needle, hay, j) {
            if j > 0 { assert !OccursAt(needle, hay[1..], j - 1); }
          }
        }
        None
      case Some(k) =>
        assert forall j :: 0 <= j ==> (OccursAt(needle, hay, j + 1) <==> OccursAt(needle, hay[1..], j));
        assert forall j :: 0 <= j < k + 1 ==> !OccursAt(needle, hay, j) by {
          forall j | 0 <= j < k + 1 ensures !OccursAt(needle, hay, j) {
            if j > 0 { assert !OccursAt(needle, hay[1..], j - 1); }
          }
        }
        Some(k + 1)
  }

  /** `includes`. */
  predicate Contains(needle: string, hay: string) {
    IndexOf(needle, hay).Some?
  }

  /** `Contains` is exactly "occurs somewhere". */
  lemma ContainsIff(needle: string, hay: string)
    ensures Contains(needle, hay) <==> exists i :: 0 <= i && OccursAt(needle, hay, i)
  {
  }

  /** `endsWith`. */
  predicate EndsWith(s: string, suffix: string) {
    |suffix| <= |s| && s[|s| - |suffix|..] == suffix
  }

  // ---------------------------------------------------------------- replacement

  /** `s.replace(new RegExp(pat, 'i'), pat)` for a pattern without regex metacharacters:
      the first case-insensitive occurrence of `pat` is rewritten to `pat`'s own spelling. */
  function ReplaceFirstIgnoringCase(s: string, pat: string): (r: string)
    ensures |r| == |s|
    ensures Lower(r) == Lower(s)
    ensures IndexOf(Lower(pat), Lower(s)).None? ==> r == s
    ensures IndexOf(Lower(pat), Lower(s)).Some? ==>
      var i := IndexOf(Lower(pat), Lower(s)).value;
      i + |pat| <= |s| && r[..i] == s[..i] && r[i..i + |pat|] == pat && r[i + |pat|..] == s[i + |pat|..]
  {
    match IndexOf(Lower(pat), Lower(s))
    case None => s
    case Some(i) =>
      var r := s[..i] + pat + s[i + |pat|..];
      assert s == s[..i] + s[i..i + |pat|] + s[i + |pat|..];
      LowerSlice(s, i, i + |pat|);
      LowerConcat(s[..i] + pat, s[i + |pat|..]);
      LowerConcat(s[..i], pat);
      LowerConcat(s[..i] + s[i..i + |pat|], s[i + |pat|..]);
      LowerConcat(s[..i], s[i..i + |pat|]);
      assert r[..i] == s[..i];
      assert r[i..i + |pat|] == pat;
      assert r[i + |pat|..] == s[i + |pat|..];
      r
  }

  /** The first index holding `c`, if any. */
  function FirstIndexOf(c: char, s: string): (r: Option<nat>)
    ensures r.Some? ==> r.value < |s| && s[r.value] == c && c !in s[..r.value]
    ensures r.None? <==> c !in s
  {
    if |s| == 0 then None
    else if s[0] == c then Some(0)
    else
      match FirstIndexOf(c, s[1..])
      case None => None
      case Some(k) =>
        assert s[..k + 1] == [s[0]] + s[1..][..k];
        Some(k + 1)
  }

  /** `s.replace(c, rep)` with a one-character string pattern: only the first occurrence is replaced. */
  function ReplaceFirstChar(s: string, c: char, rep: string): (r: string)
    ensures c !in s ==> r == s
    ensures c in s ==> exists i :: 0 <= i < |s| && s[i] == c && c !in s[..i] && r == s[..i] + rep + s[i + 1..]
  {
    match FirstIndexOf(c, s)
    case None => s
    case Some(i) => s[..i] + rep + s[i + 1..]
  }

  /** Where the first occurrence is known, the replacement happens there. */
  lemma ReplaceFirstAt(s: string, c: char, rep: string, i: nat)
    requires i < |s| && s[i] == c && c !in s[..i]
    ensures ReplaceFirstChar(s, c, rep) == s[..i] + rep + s[i + 1..]
  {
  }

  // ---------------------------------------------------------------- split / join

  /** `s.split(' ')`: always at least one part, no part contains a space. */
  function Split(s: string): (r: seq<string>)
    ensures |r| >= 1
    ensures forall k :: 0 <= k < |r| ==> ' ' !in r[k]
  {
    if |s| == 0 then [""]
    else
      var rest := Split(s[1..]);
      if s[0] == ' ' then [""] + rest
      else [[s[0]] + rest[0]] + rest[1..]
  }

  /** `parts.join(' ')`. */
  function Join(parts: seq<string>): string {
    if |parts| == 0 then ""
    else if |parts| == 1 then parts[0]
    else parts[0] + " " + Join(parts[1..])
  }

  /** `parts.join('')`. */
  function Concat(parts: seq<string>): string {
    if |parts| == 0 then "" else parts[0] + Concat(parts[1..])
  }

  /** Joining the parts of a split gives back the original string. */
  lemma {:induction false} JoinSplit(s: string)
    ensures Join(Split(s)) == s
  {
    if |s| > 0 {
      JoinSplit(s[1..]);
      var rest := Split(s[1..]);
      if s[0] == ' ' {
        assert Split(s) == [""] + rest;
        assert Join(Split(s)) == "" + " " + Join(rest);
      } else {
        var parts := [[s[0]] + rest[0]] + rest[1..];
        assert Split(s) == parts;
        if |rest| == 1 {
          assert Join(parts) == [s[0]] + rest[0];
        } else {
          assert Join(rest) == rest[0] + " " + Join(rest[1..]);
          assert Join(parts) == [s[0]] + rest[0] + " " + Join(rest[1..]);
        }
        assert s == [s[0]] + s[1..];
      }
    }
  }

  /** Splitting a join of space-free parts gives the parts back. */
  lemma {:induction false} SplitJoin(parts: seq<string>)
    requires |parts| >= 1
    requires forall k :: 0 <= k < |parts| ==> ' ' !in parts[k]
    ensures Split(Join(parts)) == parts
  {
    if |parts| == 1 {
      SplitSpaceFree(parts[0]);
    } else {
      SplitJoin(parts[1..]);
      SplitWordThenSpace(parts[0], Join(parts[1..]));
      assert [parts[0]] + parts[1..] == parts;
    }
  }

  /** A space-free string splits into itself. */
  lemma {:induction false} SplitSpaceFree(w: string)
    requires ' ' !in w
    ensures Split(w) == [w]
  {
    if |w| > 0 {
      assert ' ' !in w[1..];
      SplitSpaceFree(w[1..]);
      assert w == [w[0]] + w[1..];
    }
  }

  /** Splitting `w + " " + t` for a space-free `w` puts `w` in front of the parts of `t`. */
  lemma {:induction false} SplitWordThenSpace(w: string, t: string)
    requires ' ' !in w
    ensures Split(w + " " + t) == [w] + Split(t)
  {
    if |w| == 0 {
      assert w + " " + t == [' '] + t;
      assert (w + " " + t)[1..] == t;
    } else {
      assert ' ' !in w[1..];
      SplitWordThenSpace(w[1..], t);
      assert (w + " " + t)[1..] == w[1..] + " " + t;
      assert w == [w[0]] + w[1..];
    }
  }

  /** Two strings with spaces in the same places split into the same number of parts. */
  lemma {:induction false} SplitSameSpaces(a: string, b: string)
    requires |a| == |b|
    requires forall i :: 0 <= i < |a| ==> (a[i] == ' ' <==> b[i] == ' ')
    ensures |Split(a)| == |Split(b)|
  {
    if |a| > 0 {
      SplitSameSpaces(a[1..], b[1..]);
    }
  }

  // ---------------------------------------------------------------- trimming

  /** The characters ECMAScript's `trim` removes (WhiteSpace and LineTerminator). */
  predicate IsJsSpace(c: char) {
    c == '\t' || c == '\n' || c == '\U{000B}' || c == '\U{000C}' || c == '\r' || c == ' '
    || c == '\U{00A0}' || c == '\U{1680}' || ('\U{2000}' <= c <= '\U{200A}')
    || c == '\U{2028}' || c == '\U{2029}' || c == '\U{202F}' || c == '\U{205F}'
    || c == '\U{3000}' || c == '\U{FEFF}'
  }

  function TrimStart(s: string): (r: string)
    ensures |r| <= |s|
  {
    if |s| > 0 && IsJsSpace(s[0]) then TrimStart(s[1..]) else s
  }

  function TrimEnd(s: string): (r: string)
    ensures |r| <= |s|
  {
    if |s| > 0 && IsJsSpace(s[|s| - 1]) then TrimEnd(s[..|s| - 1]) else s
  }

  /** `trim`. */
  function Trim(s: string): string {
    TrimEnd(TrimStart(s))
  }

  /** A string trims to nothing exactly when all its characters are whitespace. */
  lemma {:induction false} TrimEmptyIff(s: string)
    ensures Trim(s) == "" <==> forall i :: 0 <= i < |s| ==> IsJsSpace(s[i])
  {
    TrimStartEmptyIff(s);
    var t := TrimStart(s);
    if |t| > 0 {
      assert !IsJsSpace(t[0]);
      TrimEndKeepsNonSpaceHead(t);
    }
  }

  lemma {:induction false} TrimStartEmptyIff(s: string)
    ensures TrimStart(s) == "" <==> forall i :: 0 <= i < |s| ==> IsJsSpace(s[i])
    ensures |TrimStart(s)| > 0 ==> !IsJsSpace(TrimStart(s)[0])
  {
    if |s| > 0 && IsJsSpace(s[0]) {
      TrimStartEmptyIff(s[1..]);
      assert forall i :: 1 <= i < |s| ==> s[i] == s[1..][i - 1];
    }
  }

  lemma {:induction false} TrimEndKeepsNonSpaceHead(t: string)
    requires |t| > 0 && !IsJsSpace(t[0])
    ensures |TrimEnd(t)| > 0
  {
    if IsJsSpace(t[|t| - 1]) {
      TrimEndKeepsNonSpaceHead(t[..|t| - 1]);
    }
  }

  // ---------------------------------------------------------------- case-equivalence

  /** Strings whose lower-cased forms agree have their spaces in the same places. */
  lemma CaseEquivalentSplit(a: string, b: string)
    requires Lower(a) == Lower(b)
    ensures |Split(a)| == |Split(b)|
  {
    forall i | 0 <= i < |a| ensures a[i] == ' ' <==> b[i] == ' ' {
      assert Lower(a)[i] == Lower(b)[i];
      CaseKeepsSpaces(a[i]);
      CaseKeepsSpaces(b[i]);
    }
    SplitSameSpaces(a, b);
  }

  /** Strings whose lower-cased forms agree either both contain a space or both do not. */
  lemma CaseEquivalentSpaces(a: string, b: string)
    requires Lower(a) == Lower(b)
    ensures ' ' in a <==> ' ' in b
  {
    forall i | 0 <= i < |a| ensures a[i] == ' ' <==> b[i] == ' ' {
      assert Lower(a)[i] == Lower(b)[i];
      CaseKeepsSpaces(a[i]);
      CaseKeepsSpaces(b[i]);
    }
  }

  /** Joining part-wise case-equivalent parts gives case-equivalent strings. */
  lemma {:induction false} JoinCaseEquivalent(ws: seq<string>, vs: seq<string>)
    requires |ws| == |vs|
    requires forall k :: 0 <= k < |ws| ==> Lower(ws[k]) == Lower(vs[k])
    ensures Lower(Join(ws)) == Lower(Join(vs))
  {
    if |ws| > 1 {
      JoinCaseEquivalent(ws[1..], vs[1..]);
      LowerConcat(ws[0] + " ", Join(ws[1..]));
      LowerConcat(vs[0] + " ", Join(vs[1..]));
      LowerConcat(ws[0], " ");
      LowerConcat(vs[0], " ");
    }
  }
}

=== FILE: uri.dfy ===
/** `encodeURIComponent` (section 19.2.6.5 of ECMA-262): characters outside the unreserved
    set are written as the percent-escaped bytes of their UTF-8 encoding (RFC 3629), with
    upper-case hexadecimal digits. */
module Uri {
  import opened Wrappers

  /** Characters `encodeURIComponent` leaves alone. */
  predicate IsUnreserved(c: char) {
    ('A' <= c <= 'Z') || ('a' <= c <= 'z') || ('0' <= c <= '9') ||
    c in "-_.!~*'()"
  }

  // ---------------------------------------------------------------- hexadecimal

  const HexDigits: string := "0123456789ABCDEF"

  function HexValue(c: char): Option<nat> {
    if '0' <= c <= '9' then Some(c as int - '0' as int)
    else if 'A' <= c <= 'F' then Some(c as int - 'A' as int + 10)
    else None
  }

  /** A byte as `%` and two upper-case hexadecimal digits. */
  function EscapeByte(b: nat): (r: string)
    requires b < 256
    ensures |r| == 3 && r[0] == '%'
    ensures HexValue(r[1]).Some? && HexValue(r[2]).Some? && HexValue(r[1]).value * 16 + HexValue(r[2]).value == b
  {
    HexDigitValue(b / 16);
    HexDigitValue(b % 16);
    "%" + [HexDigits[b / 16], HexDigits[b % 16]]
  }

  lemma HexDigitValue(d: nat)
    requires d < 16
    ensures HexValue(HexDigits[d]) == Some(d)
  {
    if d < 10 {
      assert HexDigits[d] as int == '0' as int + d;
    } else {
      assert HexDigits[d] as int == 'A' as int + d - 10;
    }
  }

  /** The byte behind a `%XX` escape, if it is one. */
  function UnescapeByte(s: string): (r: Option<nat>)
    ensures r.Some? ==> r.value < 256
  {
    if |s| < 3 || s[0] != '%' || HexValue(s[1]).None? || HexValue(s[2]).None? then None
    else
      assert HexValue(s[1]).value < 16 && HexValue(s[2]).value < 16;
      Some(HexValue(s[1]).value * 16 + HexValue(s[2]).value)
  }

  // ---------------------------------------------------------------- UTF-8

  /** The UTF-8 bytes of one Unicode scalar value. */
  function Utf8(c: char): (r: seq<nat>)
    ensures 1 <= |r| <= 4
    ensures forall k :: 0 <= k < |r| ==> r[k] < 256
  {
    var cp := c as int;
    if cp < 0x80 then [cp]
    else if cp < 0x800 then [0xC0 + cp / 64, 0x80 + cp % 64]
    else if cp < 0x10000 then [0xE0 + cp / 4096, 0x80 + (cp / 64) % 64, 0x80 + cp % 64]
    else [0xF0 + cp / 262144, 0x80 + (cp / 4096) % 64, 0x80 + (cp / 64) % 64, 0x80 + cp % 64]
  }

  /** The number of bytes a lead byte announces, if it is a lead byte. */
  function SequenceLength(b0: nat): Option<nat> {
    if b0 < 0x80 then Some(1)
    else if 0xC0 <= b0 < 0xE0 then Some(2)
    else if 0xE0 <= b0 < 0xF0 then Some(3)
    else if 0xF0 <= b0 < 0xF8 then Some(4)
    else None
  }

  /** The scalar value a complete byte sequence stands for, if any. */
  function DecodeUtf8(bs: seq<nat>): Option<char> {
    if |bs| == 0 || SequenceLength(bs[0]) != Some(|bs|) then None
    else if exists k :: 1 <= k < |bs| && !(0x80 <= bs[k] < 0xC0) then None
    else
      var cp :=
        if |bs| == 1 then bs[0]
        else if |bs| == 2 then (bs[0] - 0xC0) * 64 + (bs[1] - 0x80)
        else if |bs| == 3 then (bs[0] - 0xE0) * 4096 + (bs[1] - 0x80) * 64 + (bs[2] - 0x80)
        else (bs[0] - 0xF0) * 262144 + (bs[1] - 0x80) * 4096 + (bs[2] - 0x80) * 64 + (bs[3] - 0x80);
      if (0 <= cp < 0xD800 || 0xE000 <= cp < 0x110000) then Some(cp as char) else None
  }

  lemma Utf8RoundTrip(c: char)
    ensures SequenceLength(Utf8(c)[0]) == Some(|Utf8(c)|)
    ensures DecodeUtf8(Utf8(c)) == Some(c)
  {
    var cp := c as int;
    if cp < 0x80 {
    } else if cp < 0x800 {
      TwoBytes(c);
    } else if cp < 0x10000 {
      ThreeBytes(c);
    } else {
      FourBytes(c);
    }
  }

  lemma TwoBytes(c: char)
    requires 0x80 <= c as int < 0x800
    ensures SequenceLength(Utf8(c)[0]) == Some(2)
    ensures DecodeUtf8(Utf8(c)) == Some(c)
  {
    var cp := c as int;
    var bs := Utf8(c);
    assert bs == [0xC0 + cp / 64, 0x80 + cp % 64];
    assert cp == (cp / 64) * 64 + cp % 64;
    assert !exists k :: 1 <= k < |bs| && !(0x80 <= bs[k] < 0xC0);
  }

  lemma ThreeBytes(c: char)
    requires 0x800 <= c as int < 0x10000
    ensures SequenceLength(Utf8(c)[0]) == Some(3)
    ensures DecodeUtf8(Utf8(c)) == Some(c)
  {
    var cp := c as int;
    var bs := Utf8(c);
    assert bs == [0xE0 + cp / 4096, 0x80 + (cp / 64) % 64, 0x80 + cp % 64];
    assert cp / 64 == (cp / 4096) * 64 + (cp / 64) % 64;
    assert cp == (cp / 64) * 64 + cp % 64;
    assert !exists k :: 1 <= k < |bs| && !(0x80 <= bs[k] < 0xC0);
  }

  lemma FourBytes(c: char)
    requires 0x10000 <= c as int
    ensures SequenceLength(Utf8(c)[0]) == Some(4)
    ensures DecodeUtf8(Utf8(c)) == Some(c)
  {
    var cp := c as int;
    var bs := Utf8(c);
    assert bs == [0xF0 + cp / 262144, 0x80 + (cp / 4096) % 64, 0x80 + (cp / 64) % 64, 0x80 + cp % 64];
    assert cp / 4096 == (cp / 262144) * 64 + (cp / 4096) % 64;
    assert cp / 64 == (cp / 4096) * 64 + (cp / 64) % 64;
    assert cp == (cp / 64) * 64 + cp % 64;
    assert !exists k :: 1 <= k < |bs| && !(0x80 <= bs[k] < 0xC0);
  }

  // ---------------------------------------------------------------- the component encoder

  function EscapeBytes(bs: seq<nat>): (r: string)
    requires forall k :: 0 <= k < |bs| ==> bs[k] < 256
    ensures |r| == 3 * |bs|
    ensures |bs| > 0 ==> UnescapeByte(r[..3]) == Some(bs[0])
  {
    if |bs| == 0 then ""
    else
      var head := EscapeByte(bs[0]);
      var r := head + EscapeBytes(bs[1..]);
      assert r[..3] == head;
      r
  }

  function EncodeChar(c: char): (r: string)
    ensures IsUnreserved(c) ==> r == [c]
    ensures !IsUnreserved(c) ==> |r| == 3 * |Utf8(c)| && r[0] == '%'
  {
    if IsUnreserved(c) then [c] else EscapeBytes(Utf8(c))
  }

  /** `encodeURIComponent`. */
  function Encode(s: string): (r: string)
    ensures forall k :: 0 <= k < |r| ==> IsUnreserved(r[k]) || r[k] == '%' || HexValue(r[k]).Some?
    ensures (forall k :: 0 <= k < |s| ==> IsUnreserved(s[k])) ==> r == s
  {
    if |s| == 0 then ""
    else
      var head := EncodeChar(s[0]);
      assert forall k :: 0 <= k < |head| ==> IsUnreserved(head[k]) || head[k] == '%' || HexValue(head[k]).Some? by {
        if !IsUnreserved(s[0]) { EscapeShape(Utf8(s[0])); }
      }
      head + Encode(s[1..])
  }

  lemma {:induction false} EscapeShape(bs: seq<nat>)
    requires forall k :: 0 <= k < |bs| ==> bs[k] < 256
    ensures forall k :: 0 <= k < |EscapeBytes(bs)| ==> EscapeBytes(bs)[k] == '%' || HexValue(EscapeBytes(bs)[k]).Some?
  {
    if |bs| > 0 {
      EscapeShape(bs[1..]);
      var e := EscapeByte(bs[0]);
      assert EscapeBytes(bs) == e + EscapeBytes(bs[1..]);
    }
  }

  /** One character's encoding holds an apostrophe exactly when the character is one. */
  lemma EncodeCharApostrophe(c: char)
    ensures '\'' in EncodeChar(c) <==> c == '\''
  {
    if !IsUnreserved(c) {
      EscapeShape(Utf8(c));
      var e := EncodeChar(c);
      forall k | 0 <= k < |e| ensures e[k] != '\'' {
        assert e[k] == '%' || HexValue(e[k]).Some?;
      }
    }
  }

  /** The apostrophe is unreserved: the encoding contains one exactly when the input does. */
  lemma {:induction false} EncodeApostrophe(s: string)
    ensures '\'' in Encode(s) <==> '\'' in s
  {
    if |s| > 0 {
      var head := EncodeChar(s[0]);
      var rest := Encode(s[1..]);
      assert Encode(s) == head + rest;
      EncodeApostrophe(s[1..]);
      EncodeCharApostrophe(s[0]);
      assert s == [s[0]] + s[1..];
      assert '\'' in head + rest <==> '\'' in head || '\'' in rest;
    }
  }

  // ---------------------------------------------------------------- decoding

  /** Reads `n` escaped bytes from the front of `s`. */
  function UnescapeBytes(s: string, n: nat): Option<seq<nat>>
    decreases n
  {
    if n == 0 then Some([])
    else if |s| < 3 then None
    else match (UnescapeByte(s[..3]), UnescapeBytes(s[3..], n - 1))
      case (Some(b), Some(rest)) => Some([b] + rest)
      case _ => None
  }

  /** `decodeURIComponent` restricted to what `Encode` produces: unreserved characters stand
      for themselves, everything else must be a complete escaped UTF-8 sequence. */
  function Decode(s: string): Option<string>
    decreases |s|
  {
    if |s| == 0 then Some("")
    else if s[0] != '%' then
      if IsUnreserved(s[0]) then match Decode(s[1..]) case Some(t) => Some([s[0]] + t) case None => None
      else None
    else
      match UnescapeByte(s[..if |s| < 3 then |s| else 3])
      case None => None
      case Some(b0) =>
        match SequenceLength(b0)
        case None => None
        case Some(n) =>
          if |s| < 3 * n then None
          else match (UnescapeBytes(s, n), Decode(s[3 * n..]))
            case (Some(bs), Some(t)) =>
              (match DecodeUtf8(bs) case Some(c) => if IsUnreserved(c) then None else Some([c] + t) case None => None)
            case _ => None
  }

  lemma {:induction false} UnescapeEscaped(bs: seq<nat>, rest: string)
    requires forall k :: 0 <= k < |bs| ==> bs[k] < 256
    ensures UnescapeBytes(EscapeBytes(bs) + rest, |bs|) == Some(bs)
  {
    if |bs| > 0 {
      var head := EscapeByte(bs[0]);
      var tail := EscapeBytes(bs[1..]) + rest;
      var s := EscapeBytes(bs) + rest;
      assert s == head + tail;
      assert s[..3] == head;
      assert s[3..] == tail;
      UnescapeEscaped(bs[1..], rest);
      assert [bs[0]] + bs[1..] == bs;
    }
  }

  lemma EncodeCharDecodes(c: char, rest: string)
    ensures Decode(EncodeChar(c) + rest) == match Decode(rest) case Some(t) => Some([c] + t) case None => None
  {
    var s := EncodeChar(c) + rest;
    if IsUnreserved(c) {
      assert s[1..] == rest;
    } else {
      var bs := Utf8(c);
      Utf8RoundTrip(c);
      UnescapeEscaped(bs, rest);
      assert s[..3] == EscapeBytes(bs)[..3];
      assert s[3 * |bs|..] == rest;
    }
  }

  /** Decoding undoes encoding, so distinct strings never share an encoding. */
  lemma {:induction false} DecodeEncode(s: string)
    ensures Decode(Encode(s)) == Some(s)
  {
    if |s| > 0 {
      DecodeEncode(s[1..]);
      EncodeCharDecodes(s[0], Encode(s[1..]));
      assert [s[0]] + s[1..] == s;
    }
  }

  lemma EncodeInjective(a: string, b: string)
    requires Encode(a) == Encode(b)
    ensures a == b
  {
    DecodeEncode(a);
    DecodeEncode(b);
  }
}

=== FILE: wrappers.dfy ===
/** Optional values: the model's stand-in for JavaScript's `undefined` / `null`. */
module Wrappers {

  datatype Option<+T> = None | Some(value: T) {

    /** The value, or `default` when absent (the source's `x ?? d` / `x || d` on present values). */
    function GetOr(default: T): T {
      match this
      case Some(v) => v
      case None => default
    }
  }

  /** `n || 0` on an optional number: absence reads as zero. */
  function OrZero(n: Option<int>): int {
    n.GetOr(0)
  }
}
